=== FILE: README.md ===
# unc_media_store, modelled in Dafny

unc_media_store is a WordPress plugin. It sells video recordings that a
camera uploads to Nextcloud. This project models the core of the plugin as
pure functions over immutable values:

- **Catalog reconciliation.** The hourly pass lists the Nextcloud recordings
  folder. It clears expired share links and snapshots the files table by
  path. Each listed file is then rejected, deleted as too old, inserted or
  refreshed. At the end, every row still carrying a pre-pass `verified`
  stamp is meant to be marked expired; as written the update stores the
  zero date and marks nothing (see Findings).
- **The recording filename convention.** The cron script on the recording
  machine names a video `YYYY-MM-DD_HH-MM_HH-MM.mp4` from its start stamp
  and duration. The plugin reads the date and the two times back at fixed
  offsets.
- **The Stripe purchase pipeline.** Product and price objects are created
  lazily and cached in the files row. A checkout session is created on every
  purchase and recorded as a sale row. A paid confirmation creates a
  Nextcloud share and finalizes the sale.
- **The small helpers.** These are the form-body encoder, WebDAV request
  assembly and reply classification, Stripe key selection, settings
  validation with its `switch` fall-through, date validation, byte-size
  units, settings loading and debug gating.

Each module follows one source file:

| module | file |
|---|---|
| `Tables` | `data.inc.php` |
| `Backend` | `backend.inc.php` |
| `Frontend` | `frontend.inc.php` |
| `GalleryCron` | `tools/gallery_cron.php` |
| `RecordingName` | the producer side (`target_path`, `calculate_end_time`) and the consumer side (`process_single_file`) |
| `Nextcloud` | both Nextcloud clients (`nextcloud.php`, `nextcloud.inc.php`) |
| `Stripe` | both Stripe clients (`libraries/stripe.php`, `stripe.inc.php`) |
| `Settings` | `settings.inc.php` |
| `MediaStore` | `unc_media_store.php` |
| `FormEncode` | `make_array_string` (both copies) |

Shared helpers:

- `Text`: PHP's `intval`, `substr`, `str_replace`, `explode`/`implode`, `basename`/`dirname`.
- `UrlCode`: `urlencode`.
- `PhpArray`: ordered PHP arrays.
- `Effects`: the log of outside calls.
- `Base`: `Option` and the calendar.

Modelling conventions:

- Tables are sequences of rows in storage order.
  - An `INSERT` appends a row.
  - An `UPDATE ... WHERE` maps over the rows that match.
  - The files table's unique key on `full_path` makes a duplicate insert a no-op that returns id 0.
  - Text columns compare exactly; MySQL's case-insensitive collation is listed under "## Left out".
- Every remote or system call is an `Effect` appended to a log:
  - a WebDAV request;
  - a Stripe call;
  - a mail;
  - a redirect;
  - a trash, mkdir or copy;
  - gallery or audio extraction.

  What such a call returns is an input of the operation that makes it.
- Dates are integer day numbers and times are minutes of the day.
  - PHP's date parsing, formatting and `strtotime` shifts are function-valued fields of a `Calendar` input, along with today's date.
  - `md5` is a function-valued field of the configuration.
- The configuration is an explicit record. This covers `nextcloud_file_cleanup` and `nextcloud_content_types`, which the code reads but `config.inc.php` does not define.
- PHP 8 behaviour is modelled where the code meets it:
  - `intval` of a string reads leading white space, a sign and digits.
  - Missing members and lookups are `null`, which prints as "".
  - A `null` passed to a `string` parameter stops the request with a `TypeError`. This is the `Crashed` outcome.
  - An exception from the Nextcloud class ends the whole reconciliation pass.

Behaviour the code has and the model keeps:

- `file_storage_is_expired` treats an unparsable date as expired. PHP 8 compares `false < DateTime` as true.
- `data_file_has_active_nextcloud_share` inspects only the first joined sale row of the path.
- `data_clean_db` sends the text `NOW()` through a `%s` placeholder. The `datetime` column stores text it cannot read as the zero date, which is the value the rows already hold, so the clean-up marks nothing and reports 0. The model takes the stored value as a parameter; see Findings.
- When the pass stamp equals a pre-pass `verified` value, the clean-up also reaches refreshed and new rows.
- A paid confirmation has no already-finalized guard. Every visit of the success page creates a new share and overwrites the link and expiry.
- `settings_validation`'s `switch` has no `break`:
  - A `length` validator also runs the integer check. The statement descriptor's own default, "Media sales", is therefore rejected.
  - A limit of `true` never rejects on length.
- The price is the flat configured `media_price` in `hkd`. Nothing about the recording enters it.

## Model

| member | source | states |
|---|---|---|
| Tables.ReadDb | data.inc.php:86-96 | the snapshot is keyed by `full_path`, one entry per distinct path, each value a row of the table with that path |
| Tables.ReadDbFindsRows | data.inc.php:86-96 | with unique paths, looking up any row's path in the snapshot gives back that row |
| Tables.FetchDates | data.inc.php:104-112 | the date list holds exactly the distinct start dates of the snapshot, each keyed by itself |
| Tables.InsertFile | backend.inc.php:260-279 | a new path appends one row with the next id, empty Stripe ids and not expired; an existing path leaves the tables unchanged and returns 0 (unique key on `full_path`) |
| Tables.UpdateVerified | backend.inc.php:283-292 | only the `verified` field of the rows with that path changes; the sales table is untouched |
| Tables.PrimeSalesSession | data.inc.php:164-193 | with a session id, exactly one sale row is appended (next id, file id, session id, current mode, no buyer, link or expiry); without one the `INSERT` of `NULL` into the `NOT NULL` session column fails and no sale is added; either way, on the files rows with that id only the product and price ids change |
| Tables.FinalizeSalesSession | data.inc.php:205-229 | only fullname, email, link and expiry change, and only on the sale rows of that session; the files table is untouched |
| Tables.FinalizeOverwrites | data.inc.php:205-229 | finalizing a session twice leaves what the second call alone leaves: the later link and expiry win |
| Tables.FinalizeKeepsSessionFile | data.inc.php:269-287 | finalizing a session does not change which file the session resolves to |
| Tables.UpdateNcShare | data.inc.php:241-261 | only link and expiry of the sale rows with that id change |
| Tables.CleanupExpiredLinks | data.inc.php:320-329 | the link is emptied on exactly the sales whose expiry is before today; afterwards no sale with a link is expired |
| Tables.GetSales | data.inc.php:297-314 | all sales outside live mode; in live mode exactly the sales whose mode is `live` (case-insensitively); newest first, i.e. in reverse storage order, which is `sales_time` order because each sale is stamped `NOW()` when appended |
| Tables.FileHasActiveShare | data.inc.php:331-344 | true iff the first sale joined to a file of that path has a non-empty link |
| Tables.FirstOfPath | data.inc.php:331-344 | the index found is the first sale joined to the path; none is found iff no sale joins it |
| Tables.GetFileFromSession | data.inc.php:269-287 | a path is returned iff the first sale of the session joins a file row, and it is the path of a file row with that sale's file id; no path when no sale carries the session or its file is gone |
| Tables.PrimedSessionFindsFile | data.inc.php:164-193 | after priming a fresh session for an existing file, the session resolves to that file's path |
| Tables.JoinSale | data.inc.php:373-390 | the left join distinguishes no sale, a sale whose file is gone, and the joined file row of the sale |
| Tables.GetFileIdFromSalesId | data.inc.php:373-390 | `false` iff no sale has the id; an id returned is the id of an existing file |
| Tables.GetFilePathFromSalesId | data.inc.php:392-408 | `false` iff no sale has the id; a path returned is a path of the files table |
| Tables.CleanDb | data.inc.php:354-371 | exactly the rows whose `verified` is one of the stamps get the stored value in `expired`; every other row is unchanged |
| Tables.CleanDbCounts | data.inc.php:354-371 | with distinct stamps, the summed affected count is the number of rows whose `verified` is one of the stamps and whose `expired` differs from the stored value (MySQL counts changed rows) |
| Tables.CleanDbAsWritten | data.inc.php:358-363 | with the value `'NOW()'` actually becomes (the zero date), a table whose `expired` columns hold their default is left as it was and the count is 0, whatever the stamps |
| Tables.NowMarksRow | data.inc.php:358-363 | on a one-row table the as-written clean-up keeps the row and counts 0, while the intended current datetime marks it and counts 1 |
| Tables.CleanDbWellFormed | data.inc.php:354-371 | marking rows expired keeps ids and paths unique |
| Backend.FileStorageIsExpired | backend.inc.php:358-366 | an unparsable date counts as expired; otherwise expired iff the date is on or before today shifted back by the cleanup window, since the parsed date carries an earlier time of day than the later `new DateTime()` |
| Backend.FileRetentionDays | backend.inc.php:368-376 | a day count exists iff the date parses; it is the whole days between the end of the window and now: one short of the day distance when the end is after today, the day distance otherwise |
| Backend.ExpiryMatchesRetention | backend.inc.php:358-376 | with shifts that move by the same number of days, expired iff date + window <= today; the retention days are then the days since the window ended, and otherwise the whole days left before its last day begins |
| Backend.BoundaryDayExpires | backend.inc.php:358-376 | a recording dated exactly one window before today is expired and has zero retention days |
| Backend.NewFileNotification | backend.inc.php:323-348 | no mail when the admin address is shorter than 3 characters, otherwise one mail to it with the recording subject and the text with placeholders filled |
| Backend.PlainTextUnchanged | backend.inc.php:333-346 | a mail text without placeholders is sent unchanged |
| Backend.PricePlaceholderFilled | backend.inc.php:333-346 | a text that is only the price placeholder becomes the price and the currency |
| Backend.NewFileFor | backend.inc.php:225-282 | the inserted row's path strips the server prefix; name, folder, date and times come from the filename; `verified` is the pass stamp |
| Backend.DownloadThumbnail | backend.inc.php:304-313 | nothing happens when the thumbnail is on disk; otherwise one download request is sent, which throws iff the request fails or a non-empty reply cannot be written |
| Backend.ProcessSingleFile | backend.inc.php:213-296 | exactly one outcome per file: rejected with no change iff the href has a space or lies in the root folder; deleted with no table change iff the window passed and no share is active; inserted iff the path is not in the snapshot; refreshed otherwise |
| Backend.ProcessAll | backend.inc.php:178-188 | files are processed in order until one throws; the counters equal the numbers of new and deleted results; the sales table is untouched |
| Backend.ProcessAllRows | backend.inc.php:178-188 | rows present before the loop keep their place and change only by taking the pass stamp, exactly when their path was refreshed; rows added carry the pass stamp |
| Backend.OldTimestamps | backend.inc.php:173-176 | the collected stamps are exactly the `verified` values of the snapshot, each keyed by itself |
| Backend.OldStampsAreVerifiedValues | backend.inc.php:165-176 | with unique paths, the collected stamps are exactly the `verified` values of all rows read before the pass |
| Backend.ReadAllFiles | backend.inc.php:151-199 | the pass starts with a listing request of depth `recording`; a failed listing changes nothing and reports nothing |
| Backend.Reconcile | backend.inc.php:157-196 | the pass filters the listing, clears expired links, snapshots, processes, and cleans with the pre-pass stamps unless processing threw |
| Backend.CleanPass | backend.inc.php:191-196 | rows carrying a pre-pass stamp get the stored value in `expired` and nothing else changes; the report carries the counters and, for distinct stamps, the number of rows whose `expired` changed |
| Backend.PassExpiresStaleRows | backend.inc.php:169-191 | after a completed pass every row not refreshed holds the stored value in `expired`; when the pass stamp is a pre-pass value all rows do; otherwise refreshed rows carry the pass stamp and keep `expired`. With the intended `NOW()` that marks the stale rows expired |
| Backend.SalesCreateLink | backend.inc.php:378-391 | one share request for the sale's file; the link is stored iff the request succeeds with a non-empty URL; otherwise nothing is written |
| RecordingName.ParseStamp | tools/gallery_cron.php:307-317 | a start stamp is read only in the `Y-m-d H-i` layout; its day is the parsed date and its minute of day is hours × 60 + minutes |
| RecordingName.EndMinute | tools/gallery_cron.php:307-323 | the end time is the start plus the duration, reduced modulo 1440 |
| RecordingName.CalculateEndTime | tools/gallery_cron.php:307-323 | defined iff the start stamp parses; the result is `HH-MM` whose clock value is the end minute |
| RecordingName.TargetFilename | tools/gallery_cron.php:169-194 | defined iff the first 16 characters parse; the name has 26 characters, `_` at 10 and 16, and ends in `.mp4` |
| RecordingName.TargetFilenameValue | tools/gallery_cron.php:180-184 | the name is the stamp with spaces turned into `_`, then `_`, the end time and `.mp4` |
| RecordingName.NameLayout | tools/gallery_cron.php:180-184 | the name carries the date at 0–9, the start `HH-MM` at 11–15 and the end `HH-MM` at 17–21 |
| RecordingName.ParseRecordingName | backend.inc.php:236-253 | the start date is the first ten characters; both times have the form `HH:MM:00` with `-` replaced |
| RecordingName.ReadBack | backend.inc.php:236-253 | reading a name of that layout at the fixed offsets gives back its date, start time and end minute |
| RecordingName.NameRoundTrip | tools/gallery_cron.php:180-184 | parsing the produced name gives back the source date, the source start time, and the start plus duration as end time |
| GalleryCron.GetVideoLength | tools/gallery_cron.php:222-248 | no output gives no length; hours are `intval` of characters 12–13 and must not exceed 3; minutes are `intval` of characters 15–16 |
| GalleryCron.DurationLineRoundTrip | tools/gallery_cron.php:222-248 | an ffmpeg `Duration:` line is read back as its hours and minutes, or rejected when the hours exceed 3 |
| GalleryCron.OldFileCleanup | tools/gallery_cron.php:149-160 | the file is trashed iff the month part of its age is at least 1; an age that cannot be computed trashes nothing |
| GalleryCron.DateFolder | tools/gallery_cron.php:380-388 | defined iff the date parses, and then it is the `Y/m` of that date |
| GalleryCron.TargetPath | tools/gallery_cron.php:169-194 | no target without a length; a target iff the length and the stamp are readable, and it is `root/Y/m/name`; the folder is created only when missing |
| GalleryCron.ProcessProbeCopies | tools/gallery_cron.php:71-116 | a file is copied, then its gallery and audio are built, iff it is a non-directory `.mp4`, unlocked, not old, at most 100 000 000 000 bytes, of valid volume, with a readable length and start stamp, a target that does not exist yet, and a copy that succeeds |
| GalleryCron.ReadFiles | tools/gallery_cron.php:65-122 | one step per file, in order, until one stops the script; only the last step taken can be such a stop |
| GalleryCron.ReadFilesSteps | tools/gallery_cron.php:65-122 | each step of the loop is that file's own outcome |
| GalleryCron.ReadFilesCopies | tools/gallery_cron.php:65-122 | in every step of the loop, a file is copied exactly when it meets the copy conditions |
| Nextcloud.FilterFiles | nextcloud.php:57-77 | the result is an order-preserving subsequence of the listing; it holds exactly the non-directory entries whose content type is configured |
| Nextcloud.NcFilterFiles | nextcloud.inc.php:41-63 | the procedural copy keeps exactly the entries the class keeps |
| Nextcloud.FixName | nextcloud.php:112-115 | the destination name is the left-to-right reading that turns every space and every `%20` into `_`; it contains no space and no `%20`; a name with neither is kept |
| Nextcloud.UnderscoredInTwoSteps | nextcloud.php:112-115 | replacing the spaces first and the encoded spaces second gives the same name as the single left-to-right reading |
| Nextcloud.UnderscoredIsClean | nextcloud.php:112-115 | the reading leaves no space and no `%20` behind |
| Nextcloud.MoveFile | nextcloud.php:102-120 | a `MKCOL` of the target folder then a `MOVE` whose destination is the target folder and the fixed name |
| Nextcloud.NcMoveFile | nextcloud.inc.php:90-110 | the same two requests in the procedural client, with the fixed name |
| Nextcloud.ReadFolder | nextcloud.php:32-49 | a `PROPFIND` of the root folder with the given depth header |
| Nextcloud.DeleteFile | nextcloud.php:85-92 | a `DELETE` of the file under the root folder |
| Nextcloud.NcDeleteFile | nextcloud.inc.php:71-80 | the procedural delete runs in debug mode, so it never reaches the server |
| Nextcloud.CreateShare | nextcloud.php:158-183 | the share payload is path `/root/path`, `shareType` 3, `Permission` 1 and the given expiry, in that order |
| Nextcloud.NcCreateShare | nextcloud.inc.php:151-178 | the procedural payload is path `/folder` + path with the same three other fields |
| Nextcloud.HeaderLines | nextcloud.php:212-217 | the array holds every header's bare value first, in order, followed by one `key: value` line per header in the same order |
| Nextcloud.CurlPrepare | nextcloud.php:196-235 | the custom request is set only for a non-empty verb; headers only when given; POST iff there are fields, and the body decodes back to them |
| Nextcloud.PostBodyRoundTrip | nextcloud.php:221-229 | the post body decodes back to the fields, in input order |
| Nextcloud.CurlExecute | nextcloud.php:244-265 | throws iff the output is missing or contains `Sabre\DAV\Exception`; otherwise returns it unchanged |
| Nextcloud.NcCurlExecute | nextcloud.inc.php:241-282 | `null` in debug mode; otherwise `false` (no throw) on missing output or a Sabre exception, else the output |
| Nextcloud.ExecuteCopiesAgree | nextcloud.inc.php:274-281 | the procedural client fails exactly when the class throws, and returns the same output otherwise |
| Nextcloud.NcDownloadFile | nextcloud.inc.php:119-141 | `false` on a failed request or empty output, or when the target cannot be written; the content when no target is given |
| Nextcloud.DownloadFile | nextcloud.php:129-148 | throws on a failed request or an unwritable target; `false` on empty output |
| Stripe.StripeKeys | stripe.inc.php:168-185 | live mode gives the live secret and dashboard, test mode the test ones, any other mode nothing |
| Stripe.StripeKey | libraries/stripe.php:189-196 | `live` gives `api_secret_key`, `test` gives `api_test_secret_key` |
| Stripe.StripeUrl | libraries/stripe.php:203-210 | defined for `live` and `test` only; the test dashboard iff the mode is `test` |
| Stripe.KeySelectionAgrees | stripe.inc.php:168-185 | the procedural and class key selections pick the same secret |
| Stripe.CurlCommand | stripe.inc.php:137-159 | the URL is the API base plus the path; the secret is the basic-auth user; POST fields iff the data is non-empty, decoding back to its pairs |
| Stripe.ProductPayload | stripe.inc.php:31-44 | the product pairs are name, `shippable` `false`, the statement descriptor, the description, then the images |
| Stripe.ProductImages | libraries/stripe.php:47-58 | images travel as `images[0]`, `images[1]`, … in order; no images sends `images=Array` |
| Stripe.PricePayload | libraries/stripe.php:81-91 | exactly `unit_amount`, `currency` and `product` as given, and the amount reads back as the price |
| Stripe.StripeCreatePrice | stripe.inc.php:63-73 | the configured flat price in `hkd` for the given product |
| Stripe.SessionPayload | libraries/stripe.php:119-130 | the success URL with the session placeholder appended and URL-encoded, the price with its quantity, mode `payment` |
| Stripe.SessionBodyRoundTrip | stripe.inc.php:96-107 | the posted session body decodes to its pairs, and the success URL decodes to the page address plus the placeholder |
| Stripe.StripeTestLogin | stripe.inc.php:12-21 | false iff the reply carries an error |
| Stripe.TestLogin | libraries/stripe.php:29-37 | the error message when the reply has one, otherwise logged in, in agreement with the procedural check |
| FormEncode.EntryPairs | unc_media_store.php:193-199 | a scalar gives `key=value`; an empty array takes the scalar branch as `Array`; a non-empty array gives `key[sub]=v` per element, in order |
| FormEncode.PairsAppend | libraries/stripe.php:222-236 | the pairs of two arrays in a row are the pairs of the first followed by those of the second |
| FormEncode.FormRoundTrip | unc_media_store.php:190-204 | the `&`-joined body decodes back to exactly the entries' pairs, in input order |
| UrlCode.UrlRoundTrip | libraries/stripe.php:121 | URL-decoding the encoded success URL gives it back |
| Settings.SettingsValidation | settings.inc.php:105-125 | `integer` rejects iff `intval` is 0; `length` rejects when too long, then falls through to the integer check; `relative_date_time` rejects when `strtotime` fails, then falls through to both; an unknown check accepts |
| Settings.FallThroughRejectsWords | settings.inc.php:111-122 | a word-like value fails both the relative-date and the length validator |
| Settings.DefaultDescriptorRejected | settings.inc.php:115-122 | the default statement descriptor "Media sales" fails its own length validator |
| Settings.ShownValue | settings.inc.php:77-83 | the default and a message are shown iff a validator rejects the stored value; otherwise the stored value |
| Settings.ShownValuePasses | settings.inc.php:77-83 | when the default passes its validator, the value shown always does |
| Settings.MultipleValue | settings.inc.php:262-264 | a non-array stored value is replaced by the default |
| Settings.CheckedOptions | settings.inc.php:260-281 | the boxes checked are exactly the options found in the (possibly replaced) value |
| MediaStore.ValidateDate | unc_media_store.php:178-182 | true iff the text parses and formatting the date reproduces the text exactly |
| MediaStore.ValidateFormatted | unc_media_store.php:178-182 | every formatted date validates |
| MediaStore.SizeOf | unc_media_store.php:208-219 | zero bytes iff the zero label; otherwise the unit exponent e satisfies 1024^e ≤ bytes < 1024^(e+1) |
| MediaStore.ByteConvert | unc_media_store.php:208-219 | the loop computing the exponent agrees with that characterisation |
| MediaStore.LoadSettings | unc_media_store.php:44-46 | names that are not settings keep their value |
| MediaStore.LoadSettingsKeys | unc_media_store.php:44-46 | every setting name gets an entry |
| MediaStore.LoadSettingsValues | unc_media_store.php:44-46 | with distinct names, each setting holds its stored option, or its default when none is stored |
| MediaStore.DebugInfo | unc_media_store.php:231-252 | exactly one entry is appended iff debug mode is `on`; otherwise the log is unchanged |
| Frontend.SelectDate | frontend.inc.php:29-33 | a valid requested date that has recordings is used; otherwise the latest date of the catalog, which `array_key_last` gives because `read_db` sorts by start date; none only for an empty catalog |
| Frontend.FallbackIsLatest | frontend.inc.php:31-32 | without a chosen date, a catalog date no earlier than every other is exactly the date the picker opens on |
| Frontend.LatestDate | data.inc.php:86-111 | the last key of the date list built from rows sorted by start date is a date of the list no earlier than any other; none for an empty list |
| Frontend.ChosenDateIsRecorded | frontend.inc.php:29-33 | a date is chosen iff there are files, and the chosen date is the start date of some file |
| Frontend.ShowInterface | frontend.inc.php:11-72 | the picker iff no date is posted; "no recordings" iff the posted date has none; a `TypeError` stop iff the date has recordings, not exactly one, and a `file_id` is posted whose filtered form is not leading-numeric; otherwise a listing whose dropdown appears iff there is more than one recording, a single recording being shown directly and otherwise the one the filtered `file_id` names |
| Frontend.DigitlessFileIdStops | frontend.inc.php:26-67 | a posted `file_id` with no digit ("", "abc", "+") stops the page when the date does not have exactly one recording |
| Frontend.ListedDateIsRecorded | frontend.inc.php:39-62 | a listed date has recordings, and a valid one becomes the picker's date |
| Text.SanitizeNumberInt | frontend.inc.php:215 | `FILTER_SANITIZE_NUMBER_INT`: the result holds only digits, `+` and `-`, is a subsequence of the input, equals the input when every character is kept and is empty when none is |
| Text.SanitizeNumberIntAppend | frontend.inc.php:215 | the filter acts character by character: filtering a concatenation concatenates the filtered parts |
| Text.SanitizeNumberIntNoDigits | frontend.inc.php:26 | the filter adds no digits: an input without digits filters to a string without digits |
| Text.PositiveIsLeadingNumeric | frontend.inc.php:215-223 | a filtered string that `intval` reads as positive starts with a digit, or a sign and a digit |
| Text.SanitizeNumberIntExamples | frontend.inc.php:215 | "abc7" filters to "7" and "1.5" to "15" |
| Text.IntvalOfSanitizedExamples | frontend.inc.php:220 | `intval` reads 7 from "7", 15 from "15" and 0 from "" |
| Frontend.ExecutePurchase | frontend.inc.php:214-247 | the id is the posted field with everything but digits, `+` and `-` filtered out, then read by `intval`; nothing happens unless the honeypot is empty and that id is above 0; an unknown id stops before any call; otherwise checkout of that file |
| Frontend.PostedIdDropsOtherChars | frontend.inc.php:215-220 | the filter runs before `intval`: "abc7" gives 7, "1.5" gives 15, a missing field gives 0 |
| Frontend.PurchaseIdCoerces | frontend.inc.php:220-223 | a purchase that goes ahead passes a leading-numeric string to `data_fetch_one_recording`, so its `int` parameter raises no `TypeError` |
| Frontend.Checkout | frontend.inc.php:226-245 | the product is created iff its stored id is empty, the price iff its stored id is empty; the request stops, with the calls made so far, exactly when a product id is missing and a price must be created, or the price id is missing; a product id missing with a stored price goes on and is stored as ""; otherwise a session is created, the sale primed with the resolved ids and the buyer redirected |
| Frontend.CheckoutProductCount | frontend.inc.php:226-231 | one product call iff the stored product id is empty, none otherwise |
| Frontend.CheckoutPriceCount | frontend.inc.php:233-238 | at most one price call, and exactly one on a completed checkout iff the stored price id is empty |
| Frontend.CheckoutSessionCount | frontend.inc.php:240-245 | a completed checkout creates exactly one session and ends with the redirect to its URL |
| Frontend.SecondPurchaseReusesObjects | frontend.inc.php:226-242 | buying the same file again reuses the product and price: no product or price call, one new session |
| Frontend.PurchaseRecordsSale | frontend.inc.php:240-242 | after a completed checkout whose session reply has an id no earlier sale carries, that id resolves to the bought file |
| Frontend.IdlessSessionRecordsNoSale | frontend.inc.php:240-242 | a completed checkout whose session reply has no id leaves the sales table unchanged, and the empty id it goes on with finds no recording |
| Frontend.ShareLink | frontend.inc.php:95-100 | the link is empty when the share request fails, otherwise the returned URL |
| Frontend.ShowSalesResult | frontend.inc.php:83-122 | the session is fetched; nothing changes unless the payment is `paid` and the session `complete`; then a share is created, a mail sent and the sale finalized with the link and expiry |
| Frontend.ConfirmationRepeats | frontend.inc.php:94-102 | a second confirmation of the same session is confirmed again, asks for the same share again, and overwrites the first one's link and expiry |
| Effects.CallsConcat | frontend.inc.php:226-245 | the calls to an endpoint in two logs put together add up |
| PhpArray.Assign | unc_media_store.php:44-46 | assigning a key sets it and changes no other key; a new key is appended at the end |

## Left out

- Transport: the cURL and HTTP transport, XML and JSON decoding, WebDAV `PROPFIND` parsing and the contents of Stripe replies. A reply is an input value: missing, or the fields the code reads from it.
- WordPress plumbing is not modelled: hooks, cron registration, shortcodes, option storage, activation and uninstall, and `delete_directory`.
- HTML rendering is not modelled: `list_files`, `list_sales`, the date picker, recording details, field renderers, `user_alert` and `debug_display`. Only the choices that `show_interface` and `setting_multiple_render` make are modelled.
- Mail layout: the mail is recorded with its recipient, subject and substituted text. `nl2br` and the HTML of the confirmation mail are left out.
- Shell and file-system work: `check_volume_space`, the ffmpeg volume and duration probes, `flock`, the size query and the file-exists checks are inputs of each probe. `create_gallery` and `create_audio` are single effects.
- Floating point: `byteConvert`'s rounding to two decimals is left out. The mean volume ffmpeg measures is an input `real`; its comparison with -90 dB in `check_valid_volume` is modelled by `GalleryCron.ValidVolume`.
- Time and dates: `DateTime`, `strtotime`, `date` and the clock are inputs, through the `Calendar` record and the pass stamp.
- Backend.FileStorageIsExpired: the recording date and `new DateTime()` are taken as two distinct moments, the second later in the same day. Two clock reads that return the same microsecond would make the boundary day not expired; the model does not follow that case, nor daylight-saving shifts inside `diff`.
- Collation: the tables are created with WordPress's `$charset_collate`, a case-insensitive `_ci` collation, so MySQL compares `full_path` and `stripe_session_id` without case, both in `WHERE ... = %s` and in the unique `full_path` key. The model compares them exactly. PHP's own array keys, as `read_db` builds them, are case-sensitive like the model. Each member this touches has its own line below.
- Tables.InsertFile: the unique `full_path` key compares exactly. After `/2024/05/A.mp4`, MySQL refuses the insert of `/2024/05/a.mp4`, but the model adds it.
- Tables.UpdateVerified: matches only the row whose `full_path` has the exact spelling; MySQL would also match a path that differs only in case.
- Tables.FinalizeSalesSession: matches only the sale whose `stripe_session_id` has the exact spelling; MySQL would also match a session id that differs only in case.
- Tables.GetFileFromSession: finds only the sale whose `stripe_session_id` has the exact spelling; MySQL would also match a session id that differs only in case.
- `md5`: it is a function-valued field of the configuration.
- Logging: debug logging inside the Nextcloud and Stripe classes and `error_info`. `debug_info` gating is modelled.
- `data_fetch_date_recordings`: its result is an input of `Frontend.ShowInterface`.
- `calculate_share_expiry`: it is not part of this model, so the expiry is an input of `Backend.SalesCreateLink`.
- Row order: `read_db`'s `ORDER BY start_date` is not modelled as a sort. Rows are read in storage order, so the snapshot and the date list hold the same entries as the sorted ones, in another order. The only use that depends on that order, `array_key_last` of the date list in `show_interface`, is modelled as the latest date, which the sorted order puts last. Dates compare character by character, which is the calendar order for the `Y-m-d` values of the `date` column.
- `wp_redirect` with an empty location: it is a `Redirect("")` effect.
- `Text.Intval`: the exponent and hexadecimal forms of PHP's numeric strings are not modelled. Only leading white space, a sign and decimal digits are read. PHP caps a digit run beyond the 64-bit range at `PHP_INT_MAX` or `PHP_INT_MIN`, while the model reads it unbounded. In this core no outcome changes: an `id > 0` test gives the same answer, and a capped id, like an unbounded one, names no row.
- Frontend.ShowInterface: a leading-numeric `file_id` outside the 64-bit range reaches the `int` parameter as a float, which PHP refuses. The model reads it as its unbounded value, which names no row, so it shows the details of `null`.
- Loose comparison: `in_array`'s loose comparison in `setting_multiple_render` is modelled as string equality.
- `Backend.ReadAllFiles`: the per-file processing is stated by `Backend.ProcessAll` and `Backend.Reconcile`. This member's own contract covers only the listing request and a failed listing.
- `MediaStore.LoadSettings`: the contract states the frame only. The values are stated by `MediaStore.LoadSettingsValues`, which needs distinct setting names, as `config.inc.php` has.
- `Tables.CleanDbCounts`: it needs distinct stamps. The stamps come from the keys of a PHP array, so they are distinct.
- Tables.GetSales: sales appended within the same second share their `sales_time`, and MySQL leaves their order open; the model lists them newest-stored first.
- Tables.PrimeSalesSession: a refused `INSERT` is taken to use up no `AUTO_INCREMENT` id; whether the server skips one is not modelled.
- MediaStore.SizeOf: the unit is the exact floor of the base-1024 logarithm. PHP computes `floor(log($b, 1024))` in floating point, which can come out one too high just below a power of 1024 (for example 1024^5 − 1); the model does not follow that rounding.
- MediaStore.ByteConvert: the same floating-point unit choice as `MediaStore.SizeOf`. From 1024^6 bytes the unit index passes `PB`; PHP then prints an empty unit, which `MediaStore.UnitOf` keeps.

## Findings

| source | as written | input that shows it | evidently intended | confidence | as-written member | corrected member |
|---|---|---|---|---|---|---|
| data.inc.php:358-363 | `array('expired' => 'NOW()')` with the `%s` format sends the text NOW(), which the `datetime` column stores as the zero date, its default; the clean-up marks no row and counts 0 | a row with `verified` 5 and the default `expired`, cleaned with the stamp 5: it keeps the zero date and the count is 0 | the SQL function `NOW()`: the row's `expired` becomes the current datetime and the count is 1 | high; not executed | Tables.CleanDbAsWritten | Backend.PassExpiresStaleRows |

=== FILE: backend.dfy ===
/** The administrator side of the plugin (`backend.inc.php`): the inventory
    pass that reconciles the catalog with the recordings on Nextcloud, the
    storage-window checks, the new-file notification and the manual creation
    of a share link for a sale.

    The pass works on the tables of `Tables`. What the Nextcloud server and
    the local file system answer for a file arrives as a `FileIo`; every
    request sent and every mail is an `Effect`. */
module Backend {
  import opened Base
  import opened Text
  import opened PhpArray
  import opened MediaStore
  import opened RecordingName
  import opened Nextcloud
  import opened Effects
  import opened Tables

  /** The configuration keys the back end reads. */
  datatype Config = Config(
    /** `nextcloud_username`. */
    ncUser: string,
    /** `nextcloud_folder`, the recordings folder below the user's root. */
    ncFolder: string,
    /** The root folder the `nextcloud` object was constructed with. */
    ncRoot: string,
    /** The keys of `nextcloud_content_types`. */
    contentTypes: set<string>,
    /** `nextcloud_file_cleanup`, a relative date such as "1 month". */
    fileCleanup: string,
    /** `settings.thumbs_folder`. */
    thumbsFolder: string,
    /** `plugin_dir_url(__FILE__)`. */
    pluginUrl: string,
    /** `new_file_admin_email`. */
    adminEmail: string,
    /** `new_file_email_text`. */
    emailText: string,
    /** `media_price`, in cents. */
    mediaPrice: int,
    currency: string,
    /** The escaped URL of the sales page. */
    salesPageUrl: string,
    md5: string -> string)

  // ---------------------------------------------------------------- storage window

  /* Both functions read the recording date with `createFromFormat('Y-m-d')`
     and no `!`, so the date carries the current time of day; the later
     `new DateTime()` carries a moment after it. In day numbers a recording
     therefore lies strictly before "now" on its own day, and a point in the
     future is one whole day short of its day distance. */

  /** `file_storage_is_expired`: the recording date lies on or before today
      moved back by the cleanup window (on that boundary day the recording's
      time of day is the earlier one). A date that does not parse compares as
      `false < DateTime`, which PHP evaluates to true; a window `modify`
      rejects leaves the comparison date at today. */
  function FileStorageIsExpired(cal: Calendar, window: string, date: string): (r: bool)
    ensures cal.parseYmd(date).None? ==> r
    ensures cal.parseYmd(date).Some? ==>
      (r <==> cal.parseYmd(date).value <= cal.shift(cal.today, "-" + window).GetOr(cal.today))
    ensures cal.parseYmd(date).Some? && cal.shift(cal.today, "-" + window).Some? ==>
      (r <==> !(cal.shift(cal.today, "-" + window).value < cal.parseYmd(date).value))
  {
    match cal.parseYmd(date)
    case None => true
    case Some(d) => d <= cal.shift(cal.today, "-" + window).GetOr(cal.today)
  }

  /** `file_retention_days`: `diff()->days` between the date moved forward by
      the window and now, the whole days between the two moments. When the
      window ends after today the end moment is earlier in its day than now,
      so one partial day is not counted; otherwise now is the later moment
      and the count is the plain day distance. `None` where the date does not
      parse: PHP then calls `modify` on `false` and stops. */
  function FileRetentionDays(cal: Calendar, window: string, date: string): (r: Option<nat>)
    ensures r.Some? <==> cal.parseYmd(date).Some?
    ensures r.Some? ==>
      var end := cal.shift(cal.parseYmd(date).value, window).GetOr(cal.parseYmd(date).value);
      (end > cal.today ==> cal.today + r.value < end <= cal.today + r.value + 1) &&
      (end <= cal.today ==> end + r.value == cal.today)
  {
    match cal.parseYmd(date)
    case None => None
    case Some(d) =>
      var end := cal.shift(d, window).GetOr(d);
      Some(if end > cal.today then end - cal.today - 1 else cal.today - end)
  }

  /** The two window computations agree when the window is a plain shift by
      `n` days in both directions: a recording is expired exactly when its
      last day is today or earlier, the retention count is then the number of
      days since that last day, and otherwise it is the whole days left
      before the last day begins. */
  lemma ExpiryMatchesRetention(cal: Calendar, window: string, date: string, d: int, n: int)
    requires cal.parseYmd(date) == Some(d)
    requires cal.shift(cal.today, "-" + window) == Some(cal.today - n)
    requires cal.shift(d, window) == Some(d + n)
    ensures FileStorageIsExpired(cal, window, date) <==> d + n <= cal.today
    ensures FileStorageIsExpired(cal, window, date) ==>
      FileRetentionDays(cal, window, date) == Some(cal.today - (d + n))
    ensures !FileStorageIsExpired(cal, window, date) ==>
      FileRetentionDays(cal, window, date) == Some(d + n - cal.today - 1)
  {
  }

  /** On the boundary day itself the recording is already expired and its
      retention count is zero. */
  lemma BoundaryDayExpires(cal: Calendar, window: string, date: string, n: int)
    requires cal.parseYmd(date) == Some(cal.today - n)
    requires cal.shift(cal.today, "-" + window) == Some(cal.today - n)
    requires cal.shift(cal.today - n, window) == Some(cal.today)
    ensures FileStorageIsExpired(cal, window, date)
    ensures FileRetentionDays(cal, window, date) == Some(0)
  {
  }

  // ---------------------------------------------------------------- new_file_notification

  /** `$cents / 100` as PHP prints it: an integer when the division is exact,
      otherwise the shortest decimal ("123.45", "123.5"). */
  function PriceText(cents: int): (r: string)
    ensures |r| > 0
    ensures cents >= 0 && cents % 100 == 0 ==> r == NatToString(cents / 100)
    decreases if cents < 0 then 1 else 0
  {
    if cents < 0 then "-" + PriceText(-cents)
    else
      var c := cents % 100;
      NatToString(cents / 100)
      + (if c == 0 then "" else if c % 10 == 0 then "." + [DigitChar(c / 10)] else "." + Pad2(c))
  }

  const Placeholders: seq<string> := ["{{video_datetime}}", "{{video_price}}", "{{thumbnail_link}}", "{{purchase_link}}"]

  /** `str_replace($searches, $replacements, $text)` with arrays: each pair is
      applied in turn to the result of the previous one. */
  function ReplaceEach(text: string, pairs: seq<(string, string)>): (r: string)
    ensures (forall i :: 0 <= i < |pairs| ==> !Contains(text, pairs[i].0)) ==> r == text
    decreases |pairs|
  {
    if |pairs| == 0 then text
    else
      assert !Contains(text, pairs[0].0) ==> ReplaceAll(text, pairs[0].0, pairs[0].1) == text by {
        if !Contains(text, pairs[0].0) {
          ReplaceAbsent(text, pairs[0].0, pairs[0].1);
        }
      }
      ReplaceEach(ReplaceAll(text, pairs[0].0, pairs[0].1), pairs[1..])
  }

  /** The values the four placeholders are replaced with. */
  function Replacements(cfg: Config, f: NewFile, id: nat): (r: seq<string>)
    ensures |r| == |Placeholders|
    ensures r[1] == PriceText(cfg.mediaPrice) + " " + cfg.currency
  {
    var purchase := cfg.salesPageUrl + "?id=" + NatToString(id);
    [f.startDate + ", " + f.startTime + " and lasted until " + f.endTime,
     PriceText(cfg.mediaPrice) + " " + cfg.currency,
     "<a href=\"" + f.thumbnailUrl + "\">" + f.thumbnailUrl + "</a>",
     "<a href=\"" + purchase + "\">" + purchase + "</a>"]
  }

  function Zip(a: seq<string>, b: seq<string>): (r: seq<(string, string)>)
    requires |a| == |b|
    ensures |r| == |a| && forall i :: 0 <= i < |a| ==> r[i] == (a[i], b[i])
  {
    seq(|a|, i requires 0 <= i < |a| => (a[i], b[i]))
  }

  /** `new_file_notification`: no mail when the administrator address is
      shorter than three characters; otherwise one mail to it whose body is
      the configured text with the placeholders filled in (the `nl2br` of the
      text is not modelled). */
  function NewFileNotification(cfg: Config, f: NewFile, id: nat): (r: seq<Effect>)
    ensures |r| <= 1
    ensures |r| == 1 <==> |cfg.adminEmail| >= 3
    ensures |r| == 1 ==> r[0].Mail? && r[0].to == cfg.adminEmail
    ensures |r| == 1 ==> r[0].subject == "New video recorded: " + f.startDate + ", " + f.startTime + " until " + f.endTime
    ensures |r| == 1 ==> r[0].body == ReplaceEach(cfg.emailText, Zip(Placeholders, Replacements(cfg, f, id)))
  {
    if |cfg.adminEmail| < 3 then []
    else
      [Mail(cfg.adminEmail,
            "New video recorded: " + f.startDate + ", " + f.startTime + " until " + f.endTime,
            ReplaceEach(cfg.emailText, Zip(Placeholders, Replacements(cfg, f, id))))]
  }

  /** A text without placeholders is mailed as it is. */
  lemma PlainTextUnchanged(cfg: Config, f: NewFile, id: nat)
    requires |cfg.adminEmail| >= 3
    requires forall i :: 0 <= i < |Placeholders| ==> !Contains(cfg.emailText, Placeholders[i])
    ensures NewFileNotification(cfg, f, id)[0].body == cfg.emailText
  {
  }

  /** The price placeholder alone becomes the price and the currency. */
  lemma PricePlaceholderFilled(cfg: Config, f: NewFile, id: nat)
    requires |cfg.adminEmail| >= 3
    requires cfg.emailText == "{{video_price}}"
    requires '{' !in cfg.currency
    ensures NewFileNotification(cfg, f, id)[0].body == PriceText(cfg.mediaPrice) + " " + cfg.currency
  {
    var reps := Replacements(cfg, f, id);
    var price := reps[1];
    var text := cfg.emailText;
    ReplaceEachOfFour(text, Zip(Placeholders, reps));
    ShorterThanNeedle(text, Placeholders[0]);
    ReplaceAbsent(text, Placeholders[0], reps[0]);
    ReplaceWhole(Placeholders[1], price);
    PriceLineHasNoBrace(cfg.mediaPrice, cfg.currency);
    MissingFirstChar(price, Placeholders[2]);
    ReplaceAbsent(price, Placeholders[2], reps[2]);
    MissingFirstChar(price, Placeholders[3]);
    ReplaceAbsent(price, Placeholders[3], reps[3]);
  }

  lemma ReplaceEachOfFour(text: string, pairs: seq<(string, string)>)
    requires |pairs| == 4
    ensures ReplaceEach(text, pairs)
         == ReplaceAll(ReplaceAll(ReplaceAll(ReplaceAll(text, pairs[0].0, pairs[0].1),
                                             pairs[1].0, pairs[1].1), pairs[2].0, pairs[2].1), pairs[3].0, pairs[3].1)
  {
    var p1 := pairs[1..];
    var p2 := p1[1..];
    var p3 := p2[1..];
    assert p1[0] == pairs[1] && p2[0] == pairs[2] && p3[0] == pairs[3] && p3[1..] == [];
    var t1 := ReplaceAll(text, pairs[0].0, pairs[0].1);
    var t2 := ReplaceAll(t1, pairs[1].0, pairs[1].1);
    var t3 := ReplaceAll(t2, pairs[2].0, pairs[2].1);
    var t4 := ReplaceAll(t3, pairs[3].0, pairs[3].1);
    assert ReplaceEach(t4, p3[1..]) == t4;
    assert ReplaceEach(t3, p3) == t4;
    assert ReplaceEach(t2, p2) == t4;
    assert ReplaceEach(t1, p1) == t4;
  }

  lemma PriceLineHasNoBrace(cents: int, currency: string)
    requires '{' !in currency
    ensures '{' !in PriceText(cents) + " " + currency
  {
    var t := PriceText(cents);
    var line := t + " " + currency;
    PriceTextHasNoBrace(cents);
    forall k | 0 <= k < |line| ensures line[k] != '{' {
      if k < |t| {
        assert line[k] == t[k];
      } else if k > |t| {
        assert line[k] == currency[k - |t| - 1];
      }
    }
  }

  lemma {:induction false} PriceTextHasNoBrace(cents: int)
    ensures '{' !in PriceText(cents)
    decreases if cents < 0 then 1 else 0
  {
    if cents < 0 {
      PriceTextHasNoBrace(-cents);
    } else {
      var t := PriceText(cents);
      var n := NatToString(cents / 100);
      forall k | 0 <= k < |t| ensures t[k] != '{' {
        if k < |n| {
          assert t[k] == n[k];
          assert IsDigit(n[k]);
        }
      }
    }
  }

  // ---------------------------------------------------------------- process_single_file

  /** The href prefix that `process_single_file` strips. */
  function ServerPrefix(cfg: Config): string {
    "/remote.php/dav/files/" + cfg.ncUser + "/" + cfg.ncFolder
  }

  /** The catalog path of a listing entry. */
  function FilePathOf(cfg: Config, href: string): string {
    SubstrFrom(href, |ServerPrefix(cfg)|)
  }

  /** What the server and the local disk answer while one file is processed. */
  datatype FileIo = FileIo(
    /** Raw reply to the `DELETE` of the file. */
    deleteOutput: Option<string>,
    /** The thumbnail is already in the local thumbnail folder. */
    thumbnailExists: bool,
    /** Raw reply to the `GET` of the thumbnail. */
    thumbnailOutput: Option<string>,
    thumbnailWritable: bool)

  datatype FileResult =
    | Rejected
    | Deleted(path: string)
    | Added(path: string, id: nat)
    | Refreshed(path: string)

  /** The outcome of one file: its result, the tables after it, the requests
      and mails it caused, and whether the `nextcloud` object threw, which
      ends the whole pass. */
  datatype Processed = Processed(result: FileResult, db: Db, log: seq<Effect>, thrown: bool)

  /** The row `process_single_file` inserts for a new path. */
  function NewFileFor(cfg: Config, e: DavEntry, stamp: int): (f: NewFile)
    ensures var path := FilePathOf(cfg, e.href);
      var fields := ParseRecordingName(Basename(path));
      && f.fullPath == path && f.fileName == Basename(path) && f.folder == Dirname(path)
      && f.startDate == fields.startDate && f.startTime == fields.startTime && f.endTime == fields.endTime
      && f.thumbnailPath == path + ".jpg" && f.verified == stamp && f.size == SizeOf(e.contentLength)
  {
    var path := FilePathOf(cfg, e.href);
    var name := Basename(path);
    var fields := ParseRecordingName(name);
    NewFile(name, path, path + ".jpg", cfg.pluginUrl + "thumbs/" + cfg.md5(path) + ".jpg", Dirname(path),
            fields.startDate, fields.startTime, fields.endTime, SizeOf(e.contentLength), stamp,
            "Recording from " + fields.startDate + " " + fields.startTime + " until " + fields.endTime)
  }

  /** `download_thumbnail`: fetches the thumbnail when it is not on disk yet;
      the `nextcloud` object throws when the request fails or the local file
      cannot be written. */
  function DownloadThumbnail(cfg: Config, path: string, io: FileIo, p: Processed): (r: Processed)
    ensures r.result == p.result && r.db == p.db
    ensures io.thumbnailExists ==> r == p
    ensures !io.thumbnailExists ==>
      && r.log == p.log + [Dav(DownloadRequest(cfg.ncUser, cfg.ncRoot, cfg.ncFolder + path + ".jpg"))]
      && (r.thrown <==> CurlExecute(io.thumbnailOutput).Thrown?
                        || (io.thumbnailOutput.value != "" && !io.thumbnailWritable))
  {
    if io.thumbnailExists then p
    else
      var target := cfg.thumbsFolder + "/" + cfg.md5(path) + ".jpg";
      assert !Falsy(target) by { assert |target| > 1; }
      var dl := DownloadFile(CurlExecute(io.thumbnailOutput), Some(target), io.thumbnailWritable);
      p.(log := p.log + [Dav(DownloadRequest(cfg.ncUser, cfg.ncRoot, cfg.ncFolder + path + ".jpg"))],
         thrown := dl.DlThrown?)
  }

  /** The two checks that make `process_single_file` return `false` at
      once: a space in the href, or a file directly in the recordings
      folder. */
  predicate Rejects(cfg: Config, e: DavEntry) {
    ' ' in e.href || Dirname(FilePathOf(cfg, e.href)) == "/"
  }

  /** The file is past the storage window and no sale holds an active link
      to it. */
  predicate DeleteDue(cfg: Config, cal: Calendar, db: Db, path: string) {
    && FileStorageIsExpired(cal, cfg.fileCleanup, ParseRecordingName(Basename(path)).startDate)
    && !FileHasActiveShare(db, path)
  }

  /** The delete branch: the remote file is deleted, the tables are left
      alone; a failed request throws. */
  function DeleteRemote(cfg: Config, db: Db, path: string, io: FileIo): (r: Processed)
    ensures r.result == Deleted(path) && r.db == db
    ensures |r.log| > 0 && r.log[0] == Dav(DeleteFile(cfg.ncUser, cfg.ncRoot, cfg.ncFolder + path))
  {
    var sent := Processed(Deleted(path), db, [Dav(DeleteFile(cfg.ncUser, cfg.ncRoot, cfg.ncFolder + path))], false);
    if CurlExecute(io.deleteOutput).Thrown? then sent.(thrown := true)
    else DownloadThumbnail(cfg, path, io, sent)
  }

  /** The insert branch, followed by the notification mail. */
  function AddFile(cfg: Config, db: Db, e: DavEntry, stamp: int, io: FileIo): (r: Processed)
    ensures r.result.Added? && r.result.path == FilePathOf(cfg, e.href)
    ensures (r.db, r.result.id) == InsertFile(db, NewFileFor(cfg, e, stamp))
    ensures WellFormed(db) ==> WellFormed(r.db)
  {
    var f := NewFileFor(cfg, e, stamp);
    var (db2, id) := InsertFile(db, f);
    DownloadThumbnail(cfg, f.fullPath, io, Processed(Added(f.fullPath, id), db2, NewFileNotification(cfg, f, id), false))
  }

  /** The refresh branch: only the stamp of the known path changes. */
  function RefreshFile(cfg: Config, db: Db, path: string, stamp: int, io: FileIo): (r: Processed)
    ensures r.result == Refreshed(path) && r.db == UpdateVerified(db, path, stamp)
  {
    DownloadThumbnail(cfg, path, io, Processed(Refreshed(path), UpdateVerified(db, path, stamp), [], false))
  }

  /** `process_single_file`: a rejected file changes nothing; otherwise
      exactly one of delete, insert and refresh happens, decided in that
      order, so a file past the window is deleted even when the catalog has
      never seen it. */
  function ProcessSingleFile(cfg: Config, cal: Calendar, db: Db, snapshot: Arr<string, FileRow>, stamp: int,
                             e: DavEntry, io: FileIo): (r: Processed)
    ensures r.result.Rejected? <==> Rejects(cfg, e)
    ensures r.result.Rejected? ==> r == Processed(Rejected, db, [], false)
    ensures !r.result.Rejected? ==> r.result.path == FilePathOf(cfg, e.href)
    ensures r.result.Deleted? <==> !Rejects(cfg, e) && DeleteDue(cfg, cal, db, FilePathOf(cfg, e.href))
    ensures r.result.Deleted? ==>
      && r.db == db
      && |r.log| > 0 && r.log[0] == Dav(DeleteFile(cfg.ncUser, cfg.ncRoot, cfg.ncFolder + FilePathOf(cfg, e.href)))
    ensures r.result.Added? <==>
      !Rejects(cfg, e) && !DeleteDue(cfg, cal, db, FilePathOf(cfg, e.href)) && !HasKey(snapshot, FilePathOf(cfg, e.href))
    ensures r.result.Added? ==> (r.db, r.result.id) == InsertFile(db, NewFileFor(cfg, e, stamp))
    ensures r.result.Refreshed? ==> HasKey(snapshot, r.result.path) && r.db == UpdateVerified(db, r.result.path, stamp)
    ensures WellFormed(db) ==> WellFormed(r.db)
  {
    if Rejects(cfg, e) then Processed(Rejected, db, [], false)
    else
      var path := FilePathOf(cfg, e.href);
      if DeleteDue(cfg, cal, db, path) then DeleteRemote(cfg, db, path, io)
      else if !HasKey(snapshot, path) then AddFile(cfg, db, e, stamp, io)
      else RefreshFile(cfg, db, path, stamp, io)
  }

  // ---------------------------------------------------------------- read_all_files

  /** The paths refreshed in a sequence of results. */
  function RefreshedPaths(results: seq<FileResult>): set<string> {
    set i | 0 <= i < |results| && results[i].Refreshed? :: results[i].path
  }

  function CountAdded(results: seq<FileResult>): nat {
    if |results| == 0 then 0 else (if results[0].Added? then 1 else 0) + CountAdded(results[1..])
  }

  function CountDeleted(results: seq<FileResult>): nat {
    if |results| == 0 then 0 else (if results[0].Deleted? then 1 else 0) + CountDeleted(results[1..])
  }

  /** How the files table evolves during a pass: rows present before keep
      their place and change only by taking the pass stamp, exactly when
      their path was refreshed; rows added after them carry the pass stamp. */
  ghost predicate RowsAfter(before: seq<FileRow>, after: seq<FileRow>, refreshed: set<string>, stamp: int) {
    && |before| <= |after|
    && (forall i :: 0 <= i < |before| ==>
          after[i] == (if before[i].fullPath in refreshed then before[i].(verified := stamp) else before[i]))
    && (forall i :: |before| <= i < |after| ==> after[i].verified == stamp)
  }

  /** One file's effect on the tables, in the terms of `RowsAfter`. */
  lemma StepRows(cfg: Config, cal: Calendar, db: Db, snapshot: Arr<string, FileRow>, stamp: int,
                 e: DavEntry, io: FileIo)
    ensures var p := ProcessSingleFile(cfg, cal, db, snapshot, stamp, e, io);
      && p.db.sales == db.sales && p.db.nextSaleId == db.nextSaleId
      && RowsAfter(db.files, p.db.files, if p.result.Refreshed? then {p.result.path} else {}, stamp)
  {
    var p := ProcessSingleFile(cfg, cal, db, snapshot, stamp, e, io);
    if p.result.Added? {
      InsertRows(db, NewFileFor(cfg, e, stamp), stamp);
    } else if p.result.Refreshed? {
      RefreshRows(db, p.result.path, stamp);
    } else {
      assert p.db == db;
    }
  }

  lemma InsertRows(db: Db, f: NewFile, stamp: int)
    requires f.verified == stamp
    ensures var r := InsertFile(db, f).0;
      r.sales == db.sales && r.nextSaleId == db.nextSaleId && RowsAfter(db.files, r.files, {}, stamp)
  {
  }

  lemma RefreshRows(db: Db, path: string, stamp: int)
    ensures var r := UpdateVerified(db, path, stamp);
      r.sales == db.sales && r.nextSaleId == db.nextSaleId && RowsAfter(db.files, r.files, {path}, stamp)
  {
  }

  lemma ComposeRows(a: seq<FileRow>, b: seq<FileRow>, c: seq<FileRow>, p: set<string>, q: set<string>, stamp: int)
    requires RowsAfter(a, b, p, stamp) && RowsAfter(b, c, q, stamp)
    ensures RowsAfter(a, c, p + q, stamp)
  {
    forall i | 0 <= i < |a|
      ensures c[i] == (if a[i].fullPath in p + q then a[i].(verified := stamp) else a[i])
    {
      assert b[i].fullPath == a[i].fullPath;
    }
    forall i | |a| <= i < |c| ensures c[i].verified == stamp {
      if i < |b| {
        assert b[i].verified == stamp;
      }
    }
  }

  lemma RefreshedCons(x: FileResult, rest: seq<FileResult>)
    ensures RefreshedPaths([x] + rest) == (if x.Refreshed? then {x.path} else {}) + RefreshedPaths(rest)
  {
    var results := [x] + rest;
    assert results[0] == x;
    assert forall i :: 1 <= i < |results| ==> results[i] == rest[i - 1];
    if x.Refreshed? {
      assert x.path in RefreshedPaths(results);
    }
    forall y | y in RefreshedPaths(rest) ensures y in RefreshedPaths(results) {
      var i :| 0 <= i < |rest| && rest[i].Refreshed? && rest[i].path == y;
      assert results[i + 1] == rest[i];
    }
    forall y | y in RefreshedPaths(results)
      ensures y in (if x.Refreshed? then {x.path} else {}) + RefreshedPaths(rest)
    {
      var i :| 0 <= i < |results| && results[i].Refreshed? && results[i].path == y;
      if i > 0 {
        assert rest[i - 1] == results[i];
      }
    }
  }

  /** The loop of `read_all_files` so far: results in order, the two counters
      it keeps, and whether it was cut short by an exception. */
  datatype Run = Run(db: Db, log: seq<Effect>, results: seq<FileResult>, added: nat, deleted: nat, thrown: bool)

  /** The `foreach` over the filtered listing: every file is processed
      against the same snapshot until one throws. The counters are those of
      the results, the sales table is not touched, and the files table
      evolves as `RowsAfter` says, with the paths the results refreshed. */
  function ProcessAll(cfg: Config, cal: Calendar, db: Db, snapshot: Arr<string, FileRow>, stamp: int,
                      files: seq<DavEntry>, io: string -> FileIo): (r: Run)
    ensures |r.results| <= |files|
    ensures !r.thrown ==> |r.results| == |files|
    ensures r.added == CountAdded(r.results) && r.deleted == CountDeleted(r.results)
    ensures r.db.sales == db.sales && r.db.nextSaleId == db.nextSaleId
    ensures WellFormed(db) ==> WellFormed(r.db)
    decreases |files|
  {
    if |files| == 0 then Run(db, [], [], 0, 0, false)
    else
      var p := ProcessSingleFile(cfg, cal, db, snapshot, stamp, files[0], io(files[0].href));
      StepRows(cfg, cal, db, snapshot, stamp, files[0], io(files[0].href));
      var a := if p.result.Added? then 1 else 0;
      var d := if p.result.Deleted? then 1 else 0;
      if p.thrown then
        Run(p.db, p.log, [p.result], a, d, true)
      else
        var rest := ProcessAll(cfg, cal, p.db, snapshot, stamp, files[1..], io);
        var results := [p.result] + rest.results;
        assert results[1..] == rest.results;
        Run(rest.db, p.log + rest.log, results, a + rest.added, d + rest.deleted, rest.thrown)
  }

  /** The files table after the loop: see `RowsAfter`. */
  lemma {:induction false} ProcessAllRows(cfg: Config, cal: Calendar, db: Db, snapshot: Arr<string, FileRow>,
                                          stamp: int, files: seq<DavEntry>, io: string -> FileIo)
    ensures var r := ProcessAll(cfg, cal, db, snapshot, stamp, files, io);
      RowsAfter(db.files, r.db.files, RefreshedPaths(r.results), stamp)
    decreases |files|
  {
    if |files| > 0 {
      var p := ProcessSingleFile(cfg, cal, db, snapshot, stamp, files[0], io(files[0].href));
      StepRows(cfg, cal, db, snapshot, stamp, files[0], io(files[0].href));
      var mine := if p.result.Refreshed? then {p.result.path} else {};
      if p.thrown {
        RefreshedCons(p.result, []);
        assert [p.result] + [] == [p.result];
      } else {
        var rest := ProcessAll(cfg, cal, p.db, snapshot, stamp, files[1..], io);
        ProcessAllRows(cfg, cal, p.db, snapshot, stamp, files[1..], io);
        RefreshedCons(p.result, rest.results);
        ComposeRows(db.files, p.db.files, rest.db.files, mine, RefreshedPaths(rest.results), stamp);
      }
    }
  }

  /** `$old_timestamps`: every `verified` value of the snapshot, keyed by
      itself. */
  function OldTimestamps(snapshot: Arr<string, FileRow>): (r: Arr<int, int>)
    ensures DistinctKeys(r)
    ensures KeySet(r) == StampsOf(snapshot)
    ensures forall k :: Get(r, k).Some? ==> Get(r, k).value == k
    decreases |snapshot|
  {
    if |snapshot| == 0 then []
    else
      var v := snapshot[|snapshot| - 1].1.verified;
      var prev := OldTimestamps(snapshot[..|snapshot| - 1]);
      AssignKeySet(prev, v, v);
      AssignDistinct(prev, v, v);
      VerifiedSnoc(snapshot);
      Assign(prev, v, v)
  }

  /** The `verified` values of a snapshot's rows. */
  function StampsOf(snapshot: Arr<string, FileRow>): set<int> {
    set i | 0 <= i < |snapshot| :: snapshot[i].1.verified
  }

  lemma VerifiedSnoc(snapshot: Arr<string, FileRow>)
    requires |snapshot| > 0
    ensures StampsOf(snapshot) == StampsOf(snapshot[..|snapshot| - 1]) + {snapshot[|snapshot| - 1].1.verified}
  {
    var init := snapshot[..|snapshot| - 1];
    assert forall i :: 0 <= i < |init| ==> init[i] == snapshot[i];
  }

  /** The values of an array whose values are its keys: distinct, and the
      key set itself. */
  lemma SelfKeyedValues<K>(a: Arr<K, K>)
    requires DistinctKeys(a)
    requires forall k :: Get(a, k).Some? ==> Get(a, k).value == k
    ensures forall i :: 0 <= i < |a| ==> a[i].1 == a[i].0
  {
    forall i | 0 <= i < |a| ensures a[i].1 == a[i].0 {
      GetAt(a, i);
    }
  }

  function Values<K, V>(a: Arr<K, V>): (r: seq<V>)
    ensures |r| == |a| && forall i :: 0 <= i < |a| ==> r[i] == a[i].1
  {
    seq(|a|, i requires 0 <= i < |a| => a[i].1)
  }

  /** What `read_all_files` reports: inserted files, rows marked expired,
      files deleted for age. */
  datatype Report = Report(added: nat, missing: nat, deleted: nat)

  /** The outcome of a pass. `report` is `None` when an exception ended it:
      changes made so far stay, `data_clean_db` does not run. */
  datatype Pass = Pass(db: Db, log: seq<Effect>, results: seq<FileResult>, report: Option<Report>)

  /** `read_all_files`. `listing` is the parsed reply to the `PROPFIND`
      (`None` when `read_folder` threw); `stamp` is the pass's time stamp. The
      class's `read_folder` takes the depth as its only argument, so the call
      `read_folder('recording', depth)` sends "recording" as the depth. `mark`
      is what the clean-up stores in `expired` (see `Tables.CleanDb`). */
  function ReadAllFiles(cfg: Config, cal: Calendar, db: Db, listing: Option<seq<DavEntry>>, stamp: int,
                        io: string -> FileIo, mark: string): (r: Pass)
    ensures |r.log| > 0 && r.log[0] == Dav(ReadFolder(cfg.ncUser, cfg.ncRoot, "recording"))
    ensures listing.None? ==> r.db == db && r.report.None?
    ensures WellFormed(db) ==> WellFormed(r.db)
  {
    var request := Dav(ReadFolder(cfg.ncUser, cfg.ncRoot, "recording"));
    match listing
    case None => Pass(db, [request], [], None)
    case Some(entries) =>
      var run := Reconcile(cfg, cal, db, entries, stamp, io, mark);
      Pass(run.0.db, [request] + run.0.log, run.0.results, run.1)
  }

  /** `data_clean_db` with the stamps collected before the loop, and the
      report `read_all_files` builds after it. */
  function CleanPass(run: Run, stamps: seq<int>, mark: string): (r: (Run, Option<Report>))
    ensures r.0.results == run.results && r.0.log == run.log && r.1.Some?
    ensures r.0.db.sales == run.db.sales && r.0.db.nextFileId == run.db.nextFileId && r.0.db.nextSaleId == run.db.nextSaleId
    ensures |r.0.db.files| == |run.db.files|
    ensures forall i :: 0 <= i < |run.db.files| ==>
      r.0.db.files[i] == (if run.db.files[i].verified in stamps
                          then run.db.files[i].(expired := mark) else run.db.files[i])
    ensures r.1.value.added == run.added && r.1.value.deleted == run.deleted
    ensures (forall a, b :: 0 <= a < b < |stamps| ==> stamps[a] != stamps[b]) ==>
      r.1.value.missing == CountRows(run.db.files, (f: FileRow) => ChangedByAny(f, stamps, mark))
    ensures WellFormed(run.db) ==> WellFormed(r.0.db)
  {
    var (cleaned, missing) := CleanDb(run.db.files, stamps, mark);
    assert WellFormed(run.db) ==> WellFormed(run.db.(files := cleaned)) by {
      if WellFormed(run.db) {
        CleanDbWellFormed(run.db, stamps, mark);
      }
    }
    assert (forall a, b :: 0 <= a < b < |stamps| ==> stamps[a] != stamps[b]) ==>
      missing == CountRows(run.db.files, (f: FileRow) => ChangedByAny(f, stamps, mark)) by {
      if forall a, b :: 0 <= a < b < |stamps| ==> stamps[a] != stamps[b] {
        CleanDbCounts(run.db.files, stamps, mark);
      }
    }
    (run.(db := run.db.(files := cleaned)), Some(Report(run.added, missing, run.deleted)))
  }

  /** The body of `read_all_files` once the listing is in hand: filter, clear
      expired links, snapshot, collect the old stamps, process, and clean
      unless an exception ended the loop. */
  function Reconcile(cfg: Config, cal: Calendar, db: Db, entries: seq<DavEntry>, stamp: int,
                     io: string -> FileIo, mark: string): (r: (Run, Option<Report>))
    ensures var run := ProcessAll(cfg, cal, CleanupExpiredLinks(db, cal.today), ReadDb(db.files), stamp,
                                  FilterFiles(entries, cfg.contentTypes), io);
      && (run.thrown ==> r == (run, None))
      && (!run.thrown ==> r == CleanPass(run, Values(OldTimestamps(ReadDb(db.files))), mark))
    ensures WellFormed(db) ==> WellFormed(r.0.db)
  {
    var files := FilterFiles(entries, cfg.contentTypes);
    var db1 := CleanupExpiredLinks(db, cal.today);
    var snapshot := ReadDb(db1.files);
    var run := ProcessAll(cfg, cal, db1, snapshot, stamp, files, io);
    if run.thrown then (run, None)
    else CleanPass(run, Values(OldTimestamps(snapshot)), mark)
  }

  /** The `verified` values of a list of rows. */
  function StampsOfRows(files: seq<FileRow>): set<int> {
    set i | 0 <= i < |files| :: files[i].verified
  }

  /** The set of stamps the pass collects is the set of `verified` values of
      the rows it read. */
  lemma OldStampsAreVerifiedValues(files: seq<FileRow>)
    requires forall a, b :: 0 <= a < b < |files| ==> files[a].fullPath != files[b].fullPath
    ensures KeySet(OldTimestamps(ReadDb(files))) == StampsOfRows(files)
  {
    var snap := ReadDb(files);
    forall x | x in StampsOf(snap) ensures x in StampsOfRows(files) {
      var i :| 0 <= i < |snap| && snap[i].1.verified == x;
      SnapshotRowIsRow(files, i);
    }
    forall x | x in StampsOfRows(files) ensures x in StampsOf(snap) {
      var i :| 0 <= i < |files| && files[i].verified == x;
      var j := RowInSnapshot(files, i);
      assert snap[j].1.verified == x;
    }
  }

  /** What the pass does to the `expired` column. After a pass that was not
      cut short, every row read before it that was not refreshed gets `mark`;
      when the pass stamp equals one of the old stamps, every row does,
      refreshed or inserted ones included; otherwise a refreshed row carries
      the pass stamp and keeps its `expired` value. With the intended SQL
      `NOW()` the mark is the current datetime; as written it is
      `StoredForNow`, the zero date the rows already hold, so nothing is
      marked (`Tables.CleanDbAsWritten`). */
  lemma PassExpiresStaleRows(cfg: Config, cal: Calendar, db: Db, entries: seq<DavEntry>, stamp: int,
                             io: string -> FileIo, mark: string)
    requires WellFormed(db)
    ensures var r := Reconcile(cfg, cal, db, entries, stamp, io, mark);
      r.1.Some? ==> ExpiresStale(db.files, r.0.db.files, RefreshedPaths(r.0.results), stamp, mark)
  {
    var r := Reconcile(cfg, cal, db, entries, stamp, io, mark);
    var db1 := CleanupExpiredLinks(db, cal.today);
    var run := ProcessAll(cfg, cal, db1, ReadDb(db.files), stamp, FilterFiles(entries, cfg.contentTypes), io);
    assert db1.files == db.files;
    ProcessAllRows(cfg, cal, db1, ReadDb(db.files), stamp, FilterFiles(entries, cfg.contentTypes), io);
    if !run.thrown {
      var vals := Values(OldTimestamps(ReadDb(db.files)));
      assert r == CleanPass(run, vals, mark);
      ValuesAreOldStamps(db.files);
      CleanPassExpiresStale(db.files, run, stamp, vals, mark);
    }
  }

  lemma CleanPassExpiresStale(before: seq<FileRow>, run: Run, stamp: int, stamps: seq<int>, mark: string)
    requires RowsAfter(before, run.db.files, RefreshedPaths(run.results), stamp)
    requires forall x :: x in stamps <==> x in StampsOfRows(before)
    ensures ExpiresStale(before, CleanPass(run, stamps, mark).0.db.files, RefreshedPaths(run.results), stamp, mark)
  {
    var c := CleanPass(run, stamps, mark);
    CleanedRows(before, run.db.files, c.0.db.files, RefreshedPaths(run.results), stamp, stamps, mark);
  }

  /** The `expired` column after a pass over `before`: see
      `PassExpiresStaleRows`. */
  ghost predicate ExpiresStale(before: seq<FileRow>, after: seq<FileRow>, refreshed: set<string>, stamp: int,
                                mark: string) {
    && |before| <= |after|
    && (forall i :: 0 <= i < |before| && before[i].fullPath !in refreshed ==>
          after[i] == before[i].(expired := mark))
    && (stamp in StampsOfRows(before) ==>
          forall i :: 0 <= i < |after| ==> after[i].expired == mark)
    && (stamp !in StampsOfRows(before) ==>
          forall i :: 0 <= i < |before| && before[i].fullPath in refreshed ==>
            after[i] == before[i].(verified := stamp))
  }

  /** The values the pass collects are exactly the old stamps. */
  lemma ValuesAreOldStamps(files: seq<FileRow>)
    requires forall a, b :: 0 <= a < b < |files| ==> files[a].fullPath != files[b].fullPath
    ensures forall x :: x in Values(OldTimestamps(ReadDb(files))) <==> x in StampsOfRows(files)
  {
    var prior := OldTimestamps(ReadDb(files));
    OldStampsAreVerifiedValues(files);
    SelfKeyedValueSet(prior);
  }

  /** In an array whose values are its keys, the values are the key set. */
  lemma SelfKeyedValueSet<K>(a: Arr<K, K>)
    requires DistinctKeys(a)
    requires forall k :: Get(a, k).Some? ==> Get(a, k).value == k
    ensures forall x :: x in Values(a) <==> x in KeySet(a)
  {
    var vals := Values(a);
    SelfKeyedValues(a);
    forall x | x in vals ensures x in KeySet(a) {
      var i :| 0 <= i < |vals| && vals[i] == x;
      assert a[i].0 in KeySet(a);
    }
    forall x | x in KeySet(a) ensures x in vals {
      var i :| 0 <= i < |a| && a[i].0 == x;
      assert vals[i] == x;
    }
  }

  /** Cleaning with the old stamps after the loop. */
  lemma CleanedRows(before: seq<FileRow>, mid: seq<FileRow>, cleaned: seq<FileRow>, refreshed: set<string>,
                    stamp: int, stamps: seq<int>, mark: string)
    requires RowsAfter(before, mid, refreshed, stamp)
    requires |cleaned| == |mid|
    requires forall i :: 0 <= i < |mid| ==>
      cleaned[i] == (if mid[i].verified in stamps then mid[i].(expired := mark) else mid[i])
    requires forall x :: x in stamps <==> x in StampsOfRows(before)
    ensures ExpiresStale(before, cleaned, refreshed, stamp, mark)
  {
    forall i | 0 <= i < |before| ensures before[i].verified in stamps {
      assert before[i].verified in StampsOfRows(before);
    }
    if stamp in StampsOfRows(before) {
      forall i | 0 <= i < |cleaned| ensures cleaned[i].expired == mark {
        if i < |before| {
          assert before[i].verified in stamps;
        }
      }
    }
  }

  // ---------------------------------------------------------------- sales_create_link

  datatype LinkResult = LinkThrown | LinkFailed | LinkCreated

  /** `sales_create_link`: shares the sale's file (a sale without a file
      shares the recordings folder itself, PHP printing `false`/`null` as "")
      until `expiry`, and stores the link when a URL comes back.
      `shareOutput` is the raw reply, `shareUrl` the `data.url` read from
      it; the expiry date is an input here. */
  function SalesCreateLink(cfg: Config, cal: Calendar, db: Db, salesId: int, expiry: int,
                           shareOutput: Option<string>, shareUrl: Option<string>): (r: (LinkResult, Db, seq<Effect>))
    ensures r.2 == [Dav(CreateShare(cfg.ncRoot, cfg.ncFolder + PathText(GetFilePathFromSalesId(db, salesId)),
                                    cal.formatYmd(expiry)))]
    ensures r.0 != LinkCreated ==> r.1 == db
    ensures r.0 == LinkThrown <==> CurlExecute(shareOutput).Thrown?
    ensures r.0 == LinkCreated <==> !CurlExecute(shareOutput).Thrown? && shareUrl.Some? && !Falsy(shareUrl.value)
    ensures r.0 == LinkCreated ==> r.1 == UpdateNcShare(db, salesId, shareUrl.value, expiry)
    ensures WellFormed(db) ==> WellFormed(r.1)
  {
    var path := PathText(GetFilePathFromSalesId(db, salesId));
    var log := [Dav(CreateShare(cfg.ncRoot, cfg.ncFolder + path, cal.formatYmd(expiry)))];
    if CurlExecute(shareOutput).Thrown? then (LinkThrown, db, log)
    else if shareUrl.None? || Falsy(shareUrl.value) then (LinkFailed, db, log)
    else (LinkCreated, UpdateNcShare(db, salesId, shareUrl.value, expiry), log)
  }
}

=== FILE: base.dfy ===
/** Shared vocabulary of the media-store model: optional values and the
    calendar/clock that the PHP code reaches through `DateTime`, `date()`,
    `date_create()` and `strtotime()`.

    The calendar is kept abstract: its parser and formatter are function-valued
    fields, so every statement about dates holds for any calendar, and a lemma
    that needs a particular fact (for instance that a string parses) takes that
    fact as a precondition. Dates are day numbers; pass timestamps are plain
    integers. */
module Base {

  /** A value that may be missing: PHP's `false` / `null` results. */
  datatype Option<+T> = None | Some(value: T) {
    function GetOr(default: T): T {
      match this
      case Some(v) => v
      case None => default
    }
  }

  /** The date facilities used by the WordPress plugin, seen from one request.
      - `today`: `date('Y-m-d')` of the current request, as a day number;
      - `parseYmd`: `DateTime::createFromFormat('Y-m-d', s)`, `None` when it
        returns `false`;
      - `formatYmd`: `->format('Y-m-d')` of a day number;
      - `formatYm`: `date('Y/m', ...)` of a day number;
      - `shift`: `->modify(s)` / `date_create(s)` applied to a day number;
        `None` when the relative format is not understood (this also decides
        whether `strtotime(s)` succeeds). */
  datatype Calendar = Calendar(
    today: int,
    parseYmd: string -> Option<int>,
    formatYmd: int -> string,
    formatYm: int -> string,
    shift: (int, string) -> Option<int>)
  {
    /** `strtotime($s) !== false`, evaluated relative to today. */
    predicate Understands(s: string) {
      shift(today, s).Some?
    }
  }

  /** `sub` is `s` with some elements left out, the rest in their order. */
  predicate SubsequenceOf<T(==)>(sub: seq<T>, s: seq<T>)
    decreases |s|
  {
    if |sub| == 0 then true
    else if |s| == 0 then false
    else if sub[0] == s[0] then SubsequenceOf(sub[1..], s[1..])
    else SubsequenceOf(sub, s[1..])
  }

  /** `s` back to front. */
  function Reverse<T>(s: seq<T>): (r: seq<T>)
    ensures |r| == |s|
    ensures forall i :: 0 <= i < |s| ==> r[i] == s[|s| - 1 - i]
  {
    seq(|s|, i requires 0 <= i < |s| => s[|s| - 1 - i])
  }
}

=== FILE: effects.dfy ===
/** The outside world as the model sees it: every remote or system call the
    plugin and the cron script make is recorded as an `Effect` value appended
    to a log, in call order. What a call returns is an input of the operation
    that makes it. */
module Effects {
  import opened FormEncode
  import opened Nextcloud

  datatype Effect =
      /** A WebDAV or OCS request sent to Nextcloud. */
    | Dav(request: DavRequest)
      /** `stripe_curl_command($path, $data)`: a `GET` when `data` is empty,
          a form `POST` otherwise. */
    | StripeCall(path: string, data: FormData)
      /** `wp_mail`. */
    | Mail(to: string, subject: string, body: string)
      /** `wp_redirect` of the visitor's browser. */
    | Redirect(url: string)
      /** Moving a local file to the desktop trash. */
    | Trash(path: string)
      /** Creating a local directory, with parents. */
    | MakeDir(path: string)
      /** Copying a local file. */
    | CopyFile(source: string, target: string)
      /** Building the thumbnail gallery of a video. */
    | MakeGallery(video: string)
      /** Extracting the audio track of a video. */
    | MakeAudio(video: string)

  /** A call to a given Stripe endpoint. */
  predicate IsStripeCallTo(e: Effect, path: string) {
    e.StripeCall? && e.path == path
  }

  /** Number of calls to a given Stripe endpoint in a log. */
  function CallsTo(log: seq<Effect>, path: string): (n: nat)
    ensures n <= |log|
    ensures n == 0 <==> forall i :: 0 <= i < |log| ==> !IsStripeCallTo(log[i], path)
  {
    if |log| == 0 then 0
    else
      var n := (if IsStripeCallTo(log[0], path) then 1 else 0) + CallsTo(log[1..], path);
      assert forall i :: 1 <= i < |log| ==> log[i] == log[1..][i - 1];
      n
  }

  /** The count over two logs put together is the sum of their counts. */
  lemma {:induction false} CallsConcat(a: seq<Effect>, b: seq<Effect>, path: string)
    ensures CallsTo(a + b, path) == CallsTo(a, path) + CallsTo(b, path)
    decreases |a|
  {
    if |a| == 0 {
      assert a + b == b;
    } else {
      assert (a + b)[0] == a[0];
      assert (a + b)[1..] == a[1..] + b;
      CallsConcat(a[1..], b, path);
    }
  }
}

=== FILE: form.dfy ===
/** The form-body encoder `make_array_string`, which builds the
    `application/x-www-form-urlencoded` body of every Stripe request (the
    plugin has two textually identical copies, one in the main plugin file and
    one in the Stripe client class), together with a decoder that reads such a
    body back into its key/value pairs. */
module FormEncode {
  import opened Text

  /** A value of the PHP data array: a scalar (already converted to its string
      form) or a nested array of sub-key/value pairs. */
  datatype FormValue = Scalar(text: string) | List(items: seq<(string, string)>)

  type FormData = seq<(string, FormValue)>

  /** The `key=value` pairs one entry contributes. A non-empty array gives one
      `key[sub]` pair per element, in order; an empty array takes the scalar
      branch, where PHP interpolates it as the word "Array". */
  function EntryPairs(key: string, v: FormValue): (r: seq<(string, string)>)
    ensures |r| > 0
    ensures v.Scalar? ==> r == [(key, v.text)]
    ensures v.List? && |v.items| == 0 ==> r == [(key, "Array")]
    ensures v.List? && |v.items| > 0 ==>
      |r| == |v.items| &&
      forall i :: 0 <= i < |r| ==> r[i] == (key + "[" + v.items[i].0 + "]", v.items[i].1)
  {
    match v
    case Scalar(t) => [(key, t)]
    case List(items) =>
      if |items| == 0 then [(key, "Array")]
      else seq(|items|, i requires 0 <= i < |items| => (key + "[" + items[i].0 + "]", items[i].1))
  }

  /** All pairs of the data array, entry by entry in input order. */
  function Pairs(data: FormData): (r: seq<(string, string)>)
    ensures |r| >= |data|
    ensures forall i :: 0 <= i < |data| && data[i].1.Scalar? ==> (data[i].0, data[i].1.text) in r
  {
    if |data| == 0 then []
    else
      var r := EntryPairs(data[0].0, data[0].1) + Pairs(data[1..]);
      assert forall i :: 1 <= i < |data| ==> data[i] == data[1..][i - 1];
      r
  }

  /** The pairs of two arrays written one after the other. */
  lemma {:induction false} PairsAppend(a: FormData, b: FormData)
    ensures Pairs(a + b) == Pairs(a) + Pairs(b)
    decreases |a|
  {
    if |a| == 0 {
      assert a + b == b;
    } else {
      assert (a + b)[0] == a[0];
      assert (a + b)[1..] == a[1..] + b;
      PairsAppend(a[1..], b);
    }
  }

  /** The data array whose entries are all scalars, one per given pair. */
  function Scalars(ps: seq<(string, string)>): (r: FormData)
    ensures |r| == |ps|
    ensures forall i :: 0 <= i < |r| ==> r[i] == (ps[i].0, Scalar(ps[i].1))
  {
    seq(|ps|, i requires 0 <= i < |ps| => (ps[i].0, Scalar(ps[i].1)))
  }

  /** An array of scalars contributes exactly its own pairs, in order. */
  lemma {:induction false} PairsOfScalars(ps: seq<(string, string)>)
    ensures Pairs(Scalars(ps)) == ps
    decreases |ps|
  {
    if |ps| > 0 {
      var data := Scalars(ps);
      assert data[1..] == Scalars(ps[1..]);
      PairsOfScalars(ps[1..]);
      assert Pairs(data) == [(ps[0].0, ps[0].1)] + ps[1..];
      assert ps == [ps[0]] + ps[1..];
    }
  }

  function EncodePair(p: (string, string)): string {
    p.0 + "=" + p.1
  }

  /** `make_array_string($data)`: the encoded pairs joined by "&". */
  function MakeArrayString(data: FormData): (r: string)
    ensures r == "" <==> |data| == 0
  {
    var ps := Pairs(data);
    var body := Join(seq(|ps|, i requires 0 <= i < |ps| => EncodePair(ps[i])), "&");
    assert |data| > 0 ==> body != "" by {
      if |data| > 0 {
        JoinNonEmpty(seq(|ps|, i requires 0 <= i < |ps| => EncodePair(ps[i])), "&");
      }
    }
    body
  }

  /** Reading one `key=value` piece: the key ends at the first '='. */
  function DecodePair(piece: string): (r: (string, string))
    ensures '=' !in r.0
  {
    if '=' in piece then
      var i := IndexOf(piece, '=');
      (piece[..i], piece[i + 1..])
    else (piece, "")
  }

  /** Reading a whole body: pieces separated by '&'; the empty body has none. */
  function DecodeBody(body: string): seq<(string, string)> {
    if body == "" then []
    else
      var pieces := Split(body, '&');
      seq(|pieces|, i requires 0 <= i < |pieces| => DecodePair(pieces[i]))
  }

  /** The pairs survive the trip through the body when no key holds '&' or
      '=' and no value holds '&' (values may hold '='). */
  predicate Encodable(ps: seq<(string, string)>) {
    forall i :: 0 <= i < |ps| ==> '&' !in ps[i].0 && '=' !in ps[i].0 && '&' !in ps[i].1
  }

  lemma JoinNonEmpty(parts: seq<string>, sep: string)
    requires |parts| > 0 && parts[0] != ""
    ensures Join(parts, sep) != ""
  {
    if |parts| > 1 {
      assert |Join(parts, sep)| >= |parts[0]|;
    }
  }

  lemma DecodeEncodePair(p: (string, string))
    requires '=' !in p.0
    ensures DecodePair(EncodePair(p)) == p
  {
    var s := EncodePair(p);
    assert s[|p.0|] == '=' && s[..|p.0|] == p.0;
    IndexOfUnique(s, '=', |p.0|);
    assert s[|p.0| + 1..] == p.1;
  }

  /** `DecodeBody` inverts `make_array_string` on encodable data: the body
      carries exactly the pairs of `Pairs`, in order. */
  lemma FormRoundTrip(data: FormData)
    requires Encodable(Pairs(data))
    ensures DecodeBody(MakeArrayString(data)) == Pairs(data)
  {
    var ps := Pairs(data);
    if |data| > 0 {
      var pieces := seq(|ps|, i requires 0 <= i < |ps| => EncodePair(ps[i]));
      forall k | 0 <= k < |pieces| ensures '&' !in pieces[k] {
        assert pieces[k] == ps[k].0 + "=" + ps[k].1;
      }
      SplitJoin(pieces, '&');
      forall k | 0 <= k < |ps| ensures DecodePair(pieces[k]) == ps[k] {
        DecodeEncodePair(ps[k]);
      }
    }
  }
}

=== FILE: frontend.dfy ===
/** The visitor side of the plugin (`frontend.inc.php`): choosing a date and
    a recording, starting a purchase on Stripe, and confirming it once Stripe
    sends the buyer back.

    What Stripe and Nextcloud answer is an input; every request sent and the
    confirmation mail are `Effect`s. Where PHP 8 stops the request with a
    `TypeError` (a `null` handed to a `string` parameter), the outcome is
    `Crashed` with the effects sent up to that point. */
module Frontend {
  import opened Base
  import opened Text
  import opened PhpArray
  import opened MediaStore
  import opened FormEncode
  import opened Stripe
  import opened Nextcloud
  import opened Effects
  import opened Tables

  /** The configuration keys the front end reads. */
  datatype Shop = Shop(
    /** `nextcloud_folder`. */
    ncFolder: string,
    /** `nextcloud_share_time`, a relative date such as "+1 week". */
    shareTime: string,
    /** `statement_descriptor`. */
    statementDescriptor: string,
    /** `media_price`, in cents. */
    mediaPrice: int,
    /** `stripe_mode`. */
    stripeMode: string,
    /** `home_url($wp->request)`, the page the purchase started on. */
    homeUrl: string)

  // ---------------------------------------------------------------- show_interface

  /** `data_fetch_dates(read_db())`. */
  function AllDates(db: Db): (r: Arr<string, string>)
    ensures KeySet(r) == StartDates(ReadDb(db.files))
  {
    FetchDates(ReadDb(db.files))
  }

  /** The posted date is a valid `Y-m-d` date with recordings. */
  predicate DateChosen(cal: Calendar, selected: Option<string>, allDates: Arr<string, string>) {
    selected.Some? && ValidateDate(cal, selected.value) && HasKey(allDates, selected.value)
  }

  /** The date the picker opens on: the posted date when `DateChosen`, else
      the latest date of the catalog (`null` for an empty catalog). The code
      takes the last key of the date list, which is the latest date because
      `read_db` sorts the rows by start date. */
  function SelectDate(cal: Calendar, selected: Option<string>, allDates: Arr<string, string>): (r: Option<string>)
    ensures DateChosen(cal, selected, allDates) ==> r == selected
    ensures r.Some? ==> r.value in KeySet(allDates)
    ensures r.None? <==> |allDates| == 0
    ensures !DateChosen(cal, selected, allDates) && r.Some? ==>
      forall d :: d in KeySet(allDates) ==> LexLeq(d, r.value)
  {
    if DateChosen(cal, selected, allDates) then
      HasKeyIsKeySet(allDates, selected.value);
      selected
    else LatestDate(allDates)
  }

  /** The greatest key of a date list. */
  function LatestDate(dates: Arr<string, string>): (r: Option<string>)
    ensures r.Some? <==> |dates| > 0
    ensures r.Some? ==> r.value in KeySet(dates)
    ensures r.Some? ==> forall i :: 0 <= i < |dates| ==> LexLeq(dates[i].0, r.value)
    decreases |dates|
  {
    if |dates| == 0 then None
    else
      assert forall i :: 1 <= i < |dates| ==> dates[i] == dates[1..][i - 1];
      match LatestDate(dates[1..])
      case None =>
        LexLeqReflexive(dates[0].0);
        Some(dates[0].0)
      case Some(later) =>
        LexLeqTotal(dates[0].0, later);
        LexLeqReflexive(later);
        if LexLeq(dates[0].0, later) then
          Some(later)
        else
          LexLeqReflexive(dates[0].0);
          forall i | 1 <= i < |dates| ensures LexLeq(dates[i].0, dates[0].0) {
            LexLeqTrans(dates[i].0, later, dates[0].0);
          }
          Some(dates[0].0)
  }

  /** Without a chosen date the picker opens on the latest date of the
      catalog, and on no other: a date of the list no earlier than any other
      is the one `SelectDate` gives. */
  lemma FallbackIsLatest(cal: Calendar, selected: Option<string>, allDates: Arr<string, string>, d: string)
    requires !DateChosen(cal, selected, allDates)
    requires d in KeySet(allDates)
    requires forall e :: e in KeySet(allDates) ==> LexLeq(e, d)
    ensures SelectDate(cal, selected, allDates) == Some(d)
  {
    var r := SelectDate(cal, selected, allDates);
    LexLeqAntisymmetric(r.value, d);
  }

  /** The chosen date is the start date of a stored recording, and there is
      one exactly when the catalog is not empty. */
  lemma ChosenDateIsRecorded(cal: Calendar, db: Db, selected: Option<string>)
    ensures var r := SelectDate(cal, selected, AllDates(db));
      && (r.Some? <==> |db.files| > 0)
      && (r.Some? ==> exists i :: 0 <= i < |db.files| && db.files[i].startDate == r.value)
  {
    var r := SelectDate(cal, selected, AllDates(db));
    var snap := ReadDb(db.files);
    if r.Some? {
      DateIsRecorded(db, r.value);
    }
    if |db.files| > 0 {
      assert db.files[0].fullPath in Paths(db.files);
      var j :| 0 <= j < |snap| && snap[j].0 == db.files[0].fullPath;
      assert snap[j].1.startDate in KeySet(AllDates(db));
    }
  }

  /** A key of the date list belongs to a stored recording. */
  lemma DateIsRecorded(db: Db, date: string)
    requires date in KeySet(AllDates(db))
    ensures exists i :: 0 <= i < |db.files| && db.files[i].startDate == date
  {
    var snap := ReadDb(db.files);
    var j :| 0 <= j < |snap| && snap[j].1.startDate == date;
    SnapshotRowIsRow(db.files, j);
  }

  /** What the page shows. `lastDate` is the date the picker opens on;
      `shown` is `None` when no recording is shown, `Some(None)` when the
      requested id has no row (the details of `null`). `Stopped` is the
      `TypeError` that `data_fetch_one_recording(int $id)` raises for a
      posted id that is not a number; the page is not produced. */
  datatype Browse =
    | DatePicker(lastDate: Option<string>)
    | NoRecordings(lastDate: Option<string>, date: string)
    | Listing(lastDate: Option<string>, date: string, count: nat, dropdown: bool, shown: Option<Option<FileRow>>)
    | Stopped(lastDate: Option<string>, date: string)

  /** `show_interface` without a returning buyer. `recordings` is what
      `data_fetch_date_recordings` returns for the date the picker opens on;
      `selectedFileId` the posted `file_id` as sent (`None` when absent).
      Unless the date has exactly one recording, the posted value goes
      through `FILTER_SANITIZE_NUMBER_INT` to the `int` parameter of
      `data_fetch_one_recording`. */
  function ShowInterface(cal: Calendar, db: Db, selectedDate: Option<string>, selectedFileId: Option<string>,
                         recordings: seq<FileRow>): (r: Browse)
    ensures r.lastDate == SelectDate(cal, selectedDate, AllDates(db))
    ensures r.DatePicker? <==> selectedDate.None? || Falsy(selectedDate.value)
    ensures r.NoRecordings? <==> selectedDate.Some? && !Falsy(selectedDate.value)
                                 && !HasKey(AllDates(db), selectedDate.value)
    ensures !r.DatePicker? ==> r.date == selectedDate.value
    ensures r.Stopped? <==>
      && selectedDate.Some? && !Falsy(selectedDate.value) && HasKey(AllDates(db), selectedDate.value)
      && |recordings| != 1 && selectedFileId.Some?
      && !LeadingNumeric(SanitizeNumberInt(selectedFileId.value))
    ensures r.Listing? ==> r.count == |recordings| && (r.dropdown <==> |recordings| > 1)
    ensures r.Listing? && |recordings| == 1 ==> r.shown == Some(FileById(db.files, recordings[0].id))
    ensures r.Listing? && |recordings| != 1 ==>
      r.shown == (if selectedFileId.Some? then Some(FileById(db.files, Intval(SanitizeNumberInt(selectedFileId.value))))
                  else None)
  {
    var allDates := AllDates(db);
    var lastDate := SelectDate(cal, selectedDate, allDates);
    if selectedDate.None? || Falsy(selectedDate.value) then DatePicker(lastDate)
    else if !HasKey(allDates, selectedDate.value) then NoRecordings(lastDate, selectedDate.value)
    else if |recordings| == 1 then
      Listing(lastDate, selectedDate.value, 1, false, Some(FileById(db.files, recordings[0].id)))
    else match selectedFileId
      case None => Listing(lastDate, selectedDate.value, |recordings|, |recordings| > 1, None)
      case Some(raw) =>
        var v := SanitizeNumberInt(raw);
        if LeadingNumeric(v) then
          Listing(lastDate, selectedDate.value, |recordings|, |recordings| > 1, Some(FileById(db.files, Intval(v))))
        else Stopped(lastDate, selectedDate.value)
  }

  /** A posted `file_id` without any digit ("", "abc", "+") stops the page
      whenever the chosen date does not have exactly one recording. */
  lemma DigitlessFileIdStops(cal: Calendar, db: Db, date: string, raw: string, recordings: seq<FileRow>)
    requires !Falsy(date) && HasKey(AllDates(db), date)
    requires |recordings| != 1
    requires forall i :: 0 <= i < |raw| ==> !IsDigit(raw[i])
    ensures ShowInterface(cal, db, Some(date), Some(raw), recordings).Stopped?
  {
    SanitizeNumberIntNoDigits(raw);
    var v := SanitizeNumberInt(raw);
    assert |v| > 0 ==> !IsDigit(v[0]);
    assert |v| > 1 ==> !IsDigit(v[1]);
  }

  /** A date the page lists recordings for is the start date of a stored
      recording, and the picker then opens on it when it is a valid date. */
  lemma ListedDateIsRecorded(cal: Calendar, db: Db, selectedDate: Option<string>, selectedFileId: Option<string>,
                             recordings: seq<FileRow>)
    ensures var r := ShowInterface(cal, db, selectedDate, selectedFileId, recordings);
      r.Listing? ==>
        && (exists i :: 0 <= i < |db.files| && db.files[i].startDate == r.date)
        && (ValidateDate(cal, r.date) ==> r.lastDate == Some(r.date))
  {
    var r := ShowInterface(cal, db, selectedDate, selectedFileId, recordings);
    if r.Listing? {
      HasKeyIsKeySet(AllDates(db), r.date);
      DateIsRecorded(db, r.date);
    }
  }

  // ---------------------------------------------------------------- execute_purchase

  /** The honeypot field is absent or empty. */
  predicate HoneypotEmpty(special: Option<string>) {
    special.None? || special.value == ""
  }

  /** The `id` member of a Stripe reply as a `string` parameter sees it:
      missing when the reply or the member is (`null`). */
  function IdField(reply: Option<StripeObject>): (r: Option<string>)
    ensures r.Some? <==> reply.Some? && reply.value.id.Some?
    ensures r.Some? ==> r.value == IdOf(reply)
  {
    if reply.Some? then reply.value.id else None
  }

  /** What Stripe answers to the product, price and session requests. */
  datatype Replies = Replies(product: Option<StripeObject>, price: Option<StripeObject>, session: Option<StripeObject>)

  datatype PurchaseResult =
    | Ignored
    | Crashed
    | Redirected(productId: string, priceId: string, sessionId: string)

  datatype Purchase = Purchase(result: PurchaseResult, db: Db, log: seq<Effect>)

  const ProductsPath: string := "products"
  const PricesPath: string := "prices"
  const SessionsPath: string := "checkout/sessions"

  /** The product request for a recording that has none yet. */
  function ProductCall(shop: Shop, p: FileRow): (r: seq<Effect>)
    ensures |r| <= 1
    ensures |r| == 1 <==> p.stripeProductId == ""
    ensures |r| == 1 ==> r[0] == StripeCall(ProductsPath,
      ProductPayload(p.fileName, p.description, shop.statementDescriptor, [p.thumbnailUrl]))
  {
    if p.stripeProductId == "" then
      [StripeCall(ProductsPath, ProductPayload(p.fileName, p.description, shop.statementDescriptor, [p.thumbnailUrl]))]
    else []
  }

  /** The price request for a recording that has none yet. */
  function PriceCall(shop: Shop, p: FileRow, productId: string): (r: seq<Effect>)
    ensures |r| <= 1
    ensures |r| == 1 <==> p.stripePriceId == ""
    ensures |r| == 1 ==> r[0] == StripeCall(PricesPath, StripeCreatePrice(productId, shop.mediaPrice))
  {
    if p.stripePriceId == "" then [StripeCall(PricesPath, StripeCreatePrice(productId, shop.mediaPrice))] else []
  }

  /** The product id the purchase goes on with: the stored one, or the id of
      the product just created. */
  function ProductIdOf(p: FileRow, replies: Replies): (r: Option<string>)
    ensures p.stripeProductId != "" ==> r == Some(p.stripeProductId)
    ensures p.stripeProductId == "" ==> r == IdField(replies.product)
  {
    if p.stripeProductId == "" then IdField(replies.product) else Some(p.stripeProductId)
  }

  function PriceIdOf(p: FileRow, replies: Replies): (r: Option<string>)
    ensures p.stripePriceId != "" ==> r == Some(p.stripePriceId)
    ensures p.stripePriceId == "" ==> r == IdField(replies.price)
  {
    if p.stripePriceId == "" then IdField(replies.price) else Some(p.stripePriceId)
  }

  /** The recording id `execute_purchase` works with: the posted
      `launch_sales_id` through `FILTER_SANITIZE_NUMBER_INT`, then `intval`
      (a missing field is `null`, read as ""). The filtered string itself is
      what `data_fetch_one_recording` and `data_prime_sales_session` receive;
      for a positive id it is leading-numeric (`PurchaseIdCoerces`), so the
      `int` parameter coercion and MySQL's non-strict reading of the `id` and
      `file_id` columns take the same number. */
  function PostedId(launchId: Option<string>): int {
    Intval(SanitizeNumberInt(launchId.GetOr("")))
  }

  /** A purchase that goes ahead hands on a leading-numeric string, never one
      that would raise a `TypeError` at the `int` parameter. */
  lemma PurchaseIdCoerces(launchId: Option<string>)
    requires PostedId(launchId) > 0
    ensures LeadingNumeric(SanitizeNumberInt(launchId.GetOr("")))
  {
    PositiveIsLeadingNumeric(launchId.GetOr(""));
  }

  /** The filter runs before `intval`: letters in front of the digits are
      dropped rather than stopping the read, and a decimal point is dropped
      so the digits on both sides join. */
  lemma PostedIdDropsOtherChars()
    ensures PostedId(Some("abc7")) == 7
    ensures PostedId(Some("1.5")) == 15
    ensures PostedId(None) == 0
  {
    SanitizeNumberIntExamples();
    IntvalOfSanitizedExamples();
  }

  /** `execute_purchase`, run on every request. `launchId` and `special` are
      the posted `launch_sales_id` and honeypot fields. A purchase goes ahead
      only for an empty honeypot and a positive id; a missing recording stops
      the request before anything is sent (its `null` name reaches
      `stripe_create_product`). */
  function ExecutePurchase(shop: Shop, db: Db, launchId: Option<string>, special: Option<string>,
                           replies: Replies): (r: Purchase)
    ensures r.result.Ignored? <==> !(HoneypotEmpty(special) && PostedId(launchId) > 0)
    ensures r.result.Ignored? ==> r.db == db && r.log == []
    ensures !r.result.Ignored? && FileById(db.files, PostedId(launchId)).None? ==>
      r == Purchase(Crashed, db, [])
    ensures var id := PostedId(launchId);
      !r.result.Ignored? && FileById(db.files, id).Some? ==>
        r == Checkout(shop, db, id, FileById(db.files, id).value, replies)
  {
    var id := PostedId(launchId);
    if !(HoneypotEmpty(special) && id > 0) then Purchase(Ignored, db, [])
    else match FileById(db.files, id)
      case None => Purchase(Crashed, db, [])
      case Some(p) => Checkout(shop, db, id, p, replies)
  }

  /** The request stops at `stripe_create_price`, whose `string` parameter
      receives the `null` id of a product reply without one; with a price
      stored that call is never made and the purchase goes on. */
  predicate ProductIdMissing(p: FileRow, replies: Replies) {
    ProductIdOf(p, replies).None? && p.stripePriceId == ""
  }

  /** The purchase of the recording `p` with id `id`: the product and the
      price when they are not stored yet, then a new session, the primed sale
      and the redirect. A missing product id stops the request as
      `ProductIdMissing` says, a missing price id at the session request;
      a missing product id that gets past them is stored as "" (the `NULL`
      the update sends to a `NOT NULL` column outside strict mode), and a
      session without an id primes no sale (`Tables.PrimeSalesSession`). */
  function Checkout(shop: Shop, db: Db, id: int, p: FileRow, replies: Replies): (r: Purchase)
    ensures !r.result.Ignored?
    ensures !r.result.Redirected? ==> r.db == db
    ensures r.result.Crashed? <==> ProductIdMissing(p, replies) || PriceIdOf(p, replies).None?
    ensures ProductIdMissing(p, replies) ==> r.log == ProductCall(shop, p)
    ensures !ProductIdMissing(p, replies) ==>
      var productId := ProductIdOf(p, replies).GetOr("");
      var calls := ProductCall(shop, p) + PriceCall(shop, p, productId);
      && (PriceIdOf(p, replies).None? ==> r.log == calls)
      && (PriceIdOf(p, replies).Some? ==>
            var priceId := PriceIdOf(p, replies).value;
            && r.result == Redirected(productId, priceId, IdOf(replies.session))
            && r.log == calls + [StripeCall(SessionsPath, SessionPayload(shop.homeUrl, priceId, 1)),
                                 Redirect(UrlOf(replies.session))])
    ensures r.result.Redirected? ==>
      r.db == PrimeSalesSession(db, id, IdField(replies.session), r.result.productId, r.result.priceId,
                                shop.stripeMode)
  {
    var productCall := ProductCall(shop, p);
    if ProductIdMissing(p, replies) then Purchase(Crashed, db, productCall)
    else
      var productId := ProductIdOf(p, replies).GetOr("");
      var priceCall := PriceCall(shop, p, productId);
      match PriceIdOf(p, replies)
      case None => Purchase(Crashed, db, productCall + priceCall)
      case Some(priceId) =>
        Purchase(Redirected(productId, priceId, IdOf(replies.session)),
                 PrimeSalesSession(db, id, IdField(replies.session), productId, priceId, shop.stripeMode),
                 productCall + priceCall
                 + [StripeCall(SessionsPath, SessionPayload(shop.homeUrl, priceId, 1)),
                    Redirect(UrlOf(replies.session))])
  }

  /** A purchase asks Stripe for a product exactly when the recording has
      none stored. */
  lemma CheckoutProductCount(shop: Shop, db: Db, id: int, p: FileRow, replies: Replies)
    ensures CallsTo(Checkout(shop, db, id, p, replies).log, ProductsPath) == (if p.stripeProductId == "" then 1 else 0)
  {
    var r := Checkout(shop, db, id, p, replies);
    var product := ProductCall(shop, p);
    if ProductIdMissing(p, replies) {
      LogCounts(product, [], []);
      assert product + [] + [] == r.log;
    } else if PriceIdOf(p, replies).None? {
      var price := PriceCall(shop, p, ProductIdOf(p, replies).GetOr(""));
      LogCounts(product, price, []);
      assert product + price + [] == r.log;
    } else {
      CheckoutTail(shop, db, id, p, replies);
    }
  }

  /** A purchase asks for a price at most when the recording has none
      stored, and exactly then when it reaches the redirect. */
  lemma CheckoutPriceCount(shop: Shop, db: Db, id: int, p: FileRow, replies: Replies)
    ensures var r := Checkout(shop, db, id, p, replies);
      && CallsTo(r.log, PricesPath) <= (if p.stripePriceId == "" then 1 else 0)
      && (r.result.Redirected? ==> CallsTo(r.log, PricesPath) == (if p.stripePriceId == "" then 1 else 0))
  {
    var r := Checkout(shop, db, id, p, replies);
    var product := ProductCall(shop, p);
    if ProductIdMissing(p, replies) {
      LogCounts(product, [], []);
      assert product + [] + [] == r.log;
    } else if PriceIdOf(p, replies).None? {
      var price := PriceCall(shop, p, ProductIdOf(p, replies).GetOr(""));
      LogCounts(product, price, []);
      assert product + price + [] == r.log;
    } else {
      CheckoutTail(shop, db, id, p, replies);
    }
  }

  /** Every purchase that reaches the redirect creates exactly one new
      session, and the redirect is the last thing it does. */
  lemma CheckoutSessionCount(shop: Shop, db: Db, id: int, p: FileRow, replies: Replies)
    ensures var r := Checkout(shop, db, id, p, replies);
      r.result.Redirected? ==>
        && CallsTo(r.log, SessionsPath) == 1
        && r.log[|r.log| - 1] == Redirect(UrlOf(replies.session))
  {
    var r := Checkout(shop, db, id, p, replies);
    if r.result.Redirected? {
      CheckoutTail(shop, db, id, p, replies);
    }
  }

  lemma CheckoutTail(shop: Shop, db: Db, id: int, p: FileRow, replies: Replies)
    requires !ProductIdMissing(p, replies) && PriceIdOf(p, replies).Some?
    ensures var r := Checkout(shop, db, id, p, replies);
      && CallsTo(r.log, ProductsPath) == |ProductCall(shop, p)|
      && CallsTo(r.log, PricesPath) == |PriceCall(shop, p, ProductIdOf(p, replies).GetOr(""))|
      && CallsTo(r.log, SessionsPath) == 1
      && r.log[|r.log| - 1] == Redirect(UrlOf(replies.session))
  {
    var r := Checkout(shop, db, id, p, replies);
    var product := ProductCall(shop, p);
    var price := PriceCall(shop, p, ProductIdOf(p, replies).GetOr(""));
    var tail := [StripeCall(SessionsPath, SessionPayload(shop.homeUrl, PriceIdOf(p, replies).value, 1)),
                 Redirect(UrlOf(replies.session))];
    assert r.log == product + price + tail;
    LogCounts(product, price, tail);
  }

  /** The counts of a purchase log: product calls, then price calls, then
      the session call and the redirect. */
  lemma LogCounts(product: seq<Effect>, price: seq<Effect>, tail: seq<Effect>)
    requires |product| <= 1 && |price| <= 1
    requires |product| == 1 ==> IsStripeCallTo(product[0], ProductsPath)
    requires |price| == 1 ==> IsStripeCallTo(price[0], PricesPath)
    requires |tail| == 0 || (|tail| == 2 && IsStripeCallTo(tail[0], SessionsPath) && tail[1].Redirect?)
    ensures CallsTo(product + price + tail, ProductsPath) == |product|
    ensures CallsTo(product + price + tail, PricesPath) == |price|
    ensures CallsTo(product + price + tail, SessionsPath) == |tail| / 2
  {
    CallsConcat(product + price, tail, ProductsPath);
    CallsConcat(product, price, ProductsPath);
    CallsConcat(product + price, tail, PricesPath);
    CallsConcat(product, price, PricesPath);
    CallsConcat(product + price, tail, SessionsPath);
    CallsConcat(product, price, SessionsPath);
    if |tail| == 2 {
      assert tail[1..][1..] == [];
    }
  }

  /** A second purchase of a recording whose first purchase stored non-empty
      product and price ids asks Stripe for neither again: it reuses them and
      only opens a new session. */
  lemma SecondPurchaseReusesObjects(shop: Shop, db: Db, launchId: Option<string>, special: Option<string>,
                                    replies1: Replies, replies2: Replies)
    requires WellFormed(db)
    ensures var first := ExecutePurchase(shop, db, launchId, special, replies1);
      var second := ExecutePurchase(shop, first.db, launchId, special, replies2);
      first.result.Redirected? && first.result.productId != "" && first.result.priceId != "" ==>
        && second.result == Redirected(first.result.productId, first.result.priceId, IdOf(replies2.session))
        && CallsTo(second.log, ProductsPath) == 0
        && CallsTo(second.log, PricesPath) == 0
        && CallsTo(second.log, SessionsPath) == 1
  {
    var first := ExecutePurchase(shop, db, launchId, special, replies1);
    if first.result.Redirected? && first.result.productId != "" && first.result.priceId != "" {
      var id := PostedId(launchId);
      var i := PrimedRowFound(shop, db, id, replies1);
      var row := first.db.files[i];
      CheckoutProductCount(shop, first.db, id, row, replies2);
      CheckoutPriceCount(shop, first.db, id, row, replies2);
      CheckoutSessionCount(shop, first.db, id, row, replies2);
    }
  }

  /** After a purchase the recording is found under its id with the ids the
      purchase used. */
  lemma PrimedRowFound(shop: Shop, db: Db, id: int, replies: Replies) returns (i: nat)
    requires WellFormed(db)
    requires FileById(db.files, id).Some?
    requires Checkout(shop, db, id, FileById(db.files, id).value, replies).result.Redirected?
    ensures var r := Checkout(shop, db, id, FileById(db.files, id).value, replies);
      && i < |db.files| && i < |r.db.files| && WellFormed(r.db)
      && FileById(db.files, id) == Some(db.files[i])
      && r.db.files[i] == db.files[i].(stripeProductId := r.result.productId, stripePriceId := r.result.priceId)
      && FileById(r.db.files, id) == Some(r.db.files[i])
  {
    var r := Checkout(shop, db, id, FileById(db.files, id).value, replies);
    var row := FileById(db.files, id).value;
    i :| 0 <= i < |db.files| && db.files[i] == row;
    FileByIdFinds(db.files, i);
    FileByIdFinds(r.db.files, i);
  }

  /** The sale a purchase primes leads back to the purchased recording: when
      Stripe returns the buyer with a session id no earlier sale carries,
      the confirmation shares that recording's path. */
  lemma PurchaseRecordsSale(shop: Shop, db: Db, launchId: Option<string>, special: Option<string>, replies: Replies)
    requires WellFormed(db)
    requires forall k :: 0 <= k < |db.sales| ==> db.sales[k].sessionId != IdOf(replies.session)
    ensures var r := ExecutePurchase(shop, db, launchId, special, replies);
      r.result.Redirected? && IdField(replies.session).Some? ==>
        GetFileFromSession(r.db, IdOf(replies.session))
          == Some(FileById(db.files, PostedId(launchId)).value.fullPath)
  {
    var r := ExecutePurchase(shop, db, launchId, special, replies);
    if r.result.Redirected? && IdField(replies.session).Some? {
      var id := PostedId(launchId);
      PrimedSessionFindsFile(db, id, IdOf(replies.session), r.result.productId, r.result.priceId, shop.stripeMode);
    }
  }

  /** A session reply without an id records no sale: the sales table is as
      before, and the lookup by the id the purchase goes on with ("") finds
      no recording. */
  lemma IdlessSessionRecordsNoSale(shop: Shop, db: Db, launchId: Option<string>, special: Option<string>,
                                   replies: Replies)
    requires forall k :: 0 <= k < |db.sales| ==> db.sales[k].sessionId != ""
    ensures var r := ExecutePurchase(shop, db, launchId, special, replies);
      r.result.Redirected? && IdField(replies.session).None? ==>
        && r.db.sales == db.sales
        && r.result.sessionId == ""
        && GetFileFromSession(r.db, r.result.sessionId).None?
  {
  }

  // ---------------------------------------------------------------- show_sales_result

  /** The members of a Stripe checkout session the confirmation reads;
      missing members read as "" (`null`). */
  datatype SessionData = SessionData(email: string, name: string, paymentStatus: string, status: string)

  /** Stripe reports the session paid and complete. */
  predicate Paid(reply: Option<SessionData>) {
    reply.Some? && reply.value.paymentStatus == "paid" && reply.value.status == "complete"
  }

  datatype SalesResult =
    | NotPaid
      /** `date_create` could not read the share time and `date_format`
          received `false`. */
    | DateFailed
    | Confirmed(link: string, expiry: int)

  datatype Confirmation = Confirmation(result: SalesResult, db: Db, log: seq<Effect>)

  /** The share URL `nc_create_share` returns: `data.url` of the reply when
      the request went through, `null` (stored and printed as "") when it
      failed or the reply has no URL. */
  function ShareLink(shareOutput: Option<string>, shareUrl: Option<string>): (r: string)
    ensures NcCurlExecute(false, shareOutput).NcFalse? ==> r == ""
    ensures NcCurlExecute(false, shareOutput).NcOutput? ==> r == shareUrl.GetOr("")
  {
    if NcCurlExecute(false, shareOutput).NcOutput? then shareUrl.GetOr("") else ""
  }

  /** The confirmation mail: the buyer's name, the link and its last day.
      Its HTML layout is not modelled. */
  function ConfirmationMail(name: string, link: string, expiry: string): string {
    "Dear " + name + ", you can now download the file here: " + link
    + ". This link will be active until " + expiry + "."
  }

  /** `show_sales_result`: the session is read back from Stripe; only a paid
      and complete session is confirmed, by sharing the sale's recording until
      the share time from today, storing the buyer and the link, and mailing
      the buyer. `reply` is the decoded session, `shareOutput` and `shareUrl`
      the reply to the share request and its URL. */
  function ShowSalesResult(shop: Shop, cal: Calendar, db: Db, sessionId: string, reply: Option<SessionData>,
                           shareOutput: Option<string>, shareUrl: Option<string>): (r: Confirmation)
    ensures |r.log| >= 1 && r.log[0] == StripeCall(SessionsPath + "/" + sessionId, [])
    ensures r.result.NotPaid? <==> !Paid(reply)
    ensures r.result.DateFailed? <==> Paid(reply) && cal.shift(cal.today, shop.shareTime).None?
    ensures !r.result.Confirmed? ==> r.db == db && |r.log| == 1
    ensures r.result.Confirmed? ==>
      var expiry := cal.shift(cal.today, shop.shareTime).value;
      var data := reply.value;
      && r.result == Confirmed(ShareLink(shareOutput, shareUrl), expiry)
      && r.log[1..] == [Dav(NcCreateShare(shop.ncFolder, GetFileFromSession(db, sessionId).GetOr(""), cal.formatYmd(expiry))),
                        Mail(data.email, "Your Media Purchase",
                             ConfirmationMail(data.name, r.result.link, cal.formatYmd(expiry)))]
      && r.db == FinalizeSalesSession(db, sessionId, data.name, data.email, r.result.link, expiry)
  {
    var query := StripeCall(SessionsPath + "/" + sessionId, []);
    if !Paid(reply) then Confirmation(NotPaid, db, [query])
    else match cal.shift(cal.today, shop.shareTime)
      case None => Confirmation(DateFailed, db, [query])
      case Some(expiry) =>
        var data := reply.value;
        var path := GetFileFromSession(db, sessionId).GetOr("");
        var link := ShareLink(shareOutput, shareUrl);
        var log := [query,
                    Dav(NcCreateShare(shop.ncFolder, path, cal.formatYmd(expiry))),
                    Mail(data.email, "Your Media Purchase", ConfirmationMail(data.name, link, cal.formatYmd(expiry)))];
        assert log[1..] == [log[1], log[2]];
        Confirmation(Confirmed(link, expiry), FinalizeSalesSession(db, sessionId, data.name, data.email, link, expiry), log)
  }

  /** There is no guard against a second confirmation: returning to the
      success page with the same paid session shares the same path again and
      leaves the sale as if only the second confirmation had happened. */
  lemma ConfirmationRepeats(shop: Shop, cal: Calendar, db: Db, sessionId: string, reply: Option<SessionData>,
                            output1: Option<string>, url1: Option<string>, output2: Option<string>, url2: Option<string>)
    ensures var first := ShowSalesResult(shop, cal, db, sessionId, reply, output1, url1);
      var second := ShowSalesResult(shop, cal, first.db, sessionId, reply, output2, url2);
      first.result.Confirmed? ==>
        && second.result.Confirmed?
        && second.log[1] == first.log[1]
        && second.db == ShowSalesResult(shop, cal, db, sessionId, reply, output2, url2).db
  {
    var first := ShowSalesResult(shop, cal, db, sessionId, reply, output1, url1);
    if first.result.Confirmed? {
      var data := reply.value;
      var expiry := cal.shift(cal.today, shop.shareTime).value;
      FinalizeKeepsSessionFile(db, sessionId, data.name, data.email, ShareLink(output1, url1), expiry, sessionId);
      FinalizeOverwrites(db, sessionId, data.name, data.email, ShareLink(output1, url1), expiry,
                         data.name, data.email, ShareLink(output2, url2), expiry);
    }
  }
}

=== FILE: gallery_cron.dfy ===
/** The cron script on the recording machine (`tools/gallery_cron.php`): it
    walks the recorder's output folder and copies each finished video, under
    its conventional name, into the year/month folder of the Nextcloud sync
    directory, then builds a thumbnail gallery and an audio track for it.

    What the script learns from the file system and from ffmpeg arrives as a
    `Probe` per file; the calls it makes are `Effect`s. */
module GalleryCron {
  import opened Base
  import opened Text
  import opened Effects
  import opened RecordingName

  // ---------------------------------------------------------------- get_video_length

  /** Characters before the hours of ffmpeg's `  Duration: HH:MM:SS.ss` line. */
  const DurationPrefix: string := "  Duration: "

  /** Longest accepted recording, in hours. */
  const MaxHours: int := 3

  /** `get_video_length`: hours from characters 12-13 and minutes from 15-16
      of ffmpeg's output, read with `intval`; `None` (PHP `false`) when the
      shell returned nothing or the hours exceed three. */
  function GetVideoLength(output: Option<string>): (r: Option<Duration>)
    ensures output.None? ==> r.None?
    ensures r.Some? ==> r.value.hours <= MaxHours
    ensures output.Some? ==>
      (r.Some? <==> Intval(Substr(output.value, 12, 2)) <= MaxHours)
    ensures r.Some? ==> r.value.minutes == Intval(Substr(output.value, 15, 2))
  {
    match output
    case None => None
    case Some(out) =>
      var hours := Intval(Substr(out, 12, 2));
      var minutes := Intval(Substr(out, 15, 2));
      if hours > MaxHours then None else Some(Duration(hours, minutes))
  }

  /** The ffmpeg line for a recording of `h` hours and `m` minutes. */
  function DurationLine(h: nat, m: nat, rest: string): string
    requires h < 100 && m < 100
  {
    DurationPrefix + Pad2(h) + ":" + Pad2(m) + rest
  }

  /** Round trip: the length is read back from the ffmpeg line, and only up
      to three hours are accepted. */
  lemma DurationLineRoundTrip(h: nat, m: nat, rest: string)
    requires h < 100 && m < 100
    requires |rest| == 0 || !IsDigit(rest[0])
    ensures h <= MaxHours ==> GetVideoLength(Some(DurationLine(h, m, rest))) == Some(Duration(h, m))
    ensures h > MaxHours ==> GetVideoLength(Some(DurationLine(h, m, rest))) == None
  {
    var line := DurationLine(h, m, rest);
    assert Substr(line, 12, 2) == Pad2(h) + "";
    assert Substr(line, 15, 2) == Pad2(m) + "";
    IntvalOfPad2(h, "");
    IntvalOfPad2(m, "");
  }

  // ---------------------------------------------------------------- old_file_cleanup

  /** PHP's `DateInterval` fields: years, months (0-11) and days. */
  datatype Interval = Interval(y: nat, m: nat, d: nat)

  datatype Cleanup = KeepFile | Trashed | AgeFailed

  /** `old_file_cleanup`: the file is trashed when the month component of its
      age is at least one; the years and days are not looked at. `age` is
      `calculate_date_age` of the first ten characters of the file name,
      `None` when `new DateTime` throws (which ends the script). */
  function OldFileCleanup(path: string, age: Option<Interval>): (r: (Cleanup, seq<Effect>))
    ensures r.0 == Trashed <==> age.Some? && age.value.m >= 1
    ensures r.0 == AgeFailed <==> age.None?
    ensures r.1 == (if r.0 == Trashed then [Trash(path)] else [])
  {
    match age
    case None => (AgeFailed, [])
    case Some(iv) => if iv.m >= 1 then (Trashed, [Trash(path)]) else (KeepFile, [])
  }

  // ---------------------------------------------------------------- date_folder / target_path

  /** `date_folder`: the `Y/m` folder of a date, `None` (PHP `false`) when
      `strtotime` cannot read it. */
  function DateFolder(cal: Calendar, startDate: string): (r: Option<string>)
    ensures r.Some? <==> cal.shift(cal.today, startDate).Some?
    ensures r.Some? ==> r.value == cal.formatYm(cal.shift(cal.today, startDate).value)
  {
    match cal.shift(cal.today, startDate)
    case None => None
    case Some(d) => Some(cal.formatYm(d))
  }

  datatype Target =
    | NoTarget
      /** `calculate_end_time` hit a stamp it cannot parse: the script stops. */
    | TargetFailed
    | TargetAt(folder: string, path: string)

  /** `target_path`: the destination of a video, or `NoTarget` when its length
      is unknown or too long. A date that `date_folder` cannot read leaves the
      folder part empty (PHP interpolates `false` as ""), so the video lands
      in `root + "//"`. The folder is created when it does not exist. */
  function TargetPath(cal: Calendar, root: string, path: string, ffmpegOutput: Option<string>,
                      folderExists: string -> bool): (r: (Target, seq<Effect>))
    ensures GetVideoLength(ffmpegOutput).None? <==> r.0.NoTarget?
    ensures GetVideoLength(ffmpegOutput).None? ==> r == (NoTarget, [])
    ensures r.0.TargetAt? ==>
      && GetVideoLength(ffmpegOutput).Some?
      && TargetFilename(cal, Basename(path), GetVideoLength(ffmpegOutput).value).Some?
      && r.0.folder == root + "/" + DateFolder(cal, Substr(Basename(path), 0, 10)).GetOr("")
      && r.0.path == r.0.folder + "/" + TargetFilename(cal, Basename(path), GetVideoLength(ffmpegOutput).value).value
    ensures r.0.TargetAt? ==> r.1 == (if folderExists(r.0.folder) then [] else [MakeDir(r.0.folder)])
    ensures r.0.TargetFailed? <==>
      GetVideoLength(ffmpegOutput).Some? && TargetFilename(cal, Basename(path), GetVideoLength(ffmpegOutput).value).None?
    ensures r.0.TargetFailed? ==> r.1 == []
    ensures r.0.TargetAt? <==>
      (GetVideoLength(ffmpegOutput).Some? && ParseStamp(cal, Substr(Basename(path), 0, StampLength)).Some?)
  {
    match GetVideoLength(ffmpegOutput)
    case None => (NoTarget, [])
    case Some(d) =>
      var filename := Basename(path);
      match TargetFilename(cal, filename, d)
      case None => (TargetFailed, [])
      case Some(name) =>
        var folder := root + "/" + DateFolder(cal, Substr(filename, 0, 10)).GetOr("");
        (TargetAt(folder, folder + "/" + name), if folderExists(folder) then [] else [MakeDir(folder)])
  }

  // ---------------------------------------------------------------- read_files

  /** What the script finds out about one file of the recorder's folder. */
  datatype Probe = Probe(
    path: string,
    isDir: bool,
    extension: string,
    /** `flock(LOCK_SH | LOCK_NB)` succeeded. */
    lockable: bool,
    age: Option<Interval>,
    size: int,
    /** `get_video_volume`: the peak volume in dB, `None` when ffmpeg's output
        has none. */
    volume: Option<real>,
    ffmpegDuration: Option<string>,
    targetExists: bool,
    copySucceeds: bool)

  /** Largest file the script copies: 100 GB. */
  const MaxSize: int := 100000000000

  /** Quietest accepted peak volume, in dB. */
  const MinVolume: real := -90.0

  /** `check_valid_volume`. A missing volume is PHP `false`, and `false < -90`
      compares as `false < true`, so such a file counts as silent. */
  predicate ValidVolume(volume: Option<real>) {
    volume.Some? && !(volume.value < MinVolume)
  }

  datatype Step =
    | Skipped
      /** The script stops: `new DateTime` threw or an end time could not be
          computed. */
    | Halted
    | Copied(target: string)

  /** One iteration of the `foreach` in `read_files`. */
  function ProcessProbe(cal: Calendar, root: string, p: Probe, folderExists: string -> bool): (r: (Step, seq<Effect>))
    ensures r.0.Copied? ==> |r.1| >= 3 && r.1[|r.1| - 3..] == [CopyFile(p.path, r.0.target), MakeGallery(r.0.target), MakeAudio(r.0.target)]
  {
    if p.isDir || p.extension != "mp4" then (Skipped, [])
    else if !p.lockable then (Skipped, [])
    else
      match OldFileCleanup(p.path, p.age)
      case (AgeFailed, _) => (Halted, [])
      case (Trashed, fx) => (Skipped, fx)
      case (KeepFile, _) =>
        if p.size > MaxSize then (Skipped, [])
        else if !ValidVolume(p.volume) then (Skipped, [])
        else CopyStage(cal, root, p, folderExists)
  }

  /** The rest of the iteration once size and volume passed: the target, the
      copy, the gallery and the audio track. */
  function CopyStage(cal: Calendar, root: string, p: Probe, folderExists: string -> bool): (r: (Step, seq<Effect>))
    ensures r.0.Copied? ==> |r.1| >= 3 && r.1[|r.1| - 3..] == [CopyFile(p.path, r.0.target), MakeGallery(r.0.target), MakeAudio(r.0.target)]
    ensures r.0.Copied? <==> (GetVideoLength(p.ffmpegDuration).Some?
      && ParseStamp(cal, Substr(Basename(p.path), 0, StampLength)).Some? && !p.targetExists && p.copySucceeds)
    ensures r.0.Halted? ==> GetVideoLength(p.ffmpegDuration).Some?
  {
    var (t, fx) := TargetPath(cal, root, p.path, p.ffmpegDuration, folderExists);
    assert t.TargetAt? <==>
      (GetVideoLength(p.ffmpegDuration).Some? && ParseStamp(cal, Substr(Basename(p.path), 0, StampLength)).Some?);
    match t
    case NoTarget => (Skipped, fx)
    case TargetFailed => (Halted, fx)
    case TargetAt(_, target) =>
      if p.targetExists then (Skipped, fx)
      else if !p.copySucceeds then (Skipped, fx + [CopyFile(p.path, target)])
      else (Copied(target), fx + [CopyFile(p.path, target), MakeGallery(target), MakeAudio(target)])
  }

  /** The conditions under which the script copies a file, stated on their
      own: a non-directory `.mp4`, unlocked, less than a month old (by the
      month component), at most 100 GB, audible, of known length up to three
      hours, with a computable target that does not exist yet, and a copy
      that succeeds. */
  predicate ShouldCopy(cal: Calendar, p: Probe) {
    && !p.isDir && p.extension == "mp4"
    && p.lockable
    && p.age.Some? && p.age.value.m < 1
    && p.size <= MaxSize
    && ValidVolume(p.volume)
    && GetVideoLength(p.ffmpegDuration).Some?
    && ParseStamp(cal, Substr(Basename(p.path), 0, StampLength)).Some?
    && !p.targetExists
    && p.copySucceeds
  }

  /** A file is copied exactly when it meets the copy conditions. */
  lemma ProcessProbeCopies(cal: Calendar, root: string, p: Probe, folderExists: string -> bool)
    ensures ProcessProbe(cal, root, p, folderExists).0.Copied? <==> ShouldCopy(cal, p)
  {
    var step := ProcessProbe(cal, root, p, folderExists).0;
    if p.isDir || p.extension != "mp4" || !p.lockable {
      assert step == Skipped;
    } else if p.age.None? || p.age.value.m >= 1 {
      assert !step.Copied?;
    } else {
      assert OldFileCleanup(p.path, p.age).0 == KeepFile;
    }
  }

  /** `read_files`: the probes in directory order. Every probe is processed
      in turn until one halts the script; returns the step taken for each
      processed probe and the effect log. */
  function ReadFiles(cal: Calendar, root: string, probes: seq<Probe>, folderExists: string -> bool)
    : (r: (seq<Step>, seq<Effect>))
    ensures |r.0| <= |probes|
    ensures |r.0| < |probes| ==> |r.0| > 0 && r.0[|r.0| - 1].Halted?
    ensures forall i :: 0 <= i < |r.0| - 1 ==> !r.0[i].Halted?
  {
    if |probes| == 0 then ([], [])
    else
      var (step, fx) := ProcessProbe(cal, root, probes[0], folderExists);
      if step.Halted? then ([step], fx)
      else
        var (steps, rest) := ReadFiles(cal, root, probes[1..], folderExists);
        var out := [step] + steps;
        assert forall i :: 1 <= i < |out| ==> out[i] == steps[i - 1];
        (out, fx + rest)
  }

  /** Each processed probe got the step `ProcessProbe` gives it, in order. */
  lemma {:induction false} ReadFilesSteps(cal: Calendar, root: string, probes: seq<Probe>, folderExists: string -> bool)
    ensures var steps := ReadFiles(cal, root, probes, folderExists).0;
      forall i :: 0 <= i < |steps| ==> steps[i] == ProcessProbe(cal, root, probes[i], folderExists).0
    decreases |probes|
  {
    if |probes| > 0 {
      var steps := ReadFiles(cal, root, probes, folderExists).0;
      var first := ProcessProbe(cal, root, probes[0], folderExists).0;
      if first.Halted? {
        assert steps == [first];
      } else {
        var tail := ReadFiles(cal, root, probes[1..], folderExists).0;
        assert steps == [first] + tail;
        ReadFilesSteps(cal, root, probes[1..], folderExists);
        forall i | 1 <= i < |steps| ensures steps[i] == ProcessProbe(cal, root, probes[i], folderExists).0 {
          assert steps[i] == tail[i - 1] && probes[i] == probes[1..][i - 1];
        }
      }
    }
  }

  /** A processed file is copied exactly when it meets the copy conditions. */
  lemma ReadFilesCopies(cal: Calendar, root: string, probes: seq<Probe>, folderExists: string -> bool)
    ensures var steps := ReadFiles(cal, root, probes, folderExists).0;
      forall i :: 0 <= i < |steps| ==> (steps[i].Copied? <==> ShouldCopy(cal, probes[i]))
  {
    var steps := ReadFiles(cal, root, probes, folderExists).0;
    ReadFilesSteps(cal, root, probes, folderExists);
    forall i | 0 <= i < |steps| ensures steps[i].Copied? <==> ShouldCopy(cal, probes[i]) {
      ProcessProbeCopies(cal, root, probes[i], folderExists);
    }
  }
}

=== FILE: media_store.dfy ===
/** The helpers of the main plugin file: the date check used by the front
    end, the human-readable size label stored with each recording, the loading
    of user settings into the global configuration array, and the debug log. */
module MediaStore {
  import opened Base
  import opened PhpArray

  // ---------------------------------------------------------------- validate_date

  /** `validate_date($date)`: the string parses as `Y-m-d` and formatting the
      parsed date reproduces it character for character. */
  function ValidateDate(cal: Calendar, date: string): (r: bool)
    ensures r <==> exists d :: cal.parseYmd(date) == Some(d) && cal.formatYmd(d) == date
  {
    match cal.parseYmd(date)
    case None => false
    case Some(d) => cal.formatYmd(d) == date
  }

  /** Every date the calendar prints and reads back is accepted. */
  lemma ValidateFormatted(cal: Calendar, d: int)
    requires cal.parseYmd(cal.formatYmd(d)) == Some(d)
    ensures ValidateDate(cal, cal.formatYmd(d))
  {
  }

  /** A string that does not parse is rejected, whatever the formatter does. */
  lemma ValidateRejectsUnparsed(cal: Calendar, s: string)
    requires cal.parseYmd(s).None?
    ensures !ValidateDate(cal, s)
  {
  }

  // ---------------------------------------------------------------- byteConvert

  const Units: seq<string> := ["B", "KB", "MB", "GB", "TB", "PB"]

  function Pow1024(e: nat): (r: nat)
    ensures r >= 1
  {
    if e == 0 then 1 else 1024 * Pow1024(e - 1)
  }

  /** What `byteConvert` prints, up to the rounded number in front: the fixed
      text "0.00 B" for zero, otherwise the power of 1024 the size is divided
      by and the unit printed after it ("" once the index runs past "PB",
      where PHP reads an undefined array element as null). */
  datatype SizeLabel = ZeroBytes | Scaled(exponent: nat, unit: string)

  function UnitOf(e: nat): string {
    if e < |Units| then Units[e] else ""
  }

  /** floor(log_1024(n)). */
  function Log1024(n: nat): (e: nat)
    requires n >= 1
    ensures Pow1024(e) <= n < Pow1024(e + 1)
  {
    if n < 1024 then 0
    else
      var e := 1 + Log1024(n / 1024);
      assert Pow1024(e) == 1024 * Pow1024(e - 1);
      assert Pow1024(e + 1) == 1024 * Pow1024(e);
      e
  }

  /** The label `byteConvert` gives a size, as a function. */
  function SizeOf(bytes: nat): (r: SizeLabel)
    ensures bytes == 0 <==> r == ZeroBytes
    ensures r.Scaled? ==> Pow1024(r.exponent) <= bytes < Pow1024(r.exponent + 1)
    ensures r.Scaled? ==> r.unit == UnitOf(r.exponent)
  {
    if bytes == 0 then ZeroBytes else Scaled(Log1024(bytes), UnitOf(Log1024(bytes)))
  }

  /** `byteConvert($bytes)`: the exponent is the largest `e` with
      1024^e <= bytes, i.e. floor(log_1024(bytes)), found by repeated
      multiplication. */
  method ByteConvert(bytes: nat) returns (r: SizeLabel)
    ensures bytes == 0 <==> r == ZeroBytes
    ensures r.Scaled? ==> Pow1024(r.exponent) <= bytes < Pow1024(r.exponent + 1)
    ensures r.Scaled? ==> r.unit == UnitOf(r.exponent)
    ensures r == SizeOf(bytes)
  {
    if bytes == 0 {
      return ZeroBytes;
    }
    var e: nat := 0;
    var scale: nat := 1;
    while scale * 1024 <= bytes
      invariant scale == Pow1024(e) && scale <= bytes
      decreases bytes - scale
    {
      scale := scale * 1024;
      e := e + 1;
    }
    r := Scaled(e, UnitOf(e));
    ExponentUnique(bytes, e, Log1024(bytes));
  }

  /** The exponent is unique: sizes in [1024^e, 1024^(e+1)) share one label. */
  lemma {:induction false} ExponentUnique(bytes: nat, e1: nat, e2: nat)
    requires Pow1024(e1) <= bytes < Pow1024(e1 + 1)
    requires Pow1024(e2) <= bytes < Pow1024(e2 + 1)
    ensures e1 == e2
  {
    if e1 < e2 {
      PowMonotone(e1 + 1, e2);
    } else if e2 < e1 {
      PowMonotone(e2 + 1, e1);
    }
  }

  lemma {:induction false} PowMonotone(a: nat, b: nat)
    requires a <= b
    ensures Pow1024(a) <= Pow1024(b)
    decreases b - a
  {
    if a < b {
      PowMonotone(a, b - 1);
    }
  }

  // ---------------------------------------------------------------- settings

  /** The value a setting takes: the option stored under the prefixed name,
      or the default. */
  function StoredOr<V>(stored: map<string, V>, prefix: string, name: string, default: V): V {
    if prefix + name in stored then stored[prefix + name] else default
  }

  /** The settings loop of the plugin file: every user setting is written into
      the global array under its own name, taking the option stored under
      `prefix + name` when there is one and its default otherwise. Keys that
      are not settings keep their entries. */
  function LoadSettings<V>(ums: Arr<string, V>, defaults: Arr<string, V>, prefix: string,
                           stored: map<string, V>): (r: Arr<string, V>)
    ensures forall k :: !HasKey(defaults, k) ==> Get(r, k) == Get(ums, k)
    decreases |defaults|
  {
    if |defaults| == 0 then ums
    else
      var (name, dflt) := defaults[0];
      var rest := defaults[1..];
      var r := LoadSettings(Assign(ums, name, StoredOr(stored, prefix, name, dflt)), rest, prefix, stored);
      assert HasKey(defaults, name);
      assert forall k :: HasKey(rest, k) ==> HasKey(defaults, k) by {
        forall k | HasKey(rest, k) ensures HasKey(defaults, k) {
          var j :| 0 <= j < |rest| && rest[j].0 == k;
          assert defaults[j + 1].0 == k;
        }
      }
      r
  }

  /** Every setting has an entry after the loop. */
  lemma {:induction false} LoadSettingsKeys<V>(ums: Arr<string, V>, defaults: Arr<string, V>, prefix: string,
                                               stored: map<string, V>)
    ensures forall i :: 0 <= i < |defaults| ==> HasKey(LoadSettings(ums, defaults, prefix, stored), defaults[i].0)
    decreases |defaults|
  {
    if |defaults| > 0 {
      var name := defaults[0].0;
      var rest := defaults[1..];
      var ums' := Assign(ums, name, StoredOr(stored, prefix, name, defaults[0].1));
      var r := LoadSettings(ums, defaults, prefix, stored);
      assert r == LoadSettings(ums', rest, prefix, stored);
      LoadSettingsKeys(ums', rest, prefix, stored);
      forall i | 0 <= i < |defaults| ensures HasKey(r, defaults[i].0) {
        if i == 0 {
          KeyKept(ums', rest, prefix, stored, name);
        } else {
          assert defaults[i] == rest[i - 1];
        }
      }
    }
  }

  /** A key the array already holds is still there after the loop. */
  lemma KeyKept<V>(ums: Arr<string, V>, defaults: Arr<string, V>, prefix: string, stored: map<string, V>,
                   k: string)
    requires HasKey(ums, k)
    requires forall i :: 0 <= i < |defaults| ==> HasKey(LoadSettings(ums, defaults, prefix, stored), defaults[i].0)
    ensures HasKey(LoadSettings(ums, defaults, prefix, stored), k)
  {
    var r := LoadSettings(ums, defaults, prefix, stored);
    if HasKey(defaults, k) {
      var j :| 0 <= j < |defaults| && defaults[j].0 == k;
      assert HasKey(r, defaults[j].0);
    } else {
      assert Get(r, k) == Get(ums, k);
    }
  }

  /** With distinct setting names, each setting ends up holding its stored
      option or, failing that, its default. */
  lemma {:induction false} LoadSettingsValues<V>(ums: Arr<string, V>, defaults: Arr<string, V>, prefix: string,
                                                 stored: map<string, V>)
    requires DistinctKeys(defaults)
    ensures forall i :: 0 <= i < |defaults| ==>
      Get(LoadSettings(ums, defaults, prefix, stored), defaults[i].0)
        == Some(if prefix + defaults[i].0 in stored then stored[prefix + defaults[i].0] else defaults[i].1)
    decreases |defaults|
  {
    if |defaults| > 0 {
      var (name, dflt) := defaults[0];
      var rest := defaults[1..];
      var ums' := Assign(ums, name, StoredOr(stored, prefix, name, dflt));
      var r := LoadSettings(ums, defaults, prefix, stored);
      assert r == LoadSettings(ums', rest, prefix, stored);
      assert DistinctKeys(rest) by {
        forall a, b | 0 <= a < b < |rest| ensures rest[a].0 != rest[b].0 {
          assert rest[a] == defaults[a + 1] && rest[b] == defaults[b + 1];
        }
      }
      LoadSettingsValues(ums', rest, prefix, stored);
      forall i | 0 <= i < |defaults|
        ensures Get(r, defaults[i].0) == Some(StoredOr(stored, prefix, defaults[i].0, defaults[i].1))
      {
        if i > 0 {
          assert defaults[i] == rest[i - 1];
        } else {
          assert !HasKey(rest, name) by {
            forall j | 0 <= j < |rest| ensures rest[j].0 != name {
              assert defaults[j + 1].0 != defaults[0].0;
            }
          }
        }
      }
    }
  }

  // ---------------------------------------------------------------- debug_info

  datatype DebugEntry = DebugEntry(time: int, location: string, content: string)

  /** `debug_info`: one entry is appended exactly when debug mode is "on". */
  function DebugInfo(log: seq<DebugEntry>, debugMode: string, time: int, location: string,
                     content: string): (r: seq<DebugEntry>)
    ensures debugMode == "on" ==> |r| == |log| + 1 && r[..|log|] == log && r[|log|].location == location
    ensures debugMode != "on" ==> r == log
  {
    if debugMode == "on" then log + [DebugEntry(time, location, content)] else log
  }
}

=== FILE: nextcloud.dfy ===
/** The WebDAV/OCS client of the plugin, in its two versions: the `nextcloud`
    class (which throws on a failed request) and the older procedural
    functions (which return `false`). Only the parts that decide something
    are modelled: which listing entries are recordings, how destination names
    are cleaned, which share request is sent, how the cURL options are
    assembled, and how a response is classified. */
module Nextcloud {
  import opened Base
  import opened Text
  import opened FormEncode

  // ---------------------------------------------------------------- listing

  /** One `d:response` of a `PROPFIND` listing. */
  datatype DavEntry = DavEntry(href: string, isCollection: bool, contentType: string, contentLength: nat)

  /** An entry is a recording when it is not a folder and its content type is
      one of the configured keys. */
  predicate IsWanted(e: DavEntry, contentTypes: set<string>) {
    !e.isCollection && e.contentType in contentTypes
  }

  /** `nextcloud::filter_files`: the wanted entries, in listing order. */
  function FilterFiles(files: seq<DavEntry>, contentTypes: set<string>): (r: seq<DavEntry>)
    ensures SubsequenceOf(r, files)
    ensures forall i :: 0 <= i < |r| ==> IsWanted(r[i], contentTypes)
    ensures forall i :: 0 <= i < |files| && IsWanted(files[i], contentTypes) ==> files[i] in r
  {
    if |files| == 0 then []
    else
      var rest := FilterFiles(files[1..], contentTypes);
      assert forall i :: 1 <= i < |files| ==> files[i] == files[1..][i - 1];
      if IsWanted(files[0], contentTypes) then [files[0]] + rest else rest
  }

  /** `nc_filter_files`, the procedural copy, which reads the content types
      from the configuration: it keeps the same entries as the class method. */
  function NcFilterFiles(files: seq<DavEntry>, configuredTypes: set<string>): (r: seq<DavEntry>)
    ensures r == FilterFiles(files, configuredTypes)
  {
    if |files| == 0 then []
    else if IsWanted(files[0], configuredTypes) then [files[0]] + NcFilterFiles(files[1..], configuredTypes)
    else NcFilterFiles(files[1..], configuredTypes)
  }

  // ---------------------------------------------------------------- move_file

  /** The destination name of a move: `str_replace(array(' ', '%20'), '_', $file)`,
      which replaces the spaces first and then the encoded spaces. */
  function FixName(file: string): (r: string)
    ensures r == Underscored(file)
    ensures ' ' !in r && !Contains(r, "%20")
    ensures ' ' !in file && !Contains(file, "%20") ==> r == file
  {
    var spaced := ReplaceAll(file, " ", "_");
    ReplaceCharIsMapChar(file, ' ', '_');
    UnderscoredInTwoSteps(file);
    UnderscoredIsClean(file);
    if ' ' !in file && !Contains(file, "%20") then
      ContainsCharIff(file, ' ');
      ReplaceAbsent(file, " ", "_");
      ReplaceAbsent(file, "%20", "_");
      ReplaceAll(spaced, "%20", "_")
    else
      ReplaceAll(spaced, "%20", "_")
  }

  /** The name read once from the left: each space and each `%20` becomes
      one `_`, everything else is kept. */
  function Underscored(s: string): string
    decreases |s|
  {
    if |s| == 0 then ""
    else if StartsWith(s, "%20") then "_" + Underscored(s[3..])
    else if s[0] == ' ' then "_" + Underscored(s[1..])
    else [s[0]] + Underscored(s[1..])
  }

  /** Spaces first, encoded spaces second, is the one left-to-right reading:
      turning spaces into `_` neither makes nor breaks a `%20`. */
  lemma {:induction false} UnderscoredInTwoSteps(s: string)
    ensures ReplaceAll(MapChar(s, ' ', '_'), "%20", "_") == Underscored(s)
    decreases |s|
  {
    var t := MapChar(s, ' ', '_');
    if |s| > 0 {
      if StartsWith(s, "%20") {
        assert t[..3] == "%20";
        assert t[3..] == MapChar(s[3..], ' ', '_');
        UnderscoredInTwoSteps(s[3..]);
      } else {
        if |s| >= 3 {
          EncodedSpaceKept(s);
        }
        assert t[1..] == MapChar(s[1..], ' ', '_');
        UnderscoredInTwoSteps(s[1..]);
        if |s| < 3 {
          assert ReplaceAll(t[1..], "%20", "_") == t[1..];
          assert t == [t[0]] + t[1..];
        }
      }
    }
  }

  /** A `%20` is one after turning spaces into `_` exactly when it was one
      before. */
  lemma EncodedSpaceKept(s: string)
    requires |s| >= 3
    ensures MapChar(s, ' ', '_')[..3] == "%20" <==> s[..3] == "%20"
  {
    var t := MapChar(s, ' ', '_');
    if t[..3] == "%20" {
      assert t[0] == '%' && t[1] == '2' && t[2] == '0';
    }
  }

  /** The first character of the reading. */
  lemma UnderscoredHead(s: string)
    requires |s| > 0
    ensures |Underscored(s)| > 0
    ensures Underscored(s)[0] == (if StartsWith(s, "%20") || s[0] == ' ' then '_' else s[0])
  {
  }

  /** The reading leaves no space and no `%20`: a `%` it keeps is not followed
      by a kept `2` and `0`, since those three would have been read as one
      `%20`. */
  lemma {:induction false} UnderscoredIsClean(s: string)
    ensures ' ' !in Underscored(s)
    ensures !Contains(Underscored(s), "%20")
    decreases |s|
  {
    var u := Underscored(s);
    if |s| > 0 {
      var rest := if StartsWith(s, "%20") then s[3..] else s[1..];
      UnderscoredIsClean(rest);
      assert u == [u[0]] + Underscored(rest);
      assert u[1..] == Underscored(rest);
      UnderscoredHead(s);
      if StartsWith(u, "%20") {
        assert !StartsWith(s, "%20") && s[0] == '%';
        assert rest == s[1..];
        UnderscoredHead(rest);
        assert false;
      }
    }
  }

  /** The WebDAV requests of a move: `MKCOL` of the target folder, then `MOVE`
      with the cleaned name in the `Destination` header. */
  datatype DavRequest = DavRequest(url: string, verb: Option<string>, headers: seq<(string, string)>,
                                   fields: seq<(string, string)>, debug: bool)

  const DavFiles: string := "remote.php/dav/files/"

  /** `nextcloud::move_file`. The class joins root folder, target folder and
      file without separators, as the caller passes them. */
  function MoveFile(host: string, user: string, root: string, file: string, targetFolder: string)
    : (r: seq<DavRequest>)
    ensures |r| == 2 && r[0].verb == Some("MKCOL") && r[1].verb == Some("MOVE")
    ensures r[1].headers == [("Destination", host + DavFiles + user + "/" + root + targetFolder + "/" + FixName(file))]
    ensures ' ' !in r[1].headers[0].1[|host + DavFiles + user + "/" + root + targetFolder + "/"|..]
  {
    var prefix := host + DavFiles + user + "/" + root + targetFolder + "/";
    var dest := prefix + FixName(file);
    assert dest[|prefix|..] == FixName(file);
    [DavRequest(DavFiles + user + "/" + root + targetFolder, Some("MKCOL"), [], [], false),
     DavRequest(DavFiles + user + "/" + root + file, Some("MOVE"), [("Destination", dest)], [], false)]
  }

  /** `nc_move_file`: the procedural copy separates the parts with '/' and
      sends the scan depth along with the `MKCOL`. */
  function NcMoveFile(host: string, user: string, folder: string, depth: string, file: string, targetFolder: string)
    : (r: seq<DavRequest>)
    ensures |r| == 2 && r[0].verb == Some("MKCOL") && r[1].verb == Some("MOVE")
    ensures r[0].headers == [("Depth", depth)]
    ensures r[1].headers == [("Destination", host + DavFiles + user + "/" + folder + "/" + targetFolder + "/" + FixName(file))]
  {
    var dest := host + DavFiles + user + "/" + folder + "/" + targetFolder + "/" + FixName(file);
    [DavRequest(DavFiles + user + "/" + folder + "/" + targetFolder, Some("MKCOL"), [("Depth", depth)], [], false),
     DavRequest(DavFiles + user + "/" + folder + "/" + file, Some("MOVE"), [("Destination", dest)], [], false)]
  }

  /** `nextcloud::read_folder` / `nc_curl_read_folder`: a `PROPFIND` of the
      root folder, as deep as the `Depth` header says. */
  function ReadFolder(user: string, root: string, depth: string): (r: DavRequest)
    ensures r.verb == Some("PROPFIND") && r.headers == [("Depth", depth)] && !r.debug
    ensures r.url == DavFiles + user + "/" + root
  {
    DavRequest(DavFiles + user + "/" + root, Some("PROPFIND"), [("Depth", depth)], [], false)
  }

  /** `nextcloud::delete_file`: a `DELETE` that is sent. */
  function DeleteFile(user: string, root: string, file: string): (r: DavRequest)
    ensures r.verb == Some("DELETE") && !r.debug
    ensures r.url == DavFiles + user + "/" + root + file
  {
    DavRequest(DavFiles + user + "/" + root + file, Some("DELETE"), [], [], false)
  }

  /** `nextcloud::download_file`: a plain `GET` of a file below the root. */
  function DownloadRequest(user: string, root: string, path: string): (r: DavRequest)
    ensures r.verb == None && r.fields == [] && !r.debug
    ensures r.url == DavFiles + user + "/" + root + path
  {
    DavRequest(DavFiles + user + "/" + root + path, None, [], [], false)
  }

  /** `nc_delete_file` passes `$debug = true` to `nc_curl`, so its request is
      only logged, never sent. */
  function NcDeleteFile(user: string, folder: string, file: string): (r: DavRequest)
    ensures r.verb == Some("DELETE") && r.debug
  {
    DavRequest(DavFiles + user + "/" + folder + "/" + file, Some("DELETE"), [], [], true)
  }

  // ---------------------------------------------------------------- create_share

  const SharesEndpoint: string := "ocs/v2.php/apps/files_sharing/api/v1/shares"

  /** The OCS share request for a path: a public link (share type 3) with
      read permission (1) that expires on the given date. */
  function ShareRequest(finalPath: string, expiry: string): (r: DavRequest)
    ensures r.url == SharesEndpoint && r.verb == None
    ensures r.headers == [("OCS-APIRequest", "true")]
    ensures r.fields == [("path", finalPath), ("shareType", "3"), ("Permission", "1"), ("expireDate", expiry)]
  {
    DavRequest(SharesEndpoint, None,
               [("OCS-APIRequest", "true")],
               [("path", finalPath), ("shareType", "3"), ("Permission", "1"), ("expireDate", expiry)], false)
  }

  /** `nextcloud::create_share`: the path is `/<root>/<path>`. */
  function CreateShare(root: string, path: string, expiry: string): (r: DavRequest)
    ensures |r.fields| == 4 && r.fields[0] == ("path", "/" + root + "/" + path)
    ensures r.fields[1..] == [("shareType", "3"), ("Permission", "1"), ("expireDate", expiry)]
  {
    ShareRequest("/" + root + "/" + path, expiry)
  }

  /** `nc_create_share`: the path is `"/" . folder . path`, with no separator
      before `path`. */
  function NcCreateShare(folder: string, path: string, expiry: string): (r: DavRequest)
    ensures |r.fields| == 4 && r.fields[0] == ("path", "/" + folder + path)
    ensures r.fields[1..] == [("shareType", "3"), ("Permission", "1"), ("expireDate", expiry)]
  {
    ShareRequest("/" + folder + path, expiry)
  }

  // ---------------------------------------------------------------- curl_prepare / nc_curl

  /** The cURL options a request is turned into. */
  datatype CurlOptions = CurlOptions(
    url: string,
    userPwd: string,
    customRequest: Option<string>,
    httpHeader: Option<seq<string>>,
    post: bool,
    postFields: Option<string>)

  /** The header array after the loop in `curl_prepare`: the original values,
      which PHP keeps under their string keys, followed by one `key: value`
      line per header (the loop runs over a copy, so only the original
      entries are visited). */
  function HeaderLines(headers: seq<(string, string)>): (r: seq<string>)
    ensures |r| == 2 * |headers|
    ensures forall i :: 0 <= i < |headers| ==> r[i] == headers[i].1
    ensures forall i :: 0 <= i < |headers| ==> r[|headers| + i] == headers[i].0 + ": " + headers[i].1
  {
    seq(|headers|, i requires 0 <= i < |headers| => headers[i].1)
      + seq(|headers|, i requires 0 <= i < |headers| => headers[i].0 + ": " + headers[i].1)
  }

  /** The post body: `key=value` pieces joined by "&", in input order. */
  function PostBody(fields: seq<(string, string)>): string {
    Join(seq(|fields|, i requires 0 <= i < |fields| => fields[i].0 + "=" + fields[i].1), "&")
  }

  /** `curl_prepare` / `nc_curl`: the two are the same assembly. A custom
      request is set only for a truthy request value, the header option only
      for a non-empty header array, and POST with its body only for non-empty
      post fields. */
  function CurlPrepare(host: string, user: string, password: string, req: DavRequest): (r: CurlOptions)
    ensures r.url == host + req.url && r.userPwd == user + ":" + password
    ensures r.customRequest.Some? <==> req.verb.Some? && !Falsy(req.verb.value)
    ensures r.customRequest.Some? ==> r.customRequest == req.verb
    ensures r.httpHeader.Some? <==> |req.headers| > 0
    ensures r.httpHeader.Some? ==> r.httpHeader.value == HeaderLines(req.headers)
    ensures r.post <==> |req.fields| > 0
    ensures r.postFields.Some? <==> r.post
    ensures r.post ==> DecodeBody(r.postFields.value) == req.fields || !Encodable(req.fields)
  {
    var custom := if req.verb.Some? && !Falsy(req.verb.value) then req.verb else None;
    var header := if |req.headers| > 0 then Some(HeaderLines(req.headers)) else None;
    if |req.fields| > 0 then
      PostBodyRoundTrip(req.fields);
      CurlOptions(host + req.url, user + ":" + password, custom, header, true, Some(PostBody(req.fields)))
    else
      CurlOptions(host + req.url, user + ":" + password, custom, header, false, None)
  }

  /** The post body is what `make_array_string` makes of the same pairs. */
  lemma PostBodyIsFormBody(fields: seq<(string, string)>)
    ensures PostBody(fields) == MakeArrayString(Scalars(fields))
  {
    PairsOfScalars(fields);
    var ps := Pairs(Scalars(fields));
    assert seq(|ps|, i requires 0 <= i < |ps| => EncodePair(ps[i]))
        == seq(|fields|, i requires 0 <= i < |fields| => fields[i].0 + "=" + fields[i].1);
  }

  /** Decoding the post body gives back the fields. */
  lemma PostBodyRoundTrip(fields: seq<(string, string)>)
    ensures Encodable(fields) ==> DecodeBody(PostBody(fields)) == fields
  {
    PostBodyIsFormBody(fields);
    PairsOfScalars(fields);
    if Encodable(fields) {
      FormRoundTrip(Scalars(fields));
    }
  }

  // ---------------------------------------------------------------- responses

  const DavException: string := "Sabre\\DAV\\Exception"

  /** A response body that carries a WebDAV server exception. */
  predicate IsDavError(output: string) {
    Contains(output, DavException)
  }

  datatype ClassResult = Thrown | Output(body: string)

  /** `nextcloud::curl_execute`: throws when cURL failed (`None`) or the body
      holds a Sabre exception, otherwise returns the body unchanged. */
  function CurlExecute(output: Option<string>): (r: ClassResult)
    ensures r.Thrown? <==> output.None? || IsDavError(output.value)
    ensures r.Output? ==> r.body == output.value
  {
    match output
    case None => Thrown
    case Some(s) => if IsDavError(s) then Thrown else Output(s)
  }

  datatype NcResult = NcNull | NcFalse | NcOutput(body: string)

  /** `nc_curl_execute`: in debug mode the request is not sent and the
      undefined output is `null`; otherwise `false` on a failed request or a
      Sabre exception, else the body. */
  function NcCurlExecute(debug: bool, output: Option<string>): (r: NcResult)
    ensures r.NcNull? <==> debug
    ensures r.NcFalse? <==> !debug && (output.None? || IsDavError(output.value))
    ensures r.NcOutput? ==> r.body == output.value && !IsDavError(r.body)
  {
    if debug then NcNull
    else match output
      case None => NcFalse
      case Some(s) => if IsDavError(s) then NcFalse else NcOutput(s)
  }

  /** Apart from debug mode, the two copies classify every response alike. */
  lemma ExecuteCopiesAgree(output: Option<string>)
    ensures CurlExecute(output).Thrown? <==> NcCurlExecute(false, output).NcFalse?
    ensures CurlExecute(output).Output? ==> NcCurlExecute(false, output) == NcOutput(CurlExecute(output).body)
  {
  }

  datatype Download = DlFalse | DlNull | DlContent(body: string) | DlThrown

  /** `nc_download_file`: `false` for an empty (or `false`/`null`) output; with
      a target the body is written and nothing is returned, unless the file
      cannot be opened; without one the body is returned. */
  function NcDownloadFile(output: NcResult, target: Option<string>, targetWritable: bool): (r: Download)
    ensures r == DlFalse <==> !output.NcOutput? || output.body == "" || (target.Some? && !Falsy(target.value) && !targetWritable)
    ensures r.DlContent? <==> output.NcOutput? && output.body != "" && (target.None? || Falsy(target.value))
    ensures r.DlContent? ==> r.body == output.body
    ensures !r.DlThrown?
  {
    match output
    case NcOutput(body) =>
      if |body| == 0 then DlFalse
      else if target.Some? && !Falsy(target.value) then (if targetWritable then DlNull else DlFalse)
      else DlContent(body)
    case _ => DlFalse
  }

  /** `nextcloud::download_file`: the class version throws instead of
      returning `false` for a failed request or an unwritable target. */
  function DownloadFile(output: ClassResult, target: Option<string>, targetWritable: bool): (r: Download)
    ensures r == DlThrown <==> output.Thrown? || (output.body != "" && target.Some? && !Falsy(target.value) && !targetWritable)
    ensures r == DlFalse <==> output.Output? && output.body == ""
    ensures r.DlContent? ==> r.body == output.body
  {
    match output
    case Thrown => DlThrown
    case Output(body) =>
      if |body| == 0 then DlFalse
      else if target.Some? && !Falsy(target.value) then (if targetWritable then DlNull else DlThrown)
      else DlContent(body)
  }
}

=== FILE: php_array.dfy ===
/** PHP's ordered associative arrays, as lists of key/value pairs with
    distinct keys. `$a[$k] = $v` overwrites the value in place when the key
    exists and appends the pair otherwise, so a key keeps the position of its
    first assignment; `foreach` visits the pairs in that order. */
module PhpArray {
  import opened Base

  type Arr<K, V> = seq<(K, V)>

  ghost predicate DistinctKeys<K, V>(a: Arr<K, V>) {
    forall i, j :: 0 <= i < j < |a| ==> a[i].0 != a[j].0
  }

  function KeySet<K, V>(a: Arr<K, V>): set<K> {
    set i | 0 <= i < |a| :: a[i].0
  }

  /** `isset($a[$k])` for a non-null value. */
  predicate HasKey<K(==), V>(a: Arr<K, V>, k: K) {
    exists i :: 0 <= i < |a| && a[i].0 == k
  }

  /** `$a[$k]`, or `None` when the key is absent. */
  function Get<K(==), V>(a: Arr<K, V>, k: K): (r: Option<V>)
    ensures r.Some? <==> HasKey(a, k)
    ensures r.Some? ==> exists i :: 0 <= i < |a| && a[i] == (k, r.value)
  {
    if |a| == 0 then None
    else if a[0].0 == k then Some(a[0].1)
    else
      var r := Get(a[1..], k);
      assert r.Some? ==> exists i :: 0 <= i < |a| && a[i] == (k, r.value) by {
        if r.Some? {
          var i :| 0 <= i < |a[1..]| && a[1..][i] == (k, r.value);
          assert a[i + 1] == (k, r.value);
        }
      }
      assert HasKey(a, k) ==> HasKey(a[1..], k) by {
        if HasKey(a, k) {
          var i :| 0 <= i < |a| && a[i].0 == k;
          assert a[1..][i - 1].0 == k;
        }
      }
      r
  }

  /** `$a[$k] = $v`. */
  function Assign<K(==,!new), V>(a: Arr<K, V>, k: K, v: V): (r: Arr<K, V>)
    ensures Get(r, k) == Some(v)
    ensures forall k' :: k' != k ==> Get(r, k') == Get(a, k')
    ensures HasKey(a, k) ==> |r| == |a|
    ensures !HasKey(a, k) ==> r == a + [(k, v)]
  {
    if |a| == 0 then [(k, v)]
    else if a[0].0 == k then [(k, v)] + a[1..]
    else
      var rest := Assign(a[1..], k, v);
      assert HasKey(a, k) ==> HasKey(a[1..], k) by {
        if HasKey(a, k) {
          var i :| 0 <= i < |a| && a[i].0 == k;
          assert a[1..][i - 1].0 == k;
        }
      }
      var r := [a[0]] + rest;
      assert r[1..] == rest;
      assert !HasKey(a, k) ==> r == a + [(k, v)] by {
        if !HasKey(a, k) {
          assert !HasKey(a[1..], k) by {
            forall i | 0 <= i < |a[1..]| ensures a[1..][i].0 != k {
              assert a[1..][i] == a[i + 1];
            }
          }
          assert a == [a[0]] + a[1..];
        }
      }
      r
  }

  /** Assigning never loses a key and adds exactly the assigned one. */
  lemma {:induction false} AssignKeySet<K(!new), V>(a: Arr<K, V>, k: K, v: V)
    ensures KeySet(Assign(a, k, v)) == KeySet(a) + {k}
    decreases |a|
  {
    if |a| == 0 {
      assert [(k, v)][0].0 == k;
    } else if a[0].0 == k {
      KeySetCons(a[0], a[1..]);
      KeySetCons((k, v), a[1..]);
      assert a == [a[0]] + a[1..];
    } else {
      AssignKeySet(a[1..], k, v);
      KeySetCons(a[0], a[1..]);
      assert a == [a[0]] + a[1..];
      KeySetCons(a[0], Assign(a[1..], k, v));
    }
  }

  /** Assigning keeps the keys distinct. */
  lemma {:induction false} AssignDistinct<K(!new), V>(a: Arr<K, V>, k: K, v: V)
    requires DistinctKeys(a)
    ensures DistinctKeys(Assign(a, k, v))
    decreases |a|
  {
    if |a| > 0 {
      DistinctTail(a);
      if a[0].0 == k {
        assert Assign(a, k, v) == [(k, v)] + a[1..];
        DistinctCons((k, v), a[1..]);
      } else {
        var rest := Assign(a[1..], k, v);
        assert Assign(a, k, v) == [a[0]] + rest;
        AssignDistinct(a[1..], k, v);
        AssignKeySet(a[1..], k, v);
        DistinctCons(a[0], rest);
      }
    }
  }

  lemma DistinctTail<K, V>(a: Arr<K, V>)
    requires DistinctKeys(a) && |a| > 0
    ensures DistinctKeys(a[1..]) && a[0].0 !in KeySet(a[1..])
  {
    forall i | 0 <= i < |a[1..]| ensures a[1..][i].0 != a[0].0 {
      assert a[1..][i] == a[i + 1];
    }
    forall i, j | 0 <= i < j < |a[1..]| ensures a[1..][i].0 != a[1..][j].0 {
      assert a[1..][i] == a[i + 1] && a[1..][j] == a[j + 1];
    }
  }

  lemma DistinctCons<K, V>(x: (K, V), s: Arr<K, V>)
    requires DistinctKeys(s) && x.0 !in KeySet(s)
    ensures DistinctKeys([x] + s)
  {
    var r := [x] + s;
    forall i, j | 0 <= i < j < |r| ensures r[i].0 != r[j].0 {
      assert r[j] == s[j - 1];
      if i > 0 {
        assert r[i] == s[i - 1];
      }
    }
  }

  lemma KeySetCons<K, V>(x: (K, V), s: Arr<K, V>)
    ensures KeySet([x] + s) == {x.0} + KeySet(s)
  {
    var r := [x] + s;
    forall y | y in KeySet(r) ensures y in {x.0} + KeySet(s) {
      var i :| 0 <= i < |r| && r[i].0 == y;
      if i > 0 {
        assert s[i - 1].0 == y;
      }
    }
    forall y | y in {x.0} + KeySet(s) ensures y in KeySet(r) {
      if y == x.0 {
        assert r[0].0 == y;
      } else {
        var i :| 0 <= i < |s| && s[i].0 == y;
        assert r[i + 1].0 == y;
      }
    }
  }

  lemma HasKeyIsKeySet<K, V>(a: Arr<K, V>, k: K)
    ensures HasKey(a, k) <==> k in KeySet(a)
  {
  }

  /** With distinct keys, `Get` finds the pair stored at any position. */
  lemma {:induction false} GetAt<K, V>(a: Arr<K, V>, i: nat)
    requires DistinctKeys(a) && i < |a|
    ensures Get(a, a[i].0) == Some(a[i].1)
    decreases i
  {
    if i > 0 {
      assert a[0].0 != a[i].0;
      assert a[1..][i - 1] == a[i];
      GetAt(a[1..], i - 1);
    }
  }
}

=== FILE: recording_name.dfy ===
/** The recording filename convention shared by the two halves of the system.

    The cron script on the recording machine renames each video to
    `YYYY-MM-DD_HH-MM_HH-MM.mp4`: the first 16 characters of the recorder's own
    name (`YYYY-MM-DD HH-MM`) with the space turned into '_', then '_', the end
    time and ".mp4". The end time is the start time plus the video's duration,
    on a 24-hour clock (the script's time zone, Asia/Hong_Kong, has no
    daylight-saving shifts).

    The WordPress back end reads the three fields back by fixed `substr`
    offsets: the date from characters 0-9, the start time from 11-15 and the
    end time from 17-21, each time with '-' turned into ':' and ":00" added.

    Times of day are minutes since midnight. */
module RecordingName {
  import opened Base
  import opened Text

  /** Hours and minutes read from ffmpeg's "Duration:" line. */
  datatype Duration = Duration(hours: int, minutes: int)

  /** Length of the recorder's `Y-m-d H-i` stamp, the sample string
      "2023-09-20 18-01". */
  const StampLength: nat := 16

  const MinutesPerDay: int := 1440

  /** `date_create_from_format('Y-m-d H-i', $stamp)`, reduced to what the
      script uses: the day number and the minute of the day. Two-digit hour
      and minute fields are read as written; an hour past 23 rolls over as in
      PHP, which the modulo in `CalculateEndTime` absorbs. */
  function ParseStamp(cal: Calendar, stamp: string): (r: Option<(int, nat)>)
    ensures r.Some? ==> |stamp| == StampLength && stamp[10] == ' ' && stamp[13] == '-'
    ensures r.Some? ==> AllDigits(stamp[11..13]) && AllDigits(stamp[14..16])
    ensures r.Some? ==> cal.parseYmd(stamp[..10]) == Some(r.value.0)
    ensures r.Some? ==> r.value.1 == DigitsValue(stamp[11..13]) * 60 + DigitsValue(stamp[14..16])
  {
    if |stamp| == StampLength && stamp[10] == ' ' && stamp[13] == '-'
       && AllDigits(stamp[11..13]) && AllDigits(stamp[14..16]) && cal.parseYmd(stamp[..10]).Some?
    then Some((cal.parseYmd(stamp[..10]).value, DigitsValue(stamp[11..13]) * 60 + DigitsValue(stamp[14..16])))
    else None
  }

  /** `date('H-i', ...)` of a minute of the day. */
  function FormatHi(t: nat): (r: string)
    requires t < MinutesPerDay
    ensures |r| == 5 && r[2] == '-' && AllDigits(r[..2]) && AllDigits(r[3..])
  {
    Pad2(t / 60) + "-" + Pad2(t % 60)
  }

  /** Minute of the day the end of a recording falls on. Dafny's `%` is
      Euclidean, which matches stepping a timestamp backwards for a negative
      duration. */
  function EndMinute(start: int, d: Duration): (r: nat)
    ensures r < MinutesPerDay
    ensures (r - (start + 60 * d.hours + d.minutes)) % MinutesPerDay == 0
  {
    (start + 60 * d.hours + d.minutes) % MinutesPerDay
  }

  /** `calculate_end_time($start_time, $duration)`: `None` where the stamp
      does not parse (PHP then stops with a type error in `date_format`). */
  function CalculateEndTime(cal: Calendar, stamp: string, d: Duration): (r: Option<string>)
    ensures r.Some? <==> ParseStamp(cal, stamp).Some?
    ensures r.Some? ==> |r.value| == 5 && r.value[2] == '-'
    ensures r.Some? ==> ClockOf(r.value) == EndMinute(ParseStamp(cal, stamp).value.1, d)
  {
    match ParseStamp(cal, stamp)
    case None => None
    case Some((_, start)) =>
      var e := EndMinute(start, d);
      ClockOfFormatHi(e);
      Some(FormatHi(e))
  }

  /** The file name `target_path` builds from the recorder's file name. */
  function TargetFilename(cal: Calendar, filename: string, d: Duration): (r: Option<string>)
    ensures r.Some? <==> ParseStamp(cal, Substr(filename, 0, StampLength)).Some?
    ensures r.Some? ==> |r.value| == 26 && r.value[10] == '_' && r.value[16] == '_'
    ensures r.Some? ==> r.value[22..] == ".mp4"
  {
    var stamp := Substr(filename, 0, StampLength);
    match CalculateEndTime(cal, stamp, d)
    case None => None
    case Some(e) =>
      NameShape(stamp, e);
      Some(ReplaceAll(stamp, " ", "_") + "_" + e + ".mp4")
  }

  /** Where the pieces of a target name sit. */
  lemma NameShape(stamp: string, end: string)
    requires |stamp| == StampLength && stamp[10] == ' ' && |end| == 5
    ensures var name := ReplaceAll(stamp, " ", "_") + "_" + end + ".mp4";
      && |name| == 26 && name[10] == '_' && name[16] == '_' && name[22..] == ".mp4"
      && name[17..22] == end
      && name[11..16] == MapChar(stamp, ' ', '_')[11..16]
      && name[..10] == MapChar(stamp, ' ', '_')[..10]
  {
    ReplaceCharIsMapChar(stamp, ' ', '_');
    var under := MapChar(stamp, ' ', '_');
    var name := under + "_" + end + ".mp4";
    assert name[..16] == under;
    assert name[17..22] == end;
  }

  // ---------------------------------------------------------------- back-end side

  /** The three fields the back end derives from a file name. */
  datatype RecordingFields = RecordingFields(startDate: string, startTime: string, endTime: string)

  /** `HH-MM` at a fixed offset, rewritten to `HH:MM:00`. */
  function TimeField(filename: string, offset: nat): (r: string)
    ensures |r| >= 3 && r[|r| - 3..] == ":00"
    ensures offset + 5 <= |filename| ==> |r| == 8
    ensures '-' !in r
  {
    var field := Substr(filename, offset, 5);
    ReplaceCharRemoves(field, '-', ':');
    ReplaceCharIsMapChar(field, '-', ':');
    var r := ReplaceAll(field, "-", ":") + ":00";
    assert |r| == |field| + 3;
    r
  }

  /** The field derivation of `process_single_file`. */
  function ParseRecordingName(filename: string): (r: RecordingFields)
    ensures |r.startDate| <= 10
    ensures |filename| >= 22 ==> r.startDate == filename[..10] && |r.startTime| == 8 && |r.endTime| == 8
    ensures '-' !in r.startTime && '-' !in r.endTime
  {
    RecordingFields(Substr(filename, 0, 10), TimeField(filename, 11), TimeField(filename, 17))
  }

  /** Minute of the day of an `HH:MM...` string, as `intval` reads its two
      fields. */
  function ClockOf(s: string): int {
    Intval(Substr(s, 0, 2)) * 60 + Intval(Substr(s, 3, 2))
  }

  // ---------------------------------------------------------------- lemmas

  lemma ClockOfDigits(hh: string, sep: char, mm: string, rest: string)
    requires |hh| == 2 && |mm| == 2 && AllDigits(hh) && AllDigits(mm)
    ensures ClockOf(hh + [sep] + mm + rest) == DigitsValue(hh) * 60 + DigitsValue(mm)
  {
    var s := hh + [sep] + mm + rest;
    assert Substr(s, 0, 2) == hh + "";
    assert Substr(s, 3, 2) == mm + "";
    IntvalOfDigits(hh, "");
    IntvalOfDigits(mm, "");
  }

  lemma ClockOfFormatHi(t: nat)
    requires t < MinutesPerDay
    ensures ClockOf(FormatHi(t)) == t
  {
    Pad2Value(t / 60);
    Pad2Value(t % 60);
    ClockOfDigits(Pad2(t / 60), '-', Pad2(t % 60), "");
    assert FormatHi(t) == Pad2(t / 60) + ['-'] + Pad2(t % 60) + "";
  }

  /** Reading an `HH-MM` field back gives `HH:MM:00` and its minute of the day. */
  lemma TimeFieldOf(name: string, offset: nat, hh: string, mm: string)
    requires |hh| == 2 && |mm| == 2 && AllDigits(hh) && AllDigits(mm)
    requires offset + 5 <= |name| && name[offset..offset + 5] == hh + "-" + mm
    ensures TimeField(name, offset) == hh + ":" + mm + ":00"
    ensures ClockOf(TimeField(name, offset)) == DigitsValue(hh) * 60 + DigitsValue(mm)
  {
    var field := hh + "-" + mm;
    ReplaceCharIsMapChar(field, '-', ':');
    assert MapChar(field, '-', ':') == hh + ":" + mm;
    assert hh + ":" + mm + ":00" == hh + [':'] + mm + ":00";
    ClockOfDigits(hh, ':', mm, ":00");
  }

  lemma MapCharKeeps(s: string, a: char, b: char, i: nat, j: nat)
    requires i <= j <= |s|
    requires a !in s[i..j]
    ensures MapChar(s, a, b)[i..j] == s[i..j]
  {
    forall k | i <= k < j ensures MapChar(s, a, b)[k] == s[k] {
      assert s[k] == s[i..j][k - i];
    }
  }

  /** The time part of a stamp that parses holds no space. */
  lemma StampTimeHasNoSpace(cal: Calendar, stamp: string)
    requires ParseStamp(cal, stamp).Some?
    ensures stamp[11..16] == stamp[11..13] + "-" + stamp[14..16]
    ensures ' ' !in stamp[11..16]
  {
    assert stamp[11..16] == stamp[11..13] + "-" + stamp[14..16];
    assert IsDigit(stamp[11..13][0]) && IsDigit(stamp[11..13][1]);
    assert IsDigit(stamp[14..16][0]) && IsDigit(stamp[14..16][1]);
  }

  lemma TargetFilenameValue(cal: Calendar, filename: string, d: Duration)
    requires ParseStamp(cal, Substr(filename, 0, StampLength)).Some?
    ensures TargetFilename(cal, filename, d).Some?
    ensures var stamp := Substr(filename, 0, StampLength);
      TargetFilename(cal, filename, d).value
        == ReplaceAll(stamp, " ", "_") + "_" + FormatHi(EndMinute(ParseStamp(cal, stamp).value.1, d)) + ".mp4"
  {
  }

  /** Where the cron script puts the recorder's date, its start time and the
      end time inside the name it builds from the stamp. */
  lemma NameLayout(cal: Calendar, filename: string, d: Duration)
    requires ParseStamp(cal, Substr(filename, 0, StampLength)).Some?
    requires ' ' !in Substr(filename, 0, StampLength)[..10]
    ensures TargetFilename(cal, filename, d).Some?
    ensures var name := TargetFilename(cal, filename, d).value;
      var stamp := Substr(filename, 0, StampLength);
      var e := EndMinute(ParseStamp(cal, stamp).value.1, d);
      && name[..10] == stamp[..10]
      && name[11..16] == stamp[11..13] + "-" + stamp[14..16]
      && name[17..22] == Pad2(e / 60) + "-" + Pad2(e % 60)
  {
    var stamp := Substr(filename, 0, StampLength);
    StampTimeHasNoSpace(cal, stamp);
    TargetFilenameValue(cal, filename, d);
    var end := FormatHi(EndMinute(ParseStamp(cal, stamp).value.1, d));
    NameShape(stamp, end);
    MapCharKeeps(stamp, ' ', '_', 0, 10);
    MapCharKeeps(stamp, ' ', '_', 11, 16);
  }

  lemma ReadEndField(name: string, e: nat)
    requires e < MinutesPerDay
    requires |name| >= 22 && name[17..22] == Pad2(e / 60) + "-" + Pad2(e % 60)
    ensures ClockOf(TimeField(name, 17)) == e
  {
    var h, m := e / 60, e % 60;
    assert h * 60 + m == e;
    TimeFieldOf(name, 17, Pad2(h), Pad2(m));
    Pad2Value(h);
    Pad2Value(m);
  }

  /** What the back end reads from a name laid out as the cron script lays
      it out. */
  lemma ReadBack(name: string, date: string, hh: string, mm: string, e: nat)
    requires |hh| == 2 && |mm| == 2 && AllDigits(hh) && AllDigits(mm) && e < MinutesPerDay
    requires |name| >= 22 && name[..10] == date
    requires name[11..16] == hh + "-" + mm
    requires name[17..22] == Pad2(e / 60) + "-" + Pad2(e % 60)
    ensures var f := ParseRecordingName(name);
      && f.startDate == date
      && f.startTime == hh + ":" + mm + ":00"
      && ClockOf(f.startTime) == DigitsValue(hh) * 60 + DigitsValue(mm)
      && ClockOf(f.endTime) == e
  {
    TimeFieldOf(name, 11, hh, mm);
    ReadEndField(name, e);
  }

  /** Round trip: from a name the cron script built, the back end reads the
      recorder's date and start time and the computed end time; read as a
      clock, the end time is the start plus the duration modulo one day. */
  lemma NameRoundTrip(cal: Calendar, filename: string, d: Duration)
    requires ParseStamp(cal, Substr(filename, 0, StampLength)).Some?
    requires ' ' !in Substr(filename, 0, StampLength)[..10]
    ensures TargetFilename(cal, filename, d).Some?
    ensures var f := ParseRecordingName(TargetFilename(cal, filename, d).value);
      var stamp := Substr(filename, 0, StampLength);
      var start := ParseStamp(cal, stamp).value.1;
      && f.startDate == stamp[..10]
      && f.startTime == stamp[11..13] + ":" + stamp[14..16] + ":00"
      && ClockOf(f.startTime) == start
      && ClockOf(f.endTime) == EndMinute(start, d)
  {
    NameLayout(cal, filename, d);
    var stamp := Substr(filename, 0, StampLength);
    var e := EndMinute(ParseStamp(cal, stamp).value.1, d);
    ReadBack(TargetFilename(cal, filename, d).value, stamp[..10], stamp[11..13], stamp[14..16], e);
  }

  /** The stamp is the first 16 characters of the recorder's name. */
  lemma StampIsPrefix(filename: string)
    requires |filename| >= StampLength
    ensures Substr(filename, 0, StampLength) == filename[..StampLength]
  {
  }
}

=== FILE: settings.dfy ===
/** The checks of the settings page (`settings.inc.php`): validating a stored
    value, falling back to the default when it fails, and the fallback of
    the multiple-choice field. */
module Settings {
  import opened Base
  import opened Text

  /** The value of a validator: a length, or `true` for the checks that take
      no argument. */
  datatype Limit = LimitInt(n: int) | LimitBool(b: bool)

  /** A validator array: its first key names the check, its first value is
      the limit. */
  datatype Validator = Validator(field: string, limit: Limit)

  /** `strlen($value) > $limit`. Against a boolean PHP compares both sides
      as booleans, and nothing is greater than `true`, so a boolean limit
      never rejects. */
  predicate TooLong(value: string, limit: Limit) {
    match limit
    case LimitInt(n) => |value| > n
    case LimitBool(b) => |value| > 0 && !b
  }

  /** `settings_validation`. Its `switch` has no `break`: a value checked as a
      relative date is then checked for length and as an integer, a value
      checked for length also as an integer. A check the `switch` does not
      know accepts. */
  function SettingsValidation(cal: Calendar, v: Validator, value: string): (r: bool)
    ensures v.field == "integer" ==> (r <==> Intval(value) != 0)
    ensures v.field == "length" ==> (r <==> !TooLong(value, v.limit) && Intval(value) != 0)
    ensures v.field == "relative_date_time" ==>
      (r <==> cal.Understands(value) && !TooLong(value, v.limit) && Intval(value) != 0)
    ensures v.field != "integer" && v.field != "length" && v.field != "relative_date_time" ==> r
  {
    // the case the switch enters: 0 = relative_date_time, 1 = length,
    // 2 = integer, 3 = none; every case runs all the checks after it
    var entry := if v.field == "relative_date_time" then 0
                 else if v.field == "length" then 1
                 else if v.field == "integer" then 2
                 else 3;
    && (entry > 0 || cal.Understands(value))
    && (entry > 1 || !TooLong(value, v.limit))
    && (entry > 2 || Intval(value) != 0)
  }

  /** A value that starts with neither a digit, a sign nor white space has
      `intval` 0. */
  lemma IntvalOfWord(value: string)
    requires |value| > 0 && !IsDigit(value[0]) && !IsSpace(value[0]) && value[0] != '-' && value[0] != '+'
    ensures Intval(value) == 0
  {
    assert SkipSpace(value) == value;
    assert DigitRun(value) == "";
  }

  /** Because of the fall-through, a relative date written as a word ("next
      week") fails even when `strtotime` reads it, and a text checked for
      length alone fails unless it starts with a non-zero number. */
  lemma FallThroughRejectsWords(cal: Calendar, value: string, limit: Limit)
    requires |value| > 0 && !IsDigit(value[0]) && !IsSpace(value[0]) && value[0] != '-' && value[0] != '+'
    ensures !SettingsValidation(cal, Validator("relative_date_time", limit), value)
    ensures !SettingsValidation(cal, Validator("length", limit), value)
  {
    IntvalOfWord(value);
  }

  /** The statement descriptor's own default, "Media sales", fails its
      length validator. */
  lemma DefaultDescriptorRejected(cal: Calendar)
    ensures !SettingsValidation(cal, Validator("length", LimitInt(22)), "Media sales")
  {
    FallThroughRejectsWords(cal, "Media sales", LimitInt(22));
  }

  /** What `admin_init` hands to a field's renderer: the stored value, or the
      default with a message when a validator rejects the stored value. */
  datatype FieldArgs = FieldArgs(value: string, message: Option<string>)

  const InvalidMessage: string := "Invalid Value, Default used!"

  function ShownValue(cal: Calendar, validator: Option<Validator>, stored: string, default: string): (r: FieldArgs)
    ensures r.message.Some? <==> validator.Some? && !SettingsValidation(cal, validator.value, stored)
    ensures r.message.None? ==> r.value == stored
    ensures r.message.Some? ==> r.value == default && r.message.value == InvalidMessage
  {
    if validator.Some? && !SettingsValidation(cal, validator.value, stored) then
      FieldArgs(default, Some(InvalidMessage))
    else FieldArgs(stored, None)
  }

  /** When the default passes its validator, the value shown always does:
      a valid stored value is kept, an invalid one replaced. */
  lemma ShownValuePasses(cal: Calendar, validator: Validator, stored: string, default: string)
    requires SettingsValidation(cal, validator, default)
    ensures SettingsValidation(cal, validator, ShownValue(cal, Some(validator), stored, default).value)
  {
  }

  /** A stored option value: a text, or the array a multiple-choice field
      stores. */
  datatype SettingValue = Text(text: string) | Items(items: seq<string>)

  /** `setting_multiple_render`: a value that is not an array is replaced by
      the default before the boxes are drawn. */
  function MultipleValue(value: SettingValue, default: seq<string>): (r: seq<string>)
    ensures value.Items? ==> r == value.items
    ensures value.Text? ==> r == default
  {
    match value
    case Items(items) => items
    case Text(_) => default
  }

  /** The option texts drawn checked: those found in the (possibly
      replaced) value. */
  function CheckedOptions(options: seq<(string, string)>, value: SettingValue, default: seq<string>): (r: set<string>)
    ensures forall t :: t in r <==>
      (exists i :: 0 <= i < |options| && options[i].1 == t) && t in MultipleValue(value, default)
  {
    var chosen := MultipleValue(value, default);
    set i | 0 <= i < |options| && options[i].1 in chosen :: options[i].1
  }

  /** A text value checks exactly the defaults that are options. */
  lemma TextValueChecksDefaults(options: seq<(string, string)>, text: string, default: seq<string>)
    ensures CheckedOptions(options, Text(text), default)
         == set i | 0 <= i < |options| && options[i].1 in default :: options[i].1
  {
  }
}

=== FILE: stripe.dfy ===
/** The Stripe side of a purchase, in its two versions: the procedural
    functions of `stripe.inc.php`, which read the plugin configuration, and
    the `stripe` client class of `libraries/stripe.php`, which is given
    everything as arguments. Modelled are the key and dashboard selection, the
    request each call sends (URL, credentials, form body) and the reading of
    the login probe; what Stripe answers is an input. */
module Stripe {
  import opened Base
  import opened Text
  import opened FormEncode
  import opened UrlCode

  const ApiBase: string := "https://api.stripe.com/v1/"
  const DashboardLive: string := "https://dashboard.stripe.com/"
  const DashboardTest: string := "https://dashboard.stripe.com/test/"

  /** The placeholder Stripe fills in with the id of the finished session. */
  const SessionPlaceholder: string := "?session_id={CHECKOUT_SESSION_ID}"

  // ---------------------------------------------------------------- keys

  datatype KeyData = KeyData(secret: string, url: string)

  /** `stripe_keys`: the secret and dashboard of the configured mode; any
      other mode indexes a missing array element (`null`). */
  function StripeKeys(mode: string, liveSecret: string, testSecret: string): (r: Option<KeyData>)
    ensures r.Some? <==> mode == "live" || mode == "test"
    ensures mode == "live" ==> r.value.secret == liveSecret && r.value.url == DashboardLive
    ensures mode == "test" ==> r.value.secret == testSecret && r.value.url == DashboardTest
  {
    if mode == "live" then Some(KeyData(liveSecret, DashboardLive))
    else if mode == "test" then Some(KeyData(testSecret, DashboardTest))
    else None
  }

  /** `stripe::stripe_key`. */
  function StripeKey(mode: string, apiSecretKey: string, apiTestSecretKey: string): (r: Option<string>)
    ensures r.Some? <==> mode == "live" || mode == "test"
    ensures mode == "live" ==> r == Some(apiSecretKey)
    ensures mode == "test" ==> r == Some(apiTestSecretKey)
  {
    if mode == "live" then Some(apiSecretKey)
    else if mode == "test" then Some(apiTestSecretKey)
    else None
  }

  /** `stripe::stripe_url`. */
  function StripeUrl(mode: string): (r: Option<string>)
    ensures r.Some? <==> mode == "live" || mode == "test"
    ensures r.Some? ==> (r.value == DashboardTest <==> mode == "test")
  {
    if mode == "live" then Some(DashboardLive)
    else if mode == "test" then Some(DashboardTest)
    else None
  }

  /** The class and the procedural copy select the same secret and dashboard
      for every mode. */
  lemma KeySelectionAgrees(mode: string, live: string, test: string)
    ensures StripeKeys(mode, live, test).Some? <==> StripeKey(mode, live, test).Some?
    ensures StripeKeys(mode, live, test).Some? ==>
      StripeKeys(mode, live, test).value == KeyData(StripeKey(mode, live, test).value, StripeUrl(mode).value)
  {
  }

  // ---------------------------------------------------------------- curl_command

  datatype StripeRequest = StripeRequest(url: string, userPwd: string, customRequest: Option<string>,
                                         postFields: Option<string>)

  /** `stripe_curl_command` / `stripe::curl_command`: the secret is the user
      name of basic authentication (an unknown mode gives the empty secret);
      a non-empty data array is posted as the `make_array_string` body. */
  function CurlCommand(secret: Option<string>, path: string, data: FormData, request: Option<string>)
    : (r: StripeRequest)
    ensures r.url == ApiBase + path
    ensures r.userPwd == secret.GetOr("") + ":"
    ensures r.customRequest.Some? <==> request.Some? && !Falsy(request.value)
    ensures r.postFields.Some? <==> |data| > 0
    ensures r.postFields.Some? && Encodable(Pairs(data)) ==> DecodeBody(r.postFields.value) == Pairs(data)
  {
    var custom := if request.Some? && !Falsy(request.value) then request else None;
    if |data| > 0 then
      assert Encodable(Pairs(data)) ==> DecodeBody(MakeArrayString(data)) == Pairs(data) by {
        if Encodable(Pairs(data)) { FormRoundTrip(data); }
      }
      StripeRequest(ApiBase + path, secret.GetOr("") + ":", custom, Some(MakeArrayString(data)))
    else
      StripeRequest(ApiBase + path, secret.GetOr("") + ":", custom, None)
  }

  // ---------------------------------------------------------------- payloads

  /** A PHP list: the elements under the keys 0, 1, 2, ... */
  function IndexedList(items: seq<string>): (r: seq<(string, string)>)
    ensures |r| == |items|
    ensures forall i :: 0 <= i < |r| ==> r[i] == (NatToString(i), items[i])
  {
    seq(|items|, i requires 0 <= i < |items| => (NatToString(i), items[i]))
  }

  /** The product created for a recording (`stripe_create_product`, with the
      statement descriptor from the configuration, and
      `stripe::create_product`, which takes it as an argument). */
  function ProductPayload(name: string, description: string, statementDescriptor: string, images: seq<string>)
    : (r: FormData)
    ensures Pairs(r) == [("name", name), ("shippable", "false"),
                         ("statement_descriptor", statementDescriptor), ("description", description)]
                        + EntryPairs("images", List(IndexedList(images)))
  {
    var ps := [("name", name), ("shippable", "false"),
               ("statement_descriptor", statementDescriptor), ("description", description)];
    var head := Scalars(ps);
    var tail := [("images", List(IndexedList(images)))];
    PairsAppend(head, tail);
    PairsOfScalars(ps);
    assert Pairs(tail) == EntryPairs("images", List(IndexedList(images))) + Pairs([]);
    head + tail
  }

  /** The images of a product travel as `images[0]`, `images[1]`, ... in
      order; a product without images sends the single pair `images=Array`. */
  lemma ProductImages(name: string, description: string, statementDescriptor: string, images: seq<string>)
    ensures |images| == 0 ==> Pairs(ProductPayload(name, description, statementDescriptor, images))[4..] == [("images", "Array")]
    ensures |images| > 0 ==>
      && |Pairs(ProductPayload(name, description, statementDescriptor, images))| == 4 + |images|
      && forall i :: 0 <= i < |images| ==>
           Pairs(ProductPayload(name, description, statementDescriptor, images))[4 + i]
             == ("images[" + NatToString(i) + "]", images[i])
  {
    var ps := Pairs(ProductPayload(name, description, statementDescriptor, images));
    var e := EntryPairs("images", List(IndexedList(images)));
    assert ps[4..] == e;
    forall i | 0 <= i < |images|
      ensures ps[4 + i] == ("images[" + NatToString(i) + "]", images[i])
    {
      assert ps[4..][i] == e[i];
      assert IndexedList(images)[i] == (NatToString(i), images[i]);
      assert "images" + "[" + NatToString(i) + "]" == "images[" + NatToString(i) + "]";
    }
  }

  /** `stripe::create_price`: exactly the amount, the currency and the
      product, as given. */
  function PricePayload(productId: string, price: int, currency: string): (r: FormData)
    ensures Pairs(r) == [("unit_amount", IntToString(price)), ("currency", currency), ("product", productId)]
    ensures Intval(Pairs(r)[0].1) == price
  {
    var ps := [("unit_amount", IntToString(price)), ("currency", currency), ("product", productId)];
    PairsOfScalars(ps);
    assert Intval(ps[0].1) == price by { IntvalOfIntToString(price); }
    Scalars(ps)
  }

  /** `stripe_create_price`: the configured flat price in Hong Kong dollars;
      nothing about the recording enters the price. */
  function StripeCreatePrice(productId: string, mediaPrice: int): (r: FormData)
    ensures Pairs(r) == [("unit_amount", IntToString(mediaPrice)), ("currency", "hkd"), ("product", productId)]
  {
    PricePayload(productId, mediaPrice, "hkd")
  }

  /** `stripe::create_session`: the success URL with the session placeholder
      appended, URL-encoded; one line item of the price; mode `payment`. The
      procedural `stripe_create_session` is this with quantity 1 and the
      current page as success URL. */
  function SessionPayload(successUrl: string, priceId: string, quantity: int): (r: FormData)
    ensures Pairs(r) == [("success_url", UrlEncode(successUrl + SessionPlaceholder)),
                         ("line_items[0][price]", priceId),
                         ("line_items[0][quantity]", IntToString(quantity)),
                         ("mode", "payment")]
  {
    var ps := [("success_url", UrlEncode(successUrl + SessionPlaceholder)),
               ("line_items[0][price]", priceId),
               ("line_items[0][quantity]", IntToString(quantity)),
               ("mode", "payment")];
    PairsOfScalars(ps);
    Scalars(ps)
  }

  /** Stripe reads the success URL back: decoding the posted body and then
      the value gives the page address followed by the placeholder. */
  lemma SessionBodyRoundTrip(successUrl: string, priceId: string, quantity: int)
    requires Ascii(successUrl)
    requires '&' !in priceId
    ensures DecodeBody(MakeArrayString(SessionPayload(successUrl, priceId, quantity))) ==
      Pairs(SessionPayload(successUrl, priceId, quantity))
    ensures UrlDecode(Pairs(SessionPayload(successUrl, priceId, quantity))[0].1) == successUrl + SessionPlaceholder
  {
    var data := SessionPayload(successUrl, priceId, quantity);
    SessionPairsEncodable(successUrl, priceId, quantity);
    FormRoundTrip(data);
    AsciiPlaceholder(successUrl);
    UrlRoundTrip(successUrl + SessionPlaceholder);
  }

  lemma SessionPairsEncodable(successUrl: string, priceId: string, quantity: int)
    requires '&' !in priceId
    ensures Encodable(Pairs(SessionPayload(successUrl, priceId, quantity)))
  {
    NoAmpersandEncoded(successUrl + SessionPlaceholder);
    NoAmpersandInNumber(quantity);
    SessionKeysPlain();
    EncodableFour(("success_url", UrlEncode(successUrl + SessionPlaceholder)),
                  ("line_items[0][price]", priceId),
                  ("line_items[0][quantity]", IntToString(quantity)),
                  ("mode", "payment"));
  }

  /** A key that needs no escaping in a form body. */
  predicate PlainKey(k: string) {
    '&' !in k && '=' !in k
  }

  lemma SessionKeysPlain()
    ensures PlainKey("success_url") && PlainKey("line_items[0][price]")
    ensures PlainKey("line_items[0][quantity]") && PlainKey("mode") && '&' !in "payment"
  {
    assert PlainKey("success_url");
    assert PlainKey("line_items[0][price]");
    assert PlainKey("line_items[0][quantity]");
  }

  lemma EncodableFour(a: (string, string), b: (string, string), c: (string, string), d: (string, string))
    requires PlainKey(a.0) && PlainKey(b.0) && PlainKey(c.0) && PlainKey(d.0)
    requires '&' !in a.1 && '&' !in b.1 && '&' !in c.1 && '&' !in d.1
    ensures Encodable([a, b, c, d])
  {
  }

  lemma NoAmpersandEncoded(s: string)
    ensures '&' !in UrlEncode(s)
  {
    var enc := UrlEncode(s);
    forall i | 0 <= i < |enc| ensures enc[i] != '&' {
      assert UrlSafe(enc[i]);
    }
  }

  lemma NoAmpersandInNumber(n: int)
    ensures '&' !in IntToString(n)
  {
    var t := IntToString(n);
    forall i | 0 <= i < |t| ensures t[i] != '&' {
      if n < 0 && i > 0 {
        assert t[i] == t[1..][i - 1];
      }
    }
  }

  lemma AsciiPlaceholder(url: string)
    requires Ascii(url)
    ensures Ascii(url + SessionPlaceholder)
  {
    var s := url + SessionPlaceholder;
    forall i | 0 <= i < |s| ensures s[i] as int < 128 {
      if i < |url| {
        assert s[i] == url[i];
      } else {
        assert s[i] == SessionPlaceholder[i - |url|];
      }
    }
  }

  // ---------------------------------------------------------------- test_login

  /** A decoded Stripe reply: its `error` member's message when it has one.
      A reply that is not JSON decodes to `null`, modelled as `None`. */
  datatype StripeObject = StripeObject(error: Option<string>, id: Option<string>, url: Option<string>)

  predicate HasError(reply: Option<StripeObject>) {
    reply.Some? && reply.value.error.Some?
  }

  /** `stripe_test_login`: false exactly when the reply carries an error; an
      undecodable reply has no error member and passes. */
  function StripeTestLogin(reply: Option<StripeObject>): (r: bool)
    ensures r <==> !HasError(reply)
    ensures reply.None? ==> r
  {
    !(reply.Some? && reply.value.error.Some?)
  }

  datatype Login = LoggedIn | LoginError(message: string)

  /** `stripe::test_login`: the error message when there is one, else `true`. */
  function TestLogin(reply: Option<StripeObject>): (r: Login)
    ensures r.LoginError? <==> HasError(reply)
    ensures r.LoginError? ==> r.message == reply.value.error.value
    ensures r.LoggedIn? <==> StripeTestLogin(reply)
  {
    if reply.Some? && reply.value.error.Some? then LoginError(reply.value.error.value) else LoggedIn
  }

  /** The `id` member of a reply as PHP reads it: `null`, interpolated and
      stored as "", when the reply or the member is missing. */
  function IdOf(reply: Option<StripeObject>): (r: string)
    ensures reply.Some? && reply.value.id.Some? ==> r == reply.value.id.value
    ensures reply.None? || reply.value.id.None? ==> r == ""
  {
    if reply.Some? && reply.value.id.Some? then reply.value.id.value else ""
  }

  function UrlOf(reply: Option<StripeObject>): (r: string)
    ensures reply.Some? && reply.value.url.Some? ==> r == reply.value.url.value
    ensures reply.None? || reply.value.url.None? ==> r == ""
  {
    if reply.Some? && reply.value.url.Some? then reply.value.url.value else ""
  }
}

=== FILE: tables.dfy ===
/** The plugin's two database tables and the queries of `data.inc.php` on
    them. A table is the sequence of its rows in storage order; an `INSERT`
    appends, an `UPDATE ... WHERE` rewrites the matching rows in place, and a
    `SELECT` without `ORDER BY` sees the rows in storage order. */
module Tables {
  import opened Base
  import opened Text
  import opened PhpArray
  import opened MediaStore

  /** The column default of the `expired` datetime. */
  const NotExpired: string := "0000-00-00 00:00:00"

  /** What `data_clean_db` as written stores in `expired`. Its `'NOW()'` goes
      through a `%s` placeholder, so MySQL receives the text NOW() rather than
      the function; a `datetime` column outside strict mode (WordPress clears
      the strict SQL modes) stores text it cannot read as a date as the zero
      date, which is also the column default. */
  const StoredForNow: string := NotExpired

  /** The verification stamp of a row that was never verified. */
  const NeverVerified: int := 0

  /** A row of `ums_files`. `verified` is the stamp of the last inventory pass
      that saw the file. */
  datatype FileRow = FileRow(
    id: nat,
    fileName: string,
    fullPath: string,
    thumbnailPath: string,
    thumbnailUrl: string,
    folder: string,
    startDate: string,
    startTime: string,
    endTime: string,
    size: SizeLabel,
    description: string,
    stripeProductId: string,
    stripePriceId: string,
    verified: int,
    fileType: string,
    expired: string)

  /** A row of `ums_sales`. `expiry` is `None` for the column default
      '0000-00-00', which lies before every real date. */
  datatype SaleRow = SaleRow(
    id: nat,
    fileId: int,
    fullname: string,
    email: string,
    sessionId: string,
    link: string,
    expiry: Option<int>,
    mode: string)

  /** Both tables and their next `AUTO_INCREMENT` values. */
  datatype Db = Db(files: seq<FileRow>, sales: seq<SaleRow>, nextFileId: nat, nextSaleId: nat)

  /** The table constraints: ids are positive, below the next auto-increment
      value and unique; `full_path` is unique. */
  ghost predicate WellFormed(db: Db) {
    && 0 < db.nextFileId && 0 < db.nextSaleId
    && (forall i :: 0 <= i < |db.files| ==> 0 < db.files[i].id < db.nextFileId)
    && (forall i, j :: 0 <= i < j < |db.files| ==>
          db.files[i].id != db.files[j].id && db.files[i].fullPath != db.files[j].fullPath)
    && (forall i :: 0 <= i < |db.sales| ==> 0 < db.sales[i].id < db.nextSaleId)
    && (forall i, j :: 0 <= i < j < |db.sales| ==> db.sales[i].id != db.sales[j].id)
  }

  /** Rewriting file rows without touching ids or paths keeps the
      constraints. */
  lemma SameFileKeysWellFormed(db: Db, files: seq<FileRow>)
    requires WellFormed(db)
    requires |files| == |db.files|
    requires forall i :: 0 <= i < |files| ==> files[i].id == db.files[i].id && files[i].fullPath == db.files[i].fullPath
    ensures WellFormed(db.(files := files))
  {
  }

  /** Rewriting sales without touching ids keeps the constraints. */
  lemma SameSaleIdsWellFormed(db: Db, sales: seq<SaleRow>)
    requires WellFormed(db)
    requires |sales| == |db.sales|
    requires forall i :: 0 <= i < |sales| ==> sales[i].id == db.sales[i].id
    ensures WellFormed(db.(sales := sales))
  {
  }

  // ---------------------------------------------------------------- generic row operations

  /** `UPDATE ... SET ... WHERE`: every row the condition selects is rewritten,
      every other row is left as it is. */
  function UpdateRows<R>(rows: seq<R>, where: R -> bool, change: R -> R): (r: seq<R>)
    ensures |r| == |rows|
    ensures forall i :: 0 <= i < |rows| ==> r[i] == (if where(rows[i]) then change(rows[i]) else rows[i])
  {
    if |rows| == 0 then []
    else [if where(rows[0]) then change(rows[0]) else rows[0]] + UpdateRows(rows[1..], where, change)
  }

  /** The number of rows a condition selects. */
  function CountRows<R>(rows: seq<R>, where: R -> bool): (n: nat)
    ensures n <= |rows|
  {
    if |rows| == 0 then 0 else (if where(rows[0]) then 1 else 0) + CountRows(rows[1..], where)
  }

  /** The first row with a given id. */
  function FileById(files: seq<FileRow>, id: int): (r: Option<FileRow>)
    ensures r.Some? <==> exists i :: 0 <= i < |files| && files[i].id == id
    ensures r.Some? ==> r.value.id == id && r.value in files
  {
    if |files| == 0 then None
    else if files[0].id == id then Some(files[0])
    else
      var r := FileById(files[1..], id);
      assert forall i :: 1 <= i < |files| ==> files[i] == files[1..][i - 1];
      r
  }

  function SaleById(sales: seq<SaleRow>, id: int): (r: Option<SaleRow>)
    ensures r.Some? <==> exists i :: 0 <= i < |sales| && sales[i].id == id
    ensures r.Some? ==> r.value.id == id && r.value in sales
  {
    if |sales| == 0 then None
    else if sales[0].id == id then Some(sales[0])
    else
      var r := SaleById(sales[1..], id);
      assert forall i :: 1 <= i < |sales| ==> sales[i] == sales[1..][i - 1];
      r
  }

  // ---------------------------------------------------------------- read_db / data_fetch_dates

  function Paths(files: seq<FileRow>): set<string> {
    set i | 0 <= i < |files| :: files[i].fullPath
  }

  lemma PathsSnoc(files: seq<FileRow>)
    requires |files| > 0
    ensures Paths(files) == Paths(files[..|files| - 1]) + {files[|files| - 1].fullPath}
  {
    var init := files[..|files| - 1];
    forall p | p in Paths(files) ensures p in Paths(init) + {files[|files| - 1].fullPath} {
      var i :| 0 <= i < |files| && files[i].fullPath == p;
      if i < |init| {
        assert init[i] == files[i];
      }
    }
    forall p | p in Paths(init) ensures p in Paths(files) {
      var i :| 0 <= i < |init| && init[i].fullPath == p;
      assert files[i] == init[i];
    }
  }

  /** `read_db`: the rows keyed by `full_path`; a later row with the same path
      overwrites an earlier one. */
  function ReadDb(files: seq<FileRow>): (r: Arr<string, FileRow>)
    ensures KeySet(r) == Paths(files)
    ensures DistinctKeys(r)
    ensures forall k :: Get(r, k).Some? ==> Get(r, k).value.fullPath == k && Get(r, k).value in files
    decreases |files|
  {
    if |files| == 0 then []
    else
      var init := files[..|files| - 1];
      var last := files[|files| - 1];
      var prev := ReadDb(init);
      var r := Assign(prev, last.fullPath, last);
      AssignKeySet(prev, last.fullPath, last);
      AssignDistinct(prev, last.fullPath, last);
      PathsSnoc(files);
      assert forall k :: Get(prev, k).Some? ==> Get(prev, k).value in files by {
        assert forall i :: 0 <= i < |init| ==> init[i] == files[i];
      }
      r
  }

  /** With unique paths (the table's constraint), `read_db` finds every row
      under its own path. */
  lemma {:induction false} ReadDbFindsRows(files: seq<FileRow>, i: nat)
    requires i < |files|
    requires forall a, b :: 0 <= a < b < |files| ==> files[a].fullPath != files[b].fullPath
    ensures Get(ReadDb(files), files[i].fullPath) == Some(files[i])
    decreases |files|
  {
    var init := files[..|files| - 1];
    var last := files[|files| - 1];
    if i < |files| - 1 {
      assert init[i] == files[i];
      ReadDbFindsRows(init, i);
      assert files[i].fullPath != last.fullPath;
    }
  }

  /** The start dates of a snapshot's rows. */
  function StartDates(snapshot: Arr<string, FileRow>): set<string> {
    set i | 0 <= i < |snapshot| :: snapshot[i].1.startDate
  }

  lemma StartDatesSnoc(snapshot: Arr<string, FileRow>)
    requires |snapshot| > 0
    ensures StartDates(snapshot)
         == StartDates(snapshot[..|snapshot| - 1]) + {snapshot[|snapshot| - 1].1.startDate}
  {
    var init := snapshot[..|snapshot| - 1];
    assert forall i :: 0 <= i < |init| ==> init[i] == snapshot[i];
  }

  /** `data_fetch_dates`: the distinct start dates of the snapshot, each
      mapped to itself, in order of first appearance. */
  function FetchDates(snapshot: Arr<string, FileRow>): (r: Arr<string, string>)
    ensures KeySet(r) == StartDates(snapshot)
    ensures DistinctKeys(r)
    ensures forall k :: Get(r, k).Some? ==> Get(r, k).value == k
    decreases |snapshot|
  {
    if |snapshot| == 0 then []
    else
      var d := snapshot[|snapshot| - 1].1.startDate;
      var prev := FetchDates(snapshot[..|snapshot| - 1]);
      AssignKeySet(prev, d, d);
      AssignDistinct(prev, d, d);
      StartDatesSnoc(snapshot);
      Assign(prev, d, d)
  }

  /** Every entry of the snapshot is a row of the table. */
  lemma SnapshotRowIsRow(files: seq<FileRow>, i: nat)
    requires i < |ReadDb(files)|
    ensures ReadDb(files)[i].1 in files
  {
    var snap := ReadDb(files);
    GetAt(snap, i);
    assert Get(snap, snap[i].0).Some?;
  }

  /** With unique paths, every row of the table is an entry of the snapshot. */
  lemma RowInSnapshot(files: seq<FileRow>, i: nat) returns (j: nat)
    requires i < |files|
    requires forall a, b :: 0 <= a < b < |files| ==> files[a].fullPath != files[b].fullPath
    ensures j < |ReadDb(files)| && ReadDb(files)[j].1 == files[i]
  {
    var snap := ReadDb(files);
    ReadDbFindsRows(files, i);
    assert Get(snap, files[i].fullPath).Some?;
    j :| 0 <= j < |snap| && snap[j] == (files[i].fullPath, files[i]);
  }

  // ---------------------------------------------------------------- inserting and refreshing files

  /** The columns `process_single_file` supplies for a new recording. */
  datatype NewFile = NewFile(
    fileName: string,
    fullPath: string,
    thumbnailPath: string,
    thumbnailUrl: string,
    folder: string,
    startDate: string,
    startTime: string,
    endTime: string,
    size: SizeLabel,
    verified: int,
    description: string)

  /** `$wpdb->insert` into `ums_files`: the row gets the next id and the
      column defaults; a row whose path is already stored violates the unique
      key, nothing is written and `insert_id` is 0. */
  function InsertFile(db: Db, f: NewFile): (r: (Db, nat))
    ensures f.fullPath in Paths(db.files) ==> r == (db, 0)
    ensures f.fullPath !in Paths(db.files) ==>
      && r.1 == db.nextFileId
      && r.0.files == db.files + [FileRow(db.nextFileId, f.fileName, f.fullPath, f.thumbnailPath, f.thumbnailUrl,
                                          f.folder, f.startDate, f.startTime, f.endTime, f.size, f.description,
                                          "", "", f.verified, "video/mp4", NotExpired)]
      && r.0.sales == db.sales && r.0.nextSaleId == db.nextSaleId && r.0.nextFileId == db.nextFileId + 1
    ensures WellFormed(db) ==> WellFormed(r.0)
  {
    if f.fullPath in Paths(db.files) then (db, 0)
    else
      var row := FileRow(db.nextFileId, f.fileName, f.fullPath, f.thumbnailPath, f.thumbnailUrl,
                         f.folder, f.startDate, f.startTime, f.endTime, f.size, f.description,
                         "", "", f.verified, "video/mp4", NotExpired);
      var r := db.(files := db.files + [row], nextFileId := db.nextFileId + 1);
      assert forall i :: 0 <= i < |db.files| ==> db.files[i].fullPath in Paths(db.files);
      (r, db.nextFileId)
  }

  /** The `UPDATE` of `process_single_file` for a known path: only `verified`
      of the rows with that path changes. */
  function UpdateVerified(db: Db, path: string, stamp: int): (r: Db)
    ensures r.sales == db.sales && r.nextFileId == db.nextFileId && r.nextSaleId == db.nextSaleId
    ensures |r.files| == |db.files|
    ensures forall i :: 0 <= i < |db.files| ==>
      r.files[i] == (if db.files[i].fullPath == path then db.files[i].(verified := stamp) else db.files[i])
    ensures WellFormed(db) ==> WellFormed(r)
  {
    var files := UpdateRows(db.files, (f: FileRow) => f.fullPath == path, (f: FileRow) => f.(verified := stamp));
    assert WellFormed(db) ==> WellFormed(db.(files := files)) by {
      if WellFormed(db) {
        SameFileKeysWellFormed(db, files);
      }
    }
    db.(files := files)
  }

  // ---------------------------------------------------------------- sales

  /** `data_prime_sales_session`: one new sale (file, session, current mode,
      everything else at its default), and the file's Stripe product and
      price ids overwritten. A missing session id (`None`, PHP `null`) makes
      the single-row `INSERT` put `NULL` into the `NOT NULL` column
      `stripe_session_id`, which MySQL refuses in any SQL mode: no sale is
      added, and the update of the file still runs. */
  function PrimeSalesSession(db: Db, fileId: int, sessionId: Option<string>, productId: string, priceId: string,
                             mode: string): (r: Db)
    ensures sessionId.Some? ==>
      r.sales == db.sales + [SaleRow(db.nextSaleId, fileId, "", "", sessionId.value, "", None, mode)]
      && r.nextSaleId == db.nextSaleId + 1
    ensures sessionId.None? ==> r.sales == db.sales && r.nextSaleId == db.nextSaleId
    ensures r.nextFileId == db.nextFileId
    ensures |r.files| == |db.files|
    ensures forall i :: 0 <= i < |db.files| ==>
      r.files[i] == (if db.files[i].id == fileId
                     then db.files[i].(stripeProductId := productId, stripePriceId := priceId)
                     else db.files[i])
    ensures WellFormed(db) ==> WellFormed(r)
  {
    var files := UpdateRows(db.files, (f: FileRow) => f.id == fileId,
                            (f: FileRow) => f.(stripeProductId := productId, stripePriceId := priceId));
    assert WellFormed(db) ==> WellFormed(db.(files := files)) by {
      if WellFormed(db) {
        SameFileKeysWellFormed(db, files);
      }
    }
    match sessionId
    case None => db.(files := files)
    case Some(session) =>
      var sale := SaleRow(db.nextSaleId, fileId, "", "", session, "", None, mode);
      var r := Db(files, db.sales + [sale], db.nextFileId, db.nextSaleId + 1);
      assert WellFormed(db) ==> WellFormed(r) by {
        if WellFormed(db) {
          AppendSaleWellFormed(db.(files := files), sale);
        }
      }
      r
  }

  /** A sale with the next id keeps the constraints. */
  lemma AppendSaleWellFormed(db: Db, sale: SaleRow)
    requires WellFormed(db)
    requires sale.id == db.nextSaleId
    ensures WellFormed(db.(sales := db.sales + [sale], nextSaleId := db.nextSaleId + 1))
  {
  }

  /** `data_finalize_sales_session`: buyer name, email, share link and expiry
      of every sale of the session; nothing else. */
  function FinalizeSalesSession(db: Db, sessionId: string, name: string, email: string, link: string,
                                expiry: int): (r: Db)
    ensures r.files == db.files && r.nextFileId == db.nextFileId && r.nextSaleId == db.nextSaleId
    ensures |r.sales| == |db.sales|
    ensures forall i :: 0 <= i < |db.sales| ==>
      r.sales[i] == (if db.sales[i].sessionId == sessionId
                     then db.sales[i].(fullname := name, email := email, link := link, expiry := Some(expiry))
                     else db.sales[i])
    ensures WellFormed(db) ==> WellFormed(r)
  {
    var sales := UpdateRows(db.sales, (s: SaleRow) => s.sessionId == sessionId,
                           (s: SaleRow) => s.(fullname := name, email := email, link := link, expiry := Some(expiry)));
    assert WellFormed(db) ==> WellFormed(db.(sales := sales)) by {
      if WellFormed(db) {
        SameSaleIdsWellFormed(db, sales);
      }
    }
    db.(sales := sales)
  }

  /** Finalizing a session twice leaves what the second call wrote: the
      later buyer details, link and expiry replace the earlier ones. */
  lemma FinalizeOverwrites(db: Db, sessionId: string, name1: string, email1: string, link1: string, expiry1: int,
                           name2: string, email2: string, link2: string, expiry2: int)
    ensures FinalizeSalesSession(FinalizeSalesSession(db, sessionId, name1, email1, link1, expiry1),
                                 sessionId, name2, email2, link2, expiry2)
         == FinalizeSalesSession(db, sessionId, name2, email2, link2, expiry2)
  {
    var once := FinalizeSalesSession(db, sessionId, name1, email1, link1, expiry1);
    var twice := FinalizeSalesSession(once, sessionId, name2, email2, link2, expiry2);
    var direct := FinalizeSalesSession(db, sessionId, name2, email2, link2, expiry2);
    assert forall i :: 0 <= i < |db.sales| ==> once.sales[i].sessionId == db.sales[i].sessionId;
    assert twice.sales == direct.sales;
  }

  /** Finalizing touches neither session ids nor file ids, so every session
      still leads to the same file. */
  lemma FinalizeKeepsSessionFile(db: Db, sessionId: string, name: string, email: string, link: string,
                                 expiry: int, lookup: string)
    ensures GetFileFromSession(FinalizeSalesSession(db, sessionId, name, email, link, expiry), lookup)
         == GetFileFromSession(db, lookup)
  {
    var after := FinalizeSalesSession(db, sessionId, name, email, link, expiry);
    assert forall i :: 0 <= i < |db.sales| ==>
      after.sales[i].sessionId == db.sales[i].sessionId && after.sales[i].fileId == db.sales[i].fileId;
    FirstSaleSameFile(db.sales, after.sales, lookup);
  }

  /** `data_update_nc_share`: a new link and expiry for one sale. */
  function UpdateNcShare(db: Db, salesId: int, link: string, expiry: int): (r: Db)
    ensures r.files == db.files && r.nextFileId == db.nextFileId && r.nextSaleId == db.nextSaleId
    ensures |r.sales| == |db.sales|
    ensures forall i :: 0 <= i < |db.sales| ==>
      r.sales[i] == (if db.sales[i].id == salesId then db.sales[i].(link := link, expiry := Some(expiry))
                     else db.sales[i])
    ensures WellFormed(db) ==> WellFormed(r)
  {
    var sales := UpdateRows(db.sales, (s: SaleRow) => s.id == salesId,
                           (s: SaleRow) => s.(link := link, expiry := Some(expiry)));
    assert WellFormed(db) ==> WellFormed(db.(sales := sales)) by {
      if WellFormed(db) {
        SameSaleIdsWellFormed(db, sales);
      }
    }
    db.(sales := sales)
  }

  /** The expiry test of `data_cleanup_expired_links`: the zero date counts as
      expired. */
  predicate ExpiredBy(expiry: Option<int>, today: int) {
    expiry.None? || expiry.value < today
  }

  /** `data_cleanup_expired_links`: empties the link of exactly the sales
      whose expiry lies before today. */
  function CleanupExpiredLinks(db: Db, today: int): (r: Db)
    ensures r.files == db.files && r.nextFileId == db.nextFileId && r.nextSaleId == db.nextSaleId
    ensures |r.sales| == |db.sales|
    ensures forall i :: 0 <= i < |db.sales| ==>
      r.sales[i] == (if ExpiredBy(db.sales[i].expiry, today) then db.sales[i].(link := "") else db.sales[i])
    ensures forall i :: 0 <= i < |r.sales| && r.sales[i].link != "" ==> !ExpiredBy(r.sales[i].expiry, today)
    ensures WellFormed(db) ==> WellFormed(r)
  {
    var sales := UpdateRows(db.sales, (s: SaleRow) => ExpiredBy(s.expiry, today), (s: SaleRow) => s.(link := ""));
    assert WellFormed(db) ==> WellFormed(db.(sales := sales)) by {
      if WellFormed(db) {
        SameSaleIdsWellFormed(db, sales);
      }
    }
    db.(sales := sales)
  }

  /** `data_get_sales`: in live mode only the sales whose mode is `LIKE 'live'`
      (a case-insensitive match), otherwise all of them; newest first. A sale
      is appended with `sales_time` at its default `NOW()` and nothing changes
      it later, so `ORDER BY sales_time DESC` lists the rows in reverse
      storage order. */
  function GetSales(db: Db, stripeMode: string): (r: seq<SaleRow>)
    ensures stripeMode != "live" ==>
      |r| == |db.sales| && forall i :: 0 <= i < |r| ==> r[i] == db.sales[|db.sales| - 1 - i]
    ensures SubsequenceOf(Reverse(r), db.sales)
    ensures stripeMode == "live" ==> forall i :: 0 <= i < |r| ==> EqualsIgnoreCase(r[i].mode, "live")
    ensures stripeMode == "live" ==>
      forall i :: 0 <= i < |db.sales| && EqualsIgnoreCase(db.sales[i].mode, "live") ==> db.sales[i] in r
  {
    var listed := if stripeMode == "live" then LiveSales(db.sales) else (SubsequenceOfSelf(db.sales); db.sales);
    ReverseTwice(listed);
    Reverse(listed)
  }

  /** Reversing twice gives the sequence back, and reversing keeps the
      elements. */
  lemma ReverseTwice<T>(s: seq<T>)
    ensures Reverse(Reverse(s)) == s
    ensures forall x :: x in s ==> x in Reverse(s)
  {
    forall x | x in s ensures x in Reverse(s) {
      var i :| 0 <= i < |s| && s[i] == x;
      assert Reverse(s)[|s| - 1 - i] == x;
    }
  }

  function LiveSales(sales: seq<SaleRow>): (r: seq<SaleRow>)
    ensures SubsequenceOf(r, sales)
    ensures forall i :: 0 <= i < |r| ==> EqualsIgnoreCase(r[i].mode, "live")
    ensures forall i :: 0 <= i < |sales| && EqualsIgnoreCase(sales[i].mode, "live") ==> sales[i] in r
  {
    if |sales| == 0 then []
    else
      var rest := LiveSales(sales[1..]);
      assert forall i :: 1 <= i < |sales| ==> sales[i] == sales[1..][i - 1];
      if EqualsIgnoreCase(sales[0].mode, "live") then [sales[0]] + rest else rest
  }

  lemma {:induction false} SubsequenceOfSelf<T>(s: seq<T>)
    ensures SubsequenceOf(s, s)
    decreases |s|
  {
    if |s| > 0 {
      SubsequenceOfSelf(s[1..]);
    }
  }

  /** The sale joins a file row with the given path. */
  predicate SaleOfPath(db: Db, s: SaleRow, path: string) {
    exists j :: 0 <= j < |db.files| && db.files[j].id == s.fileId && db.files[j].fullPath == path
  }

  /** Sale `i` is the first one joined to the path. */
  ghost predicate FirstOfPathAt(db: Db, sales: seq<SaleRow>, path: string, i: int) {
    && 0 <= i < |sales| && SaleOfPath(db, sales[i], path)
    && forall j :: 0 <= j < i ==> !SaleOfPath(db, sales[j], path)
  }

  /** `data_file_has_active_nextcloud_share`: looks only at the first joined
      sale of the path; true when that sale still has a link. */
  function FileHasActiveShare(db: Db, path: string): (r: bool)
    ensures r <==> exists i :: FirstOfPathAt(db, db.sales, path, i) && db.sales[i].link != ""
  {
    match FirstOfPath(db, db.sales, path)
    case None => false
    case Some(k) =>
      assert forall i :: FirstOfPathAt(db, db.sales, path, i) ==> i == k;
      db.sales[k].link != ""
  }

  /** The index of the first sale joined to the path, if any. */
  function FirstOfPath(db: Db, sales: seq<SaleRow>, path: string): (r: Option<nat>)
    ensures r.Some? ==> FirstOfPathAt(db, sales, path, r.value)
    ensures r.None? ==> forall j :: 0 <= j < |sales| ==> !SaleOfPath(db, sales[j], path)
  {
    if |sales| == 0 then None
    else if SaleOfPath(db, sales[0], path) then Some(0)
    else
      match FirstOfPath(db, sales[1..], path)
      case None =>
        assert forall j :: 1 <= j < |sales| ==> sales[j] == sales[1..][j - 1];
        None
      case Some(k) =>
        assert forall j :: 1 <= j <= k + 1 ==> sales[j] == sales[1..][j - 1];
        Some(k + 1)
  }

  // ---------------------------------------------------------------- lookups through sales

  /** Sale `i` is the first one of the session. */
  ghost predicate FirstOfSessionAt(sales: seq<SaleRow>, sessionId: string, i: int) {
    && 0 <= i < |sales| && sales[i].sessionId == sessionId
    && forall j :: 0 <= j < i ==> sales[j].sessionId != sessionId
  }

  /** `data_get_file_from_session`: the path of the file joined to the first
      sale of the session; `None` (PHP `null`) when there is no such sale or
      its file is gone. */
  function GetFileFromSession(db: Db, sessionId: string): (r: Option<string>)
    ensures r.Some? <==> exists i :: FirstOfSessionAt(db.sales, sessionId, i)
                                     && exists j :: 0 <= j < |db.files| && db.files[j].id == db.sales[i].fileId
    ensures r.Some? ==> exists i, j :: FirstOfSessionAt(db.sales, sessionId, i) && 0 <= j < |db.files|
                                       && db.files[j].id == db.sales[i].fileId && db.files[j].fullPath == r.value
    ensures r.Some? ==> r.value in Paths(db.files)
  {
    match FirstSaleOfSession(db.sales, sessionId)
    case None => None
    case Some(s) =>
      assert forall i :: FirstOfSessionAt(db.sales, sessionId, i) ==> db.sales[i] == s;
      match FileById(db.files, s.fileId)
      case None => None
      case Some(f) =>
        var j :| 0 <= j < |db.files| && db.files[j] == f;
        Some(f.fullPath)
  }

  function FirstSaleOfSession(sales: seq<SaleRow>, sessionId: string): (r: Option<SaleRow>)
    ensures r.Some? <==> exists i :: 0 <= i < |sales| && sales[i].sessionId == sessionId
    ensures r.Some? ==> exists i :: FirstOfSessionAt(sales, sessionId, i) && sales[i] == r.value
  {
    if |sales| == 0 then None
    else if sales[0].sessionId == sessionId then Some(sales[0])
    else
      var r := FirstSaleOfSession(sales[1..], sessionId);
      assert forall i :: 1 <= i < |sales| ==> sales[i] == sales[1..][i - 1];
      assert r.Some? ==> exists i :: FirstOfSessionAt(sales, sessionId, i) && sales[i] == r.value by {
        if r.Some? {
          var k :| FirstOfSessionAt(sales[1..], sessionId, k) && sales[1..][k] == r.value;
          assert FirstOfSessionAt(sales, sessionId, k + 1);
        }
      }
      r
  }

  /** A `LEFT JOIN` lookup by sale id: `false` without a sale, `null` when the
      sale's file is gone, the file otherwise. */
  datatype Joined = NoSale | NoFile | JoinedFile(file: FileRow)

  function JoinSale(db: Db, salesId: int): (r: Joined)
    ensures r.NoSale? <==> SaleById(db.sales, salesId).None?
    ensures r.NoFile? <==> SaleById(db.sales, salesId).Some? &&
                           FileById(db.files, SaleById(db.sales, salesId).value.fileId).None?
    ensures r.JoinedFile? ==> r.file in db.files && r.file.id == SaleById(db.sales, salesId).value.fileId
  {
    match SaleById(db.sales, salesId)
    case None => NoSale
    case Some(s) =>
      match FileById(db.files, s.fileId)
      case None => NoFile
      case Some(f) => JoinedFile(f)
  }

  /** `data_get_file_id_from_sales_id`: `None` for PHP `false`, `Some(None)`
      for `null`. */
  function GetFileIdFromSalesId(db: Db, salesId: int): (r: Option<Option<nat>>)
    ensures r.None? <==> !exists i :: 0 <= i < |db.sales| && db.sales[i].id == salesId
    ensures r.Some? && r.value.Some? ==> exists j :: 0 <= j < |db.files| && db.files[j].id == r.value.value
  {
    match JoinSale(db, salesId)
    case NoSale => None
    case NoFile => Some(None)
    case JoinedFile(f) =>
      assert exists j :: 0 <= j < |db.files| && db.files[j] == f;
      Some(Some(f.id))
  }

  /** `data_get_file_path_from_sales_id`, read the same way. */
  function GetFilePathFromSalesId(db: Db, salesId: int): (r: Option<Option<string>>)
    ensures r.None? <==> !exists i :: 0 <= i < |db.sales| && db.sales[i].id == salesId
    ensures r.Some? && r.value.Some? ==> r.value.value in Paths(db.files)
  {
    match JoinSale(db, salesId)
    case NoSale => None
    case NoFile => Some(None)
    case JoinedFile(f) =>
      assert exists j :: 0 <= j < |db.files| && db.files[j] == f;
      Some(Some(f.fullPath))
  }

  /** The string PHP makes of such a lookup: `false` and `null` both
      interpolate as "". */
  function PathText(r: Option<Option<string>>): string {
    if r.Some? && r.value.Some? then r.value.value else ""
  }

  /** With unique ids, the lookup by id finds the one row carrying it. */
  lemma FileByIdFinds(files: seq<FileRow>, i: nat)
    requires i < |files|
    requires forall a, b :: 0 <= a < b < |files| ==> files[a].id != files[b].id
    ensures FileById(files, files[i].id) == Some(files[i])
  {
    var r := FileById(files, files[i].id);
    var j :| 0 <= j < |files| && files[j] == r.value;
    assert files[j].id == files[i].id;
  }

  /** Priming a session no earlier sale carries makes the session lead to the
      primed file's path. */
  lemma PrimedSessionFindsFile(db: Db, fileId: int, sessionId: string, productId: string, priceId: string,
                               mode: string)
    requires WellFormed(db)
    requires FileById(db.files, fileId).Some?
    requires forall k :: 0 <= k < |db.sales| ==> db.sales[k].sessionId != sessionId
    ensures GetFileFromSession(PrimeSalesSession(db, fileId, Some(sessionId), productId, priceId, mode), sessionId)
         == Some(FileById(db.files, fileId).value.fullPath)
  {
    var sale := SaleRow(db.nextSaleId, fileId, "", "", sessionId, "", None, mode);
    FirstSaleOfNewSession(db.sales, sale);
    PrimeKeepsPath(db, fileId, Some(sessionId), productId, priceId, mode);
  }

  /** Priming rewrites only Stripe ids: looking the file up by id afterwards
      gives the same path. */
  lemma PrimeKeepsPath(db: Db, fileId: int, sessionId: Option<string>, productId: string, priceId: string, mode: string)
    requires WellFormed(db)
    requires FileById(db.files, fileId).Some?
    ensures var after := PrimeSalesSession(db, fileId, sessionId, productId, priceId, mode);
      FileById(after.files, fileId).Some? &&
      FileById(after.files, fileId).value.fullPath == FileById(db.files, fileId).value.fullPath
  {
    var after := PrimeSalesSession(db, fileId, sessionId, productId, priceId, mode);
    var i :| 0 <= i < |db.files| && db.files[i] == FileById(db.files, fileId).value;
    assert after.files[i].fullPath == db.files[i].fullPath && after.files[i].id == fileId;
    FileByIdFinds(after.files, i);
  }

  /** A session id no earlier sale carries finds the sale appended with it. */
  lemma FirstSaleOfNewSession(sales: seq<SaleRow>, sale: SaleRow)
    requires forall i :: 0 <= i < |sales| ==> sales[i].sessionId != sale.sessionId
    ensures FirstSaleOfSession(sales + [sale], sale.sessionId) == Some(sale)
  {
    var all := sales + [sale];
    assert all[|sales|] == sale;
    var r := FirstSaleOfSession(all, sale.sessionId);
    var j :| 0 <= j < |all| && all[j] == r.value;
    if j < |sales| {
      assert all[j] == sales[j];
    }
  }

  /** Rows that agree on session and file ids lead the session lookup to the
      same file. */
  lemma {:induction false} FirstSaleSameFile(a: seq<SaleRow>, b: seq<SaleRow>, sessionId: string)
    requires |a| == |b|
    requires forall i :: 0 <= i < |a| ==> a[i].sessionId == b[i].sessionId && a[i].fileId == b[i].fileId
    ensures FirstSaleOfSession(a, sessionId).Some? == FirstSaleOfSession(b, sessionId).Some?
    ensures FirstSaleOfSession(a, sessionId).Some? ==>
      FirstSaleOfSession(a, sessionId).value.fileId == FirstSaleOfSession(b, sessionId).value.fileId
    decreases |a|
  {
    if |a| > 0 && a[0].sessionId != sessionId {
      FirstSaleSameFile(a[1..], b[1..], sessionId);
    }
  }

  // ---------------------------------------------------------------- data_clean_db

  /** A row one `UPDATE ... SET expired = mark WHERE verified = stamp`
      changes: it matches and does not hold the value already (MySQL counts
      changed rows). */
  predicate ChangedBy(f: FileRow, stamp: int, mark: string) {
    f.verified == stamp && f.expired != mark
  }

  function ExpireStamp(files: seq<FileRow>, stamp: int, mark: string): (r: (seq<FileRow>, nat))
    ensures |r.0| == |files|
    ensures forall i :: 0 <= i < |files| ==>
      r.0[i] == (if files[i].verified == stamp then files[i].(expired := mark) else files[i])
    ensures r.1 == CountRows(files, (f: FileRow) => ChangedBy(f, stamp, mark))
  {
    (UpdateRows(files, (f: FileRow) => f.verified == stamp, (f: FileRow) => f.(expired := mark)),
     CountRows(files, (f: FileRow) => ChangedBy(f, stamp, mark)))
  }

  /** A row some stamp of the list changes. */
  predicate ChangedByAny(f: FileRow, stamps: seq<int>, mark: string) {
    f.verified in stamps && f.expired != mark
  }

  /** `data_clean_db`: one `UPDATE` per stamp; every row carrying one of the
      stamps gets `mark` in `expired`, and the result is the number of rows
      changed, each counted once when the stamps are distinct. `mark` is the
      value the update stores: `StoredForNow` for the code as written, the
      database clock's current datetime for the evidently intended SQL
      `NOW()`. */
  function CleanDb(files: seq<FileRow>, stamps: seq<int>, mark: string): (r: (seq<FileRow>, nat))
    ensures |r.0| == |files|
    ensures forall i :: 0 <= i < |files| ==>
      r.0[i] == (if files[i].verified in stamps then files[i].(expired := mark) else files[i])
    decreases |stamps|
  {
    if |stamps| == 0 then (files, 0)
    else
      var (f1, c1) := ExpireStamp(files, stamps[0], mark);
      var (f2, c2) := CleanDb(f1, stamps[1..], mark);
      assert forall v :: v in stamps <==> v == stamps[0] || v in stamps[1..] by {
        assert stamps == [stamps[0]] + stamps[1..];
      }
      (f2, c1 + c2)
  }

  /** With distinct stamps, the count `data_clean_db` returns is the number of
      rows that carry one of them and do not hold `mark` yet. */
  lemma {:induction false} CleanDbCounts(files: seq<FileRow>, stamps: seq<int>, mark: string)
    requires forall a, b :: 0 <= a < b < |stamps| ==> stamps[a] != stamps[b]
    ensures CleanDb(files, stamps, mark).1 == CountRows(files, (f: FileRow) => ChangedByAny(f, stamps, mark))
    decreases |stamps|
  {
    if |stamps| == 0 {
      CountNone(files, (f: FileRow) => ChangedByAny(f, stamps, mark));
    } else {
      var f1 := ExpireStamp(files, stamps[0], mark).0;
      DistinctStampsTail(stamps);
      CleanDbCounts(f1, stamps[1..], mark);
      CleanDbCount(files, f1, stamps[0], stamps[1..], mark);
      assert [stamps[0]] + stamps[1..] == stamps;
    }
  }

  lemma DistinctStampsTail(stamps: seq<int>)
    requires |stamps| > 0
    requires forall a, b :: 0 <= a < b < |stamps| ==> stamps[a] != stamps[b]
    ensures forall a, b :: 0 <= a < b < |stamps[1..]| ==> stamps[1..][a] != stamps[1..][b]
    ensures stamps[0] !in stamps[1..]
  {
    forall a, b | 0 <= a < b < |stamps[1..]| ensures stamps[1..][a] != stamps[1..][b] {
      assert stamps[1..][a] == stamps[a + 1] && stamps[1..][b] == stamps[b + 1];
    }
    forall k | 0 <= k < |stamps[1..]| ensures stamps[1..][k] != stamps[0] {
      assert stamps[1..][k] == stamps[k + 1];
    }
  }

  /** Marking rows expired keeps the catalog well formed. */
  lemma CleanDbWellFormed(db: Db, stamps: seq<int>, mark: string)
    requires WellFormed(db)
    ensures WellFormed(db.(files := CleanDb(db.files, stamps, mark).0))
  {
    var cleaned := CleanDb(db.files, stamps, mark).0;
    SameFileKeysWellFormed(db, cleaned);
  }

  lemma {:induction false} CountNone<R>(rows: seq<R>, where: R -> bool)
    requires forall i :: 0 <= i < |rows| ==> !where(rows[i])
    ensures CountRows(rows, where) == 0
    decreases |rows|
  {
    if |rows| > 0 {
      CountNone(rows[1..], where);
    }
  }

  /** The counting step of `CleanDb`: rows the first stamp changes and rows
      the remaining stamps change (after the first update) are disjoint and
      together the rows the whole list changes. */
  lemma {:induction false} CleanDbCount(files: seq<FileRow>, f1: seq<FileRow>, s: int, rest: seq<int>,
                                         mark: string)
    requires |f1| == |files|
    requires forall i :: 0 <= i < |files| ==>
      f1[i] == (if files[i].verified == s then files[i].(expired := mark) else files[i])
    requires s !in rest
    ensures CountRows(files, (f: FileRow) => ChangedBy(f, s, mark)) + CountRows(f1, (f: FileRow) => ChangedByAny(f, rest, mark))
         == CountRows(files, (f: FileRow) => ChangedByAny(f, [s] + rest, mark))
    decreases |files|
  {
    if |files| > 0 {
      CleanDbCount(files[1..], f1[1..], s, rest, mark);
      assert ChangedByAny(files[0], [s] + rest, mark) <==> ChangedBy(files[0], s, mark) || ChangedByAny(f1[0], rest, mark);
    }
  }

  /** The code as written expires nothing: on a table whose `expired` columns
      hold their default, storing `StoredForNow` leaves every row as it was
      and the count is 0, whatever the stamps. */
  lemma {:induction false} CleanDbAsWritten(files: seq<FileRow>, stamps: seq<int>)
    requires forall i :: 0 <= i < |files| ==> files[i].expired == NotExpired
    ensures CleanDb(files, stamps, StoredForNow) == (files, 0)
    decreases |stamps|
  {
    if |stamps| > 0 {
      var (f1, c1) := ExpireStamp(files, stamps[0], StoredForNow);
      assert f1 == files;
      CountNone(files, (f: FileRow) => ChangedBy(f, stamps[0], StoredForNow));
      CleanDbAsWritten(f1, stamps[1..]);
    }
  }

  /** With the evidently intended SQL `NOW()`, a row carrying one of the
      stamps is marked: its `expired` leaves the default and holds the
      current datetime. A one-row table shows the difference from the code
      as written. */
  lemma NowMarksRow(now: string)
    requires now != NotExpired
    ensures var row := FileRow(1, "a.mp4", "/a.mp4", "", "", "", "2024-03-01", "10:00:00", "11:00:00",
                               ZeroBytes, "", "", "", 5, "video/mp4", NotExpired);
      && CleanDb([row], [5], StoredForNow) == ([row], 0)
      && CleanDb([row], [5], now) == ([row.(expired := now)], 1)
  {
    var row := FileRow(1, "a.mp4", "/a.mp4", "", "", "", "2024-03-01", "10:00:00", "11:00:00",
                       ZeroBytes, "", "", "", 5, "video/mp4", NotExpired);
    CleanDbAsWritten([row], [5]);
    var marked := CleanDb([row], [5], now);
    assert marked.0 == [marked.0[0]] && marked.0[0] == row.(expired := now);
    CleanDbCounts([row], [5], now);
    assert CountRows([row], (f: FileRow) => ChangedByAny(f, [5], now)) == 1;
  }
}

=== FILE: text.dfy ===
/** The PHP string functions the plugin relies on, over `string` = `seq<char>`:
    `substr`, `strstr` (as a containment test), `str_replace`,
    `implode`/`explode`, `intval`, `basename`/`dirname` and the decimal
    rendering of integers. Here a character stands for one byte of the PHP
    string, so lengths and offsets agree with PHP's byte counts for ASCII
    text. Only URL encoding (module `Url`) turns a character into its UTF-8
    bytes. */
module Text {
  import opened Base

  // ---------------------------------------------------------------- digits

  predicate IsDigit(c: char) {
    '0' <= c <= '9'
  }

  predicate AllDigits(s: string) {
    forall i :: 0 <= i < |s| ==> IsDigit(s[i])
  }

  function DigitChar(d: nat): (c: char)
    requires d < 10
    ensures IsDigit(c)
  {
    (('0' as int) + d) as char
  }

  function DigitValue(c: char): (d: nat)
    requires IsDigit(c)
    ensures d < 10
  {
    (c as int) - ('0' as int)
  }

  lemma DigitRoundTrip(d: nat)
    requires d < 10
    ensures DigitValue(DigitChar(d)) == d
  {
  }

  /** Two-digit, zero-padded rendering (`date('H')`, `date('i')`). */
  function Pad2(n: nat): (r: string)
    requires n < 100
    ensures |r| == 2 && AllDigits(r)
  {
    [DigitChar(n / 10), DigitChar(n % 10)]
  }

  /** Decimal rendering of a natural number, as PHP interpolates an int. */
  function NatToString(n: nat): (r: string)
    ensures |r| > 0 && AllDigits(r)
    ensures n >= 10 ==> r[0] != '0'
    decreases n
  {
    if n < 10 then [DigitChar(n)] else NatToString(n / 10) + [DigitChar(n % 10)]
  }

  /** Value of a run of decimal digits, most significant first. */
  function DigitsValue(s: string): nat
    requires AllDigits(s)
  {
    if |s| == 0 then 0 else DigitsValue(s[..|s| - 1]) * 10 + DigitValue(s[|s| - 1])
  }

  /** The longest prefix of `s` made of decimal digits. */
  function DigitRun(s: string): (r: string)
    ensures |r| <= |s| && r == s[..|r|] && AllDigits(r)
    ensures |r| < |s| ==> !IsDigit(s[|r|])
  {
    if |s| > 0 && IsDigit(s[0]) then [s[0]] + DigitRun(s[1..]) else ""
  }

  lemma {:induction false} DigitRunOfDigits(s: string, rest: string)
    requires AllDigits(s)
    requires |rest| == 0 || !IsDigit(rest[0])
    ensures DigitRun(s + rest) == s
    decreases |s|
  {
    if |s| == 0 {
      assert s + rest == rest;
    } else {
      assert (s + rest)[1..] == s[1..] + rest;
      DigitRunOfDigits(s[1..], rest);
    }
  }

  predicate IsSpace(c: char) {
    c == ' ' || c == '\t' || c == '\n' || c == '\r' || c as int == 11 || c as int == 12
  }

  function SkipSpace(s: string): (r: string)
    ensures |r| <= |s| && r == s[|s| - |r|..]
    ensures |r| == 0 || !IsSpace(r[0])
  {
    if |s| > 0 && IsSpace(s[0]) then SkipSpace(s[1..]) else s
  }

  /** PHP `intval($s)` for a string: leading white space, an optional sign and
      the longest run of decimal digits; no digits gives 0. */
  function Intval(s: string): int {
    var t := SkipSpace(s);
    if |t| > 0 && t[0] == '-' then -(DigitsValue(DigitRun(t[1..])) as int)
    else if |t| > 0 && t[0] == '+' then DigitsValue(DigitRun(t[1..]))
    else DigitsValue(DigitRun(t))
  }

  lemma {:induction false} NatToStringValue(n: nat)
    ensures DigitsValue(NatToString(n)) == n
    decreases n
  {
    if n >= 10 {
      var s := NatToString(n);
      assert s[..|s| - 1] == NatToString(n / 10);
      NatToStringValue(n / 10);
    }
  }

  /** `intval` of a string that starts with a digit run reads that run. */
  lemma IntvalOfDigits(digits: string, rest: string)
    requires |digits| > 0 && AllDigits(digits)
    requires |rest| == 0 || !IsDigit(rest[0])
    ensures Intval(digits + rest) == DigitsValue(digits)
  {
    var s := digits + rest;
    assert s[0] == digits[0];
    assert !IsSpace(s[0]) && s[0] != '-' && s[0] != '+';
    assert SkipSpace(s) == s;
    DigitRunOfDigits(digits, rest);
    assert DigitRun(s) == digits;
  }

  /** `intval` reads back what `NatToString` wrote. */
  lemma IntvalOfNatToString(n: nat, rest: string)
    requires |rest| == 0 || !IsDigit(rest[0])
    ensures Intval(NatToString(n) + rest) == n
  {
    IntvalOfDigits(NatToString(n), rest);
    NatToStringValue(n);
  }

  /** PHP's string form of an integer. */
  function IntToString(n: int): (r: string)
    ensures |r| > 0
    ensures n >= 0 ==> r == NatToString(n)
    ensures n < 0 ==> r[0] == '-' && AllDigits(r[1..])
  {
    if n < 0 then "-" + NatToString(-n) else NatToString(n)
  }

  /** `intval` reads back any integer PHP prints. */
  lemma IntvalOfIntToString(n: int)
    ensures Intval(IntToString(n)) == n
  {
    if n < 0 {
      var m: nat := -n;
      var digits := NatToString(m);
      assert IntToString(n) == "-" + digits;
      IntvalOfNegative(m);
      assert -(m as int) == n;
    } else {
      IntvalOfNatToString(n, "");
      assert NatToString(n) + "" == NatToString(n);
    }
  }

  lemma IntvalOfNegative(m: nat)
    ensures Intval("-" + NatToString(m)) == -(m as int)
  {
    var d := NatToString(m);
    var s := "-" + d;
    assert s[0] == '-';
    assert SkipSpace(s) == s;
    assert s[1..] == d;
    DigitRunAll(d);
    NatToStringValue(m);
    assert DigitsValue(DigitRun(s[1..])) == m;
  }

  lemma DigitRunAll(s: string)
    requires AllDigits(s)
    ensures DigitRun(s) == s
  {
    DigitRunOfDigits(s, "");
    assert s + "" == s;
  }

  /** `intval` reads back a two-digit field. */
  lemma IntvalOfPad2(n: nat, rest: string)
    requires n < 100
    requires |rest| == 0 || !IsDigit(rest[0])
    ensures Intval(Pad2(n) + rest) == n
  {
    Pad2Value(n);
    IntvalOfDigits(Pad2(n), rest);
  }

  lemma Pad2Value(n: nat)
    requires n < 100
    ensures DigitsValue(Pad2(n)) == n
  {
    var p := Pad2(n);
    var hi := p[..1];
    assert hi[..0] == [];
    assert DigitValue(p[0]) == n / 10;
    assert DigitValue(p[1]) == n % 10;
    assert DigitsValue(hi) == n / 10;
    assert p[..|p| - 1] == hi;
  }

  // ---------------------------------------------------------------- number filter

  /** The characters `FILTER_SANITIZE_NUMBER_INT` keeps. */
  predicate IsNumberIntChar(c: char) {
    IsDigit(c) || c == '+' || c == '-'
  }

  /** `filter_var($s, FILTER_SANITIZE_NUMBER_INT)`: every character other
      than a digit, `+` or `-` is dropped and the kept ones stay in order. */
  function SanitizeNumberInt(s: string): (r: string)
    ensures forall i :: 0 <= i < |r| ==> IsNumberIntChar(r[i])
    ensures SubsequenceOf(r, s)
    ensures (forall i :: 0 <= i < |s| ==> IsNumberIntChar(s[i])) ==> r == s
    ensures (forall i :: 0 <= i < |s| ==> !IsNumberIntChar(s[i])) ==> r == ""
  {
    if |s| == 0 then ""
    else if IsNumberIntChar(s[0]) then
      var rest := SanitizeNumberInt(s[1..]);
      assert ([s[0]] + rest)[1..] == rest;
      [s[0]] + rest
    else SanitizeNumberInt(s[1..])
  }

  /** The filter works character by character: filtering a concatenation
      filters each part. */
  lemma {:induction false} SanitizeNumberIntAppend(a: string, b: string)
    ensures SanitizeNumberInt(a + b) == SanitizeNumberInt(a) + SanitizeNumberInt(b)
    decreases |a|
  {
    if |a| == 0 {
      assert a + b == b;
    } else {
      assert (a + b)[0] == a[0];
      assert (a + b)[1..] == a[1..] + b;
      SanitizeNumberIntAppend(a[1..], b);
    }
  }

  /** A filtered string PHP treats as leading-numeric: an optional sign, then
      a digit. Passed to an `int` parameter such a string reads as `intval`
      reads it; any other filtered string (empty, a lone sign, two signs in
      front) raises a `TypeError`. */
  predicate LeadingNumeric(s: string) {
    (|s| > 0 && IsDigit(s[0])) || (|s| > 1 && (s[0] == '+' || s[0] == '-') && IsDigit(s[1]))
  }

  /** The filter invents no digits: an input without digits filters to a
      string without digits. */
  lemma {:induction false} SanitizeNumberIntNoDigits(s: string)
    requires forall i :: 0 <= i < |s| ==> !IsDigit(s[i])
    ensures forall k :: 0 <= k < |SanitizeNumberInt(s)| ==> !IsDigit(SanitizeNumberInt(s)[k])
    decreases |s|
  {
    if |s| > 0 {
      SanitizeNumberIntNoDigits(s[1..]);
    }
  }

  /** A filtered string that `intval` reads as a positive number starts with
      a digit or a sign and a digit. */
  lemma PositiveIsLeadingNumeric(s: string)
    requires Intval(SanitizeNumberInt(s)) > 0
    ensures LeadingNumeric(SanitizeNumberInt(s))
  {
    NumberCharsPositiveLeading(SanitizeNumberInt(s));
  }

  lemma NumberCharsPositiveLeading(v: string)
    requires forall i :: 0 <= i < |v| ==> IsNumberIntChar(v[i])
    requires Intval(v) > 0
    ensures LeadingNumeric(v)
  {
    if |v| > 0 {
      assert IsNumberIntChar(v[0]);
    }
    assert SkipSpace(v) == v;
    if |v| > 0 && v[0] == '+' {
      assert |DigitRun(v[1..])| > 0;
    } else if |v| > 0 && v[0] != '-' {
      assert |DigitRun(v)| > 0;
    }
  }

  /** Letters before the digits and a decimal point between them are
      dropped. */
  lemma SanitizeNumberIntExamples()
    ensures SanitizeNumberInt("abc7") == "7"
    ensures SanitizeNumberInt("1.5") == "15"
  {
    SanitizeLettersThenDigit();
    SanitizeDecimalPoint();
  }

  lemma SanitizeLettersThenDigit()
    ensures SanitizeNumberInt("abc7") == "7"
  {
    assert "abc7" == "abc" + "7";
    assert SanitizeNumberInt("abc") == "";
    assert SanitizeNumberInt("7") == "7";
    SanitizeNumberIntAppend("abc", "7");
  }

  lemma SanitizeDecimalPoint()
    ensures SanitizeNumberInt("1.5") == "15"
  {
    assert SanitizeNumberInt(".5") == "5" by {
      assert ".5" == "." + "5";
      assert SanitizeNumberInt(".") == "";
      assert SanitizeNumberInt("5") == "5";
      SanitizeNumberIntAppend(".", "5");
    }
    assert "1.5" == "1" + ".5";
    assert SanitizeNumberInt("1") == "1";
    SanitizeNumberIntAppend("1", ".5");
    assert "15" == "1" + "5";
  }

  /** What `intval` reads from the filtered examples above. */
  lemma IntvalOfSanitizedExamples()
    ensures Intval("7") == 7
    ensures Intval("15") == 15
    ensures Intval("") == 0
  {
    IntvalSeven();
    IntvalFifteen();
    assert SkipSpace("") == "" && DigitRun("") == "";
  }

  lemma IntvalSeven()
    ensures Intval("7") == 7
  {
    IntvalOfDigits("7", "");
    assert "7" + "" == "7";
  }

  lemma IntvalFifteen()
    ensures Intval("15") == 15
  {
    assert "15"[..1] == "1" && "1"[..0] == "";
    assert DigitsValue("15") == 15;
    IntvalOfDigits("15", "");
    assert "15" + "" == "15";
  }

  // ---------------------------------------------------------------- substr

  /** PHP 8 `substr($s, $start, $len)` for non-negative offsets. */
  function Substr(s: string, start: nat, len: nat): (r: string)
    ensures |r| <= len
    ensures start + len <= |s| ==> r == s[start..start + len]
  {
    if start >= |s| then "" else if start + len <= |s| then s[start..start + len] else s[start..]
  }

  /** PHP 8 `substr($s, $start)` for a non-negative offset. */
  function SubstrFrom(s: string, start: nat): (r: string)
    ensures start <= |s| ==> r == s[start..]
    ensures start >= |s| ==> r == ""
  {
    if start >= |s| then "" else s[start..]
  }

  // ---------------------------------------------------------------- search

  predicate StartsWith(s: string, p: string) {
    |p| <= |s| && s[..|p|] == p
  }

  /** `strstr($s, $needle) !== false` for a non-empty needle. */
  predicate Contains(s: string, needle: string)
    decreases |s|
  {
    StartsWith(s, needle) || (|s| > 0 && Contains(s[1..], needle))
  }

  lemma {:induction false} ContainsAt(s: string, needle: string, i: nat)
    requires i + |needle| <= |s| && s[i..i + |needle|] == needle
    ensures Contains(s, needle)
    decreases i
  {
    if i > 0 {
      assert s[1..][i - 1..i - 1 + |needle|] == needle;
      ContainsAt(s[1..], needle, i - 1);
    }
  }

  lemma {:induction false} ContainsCharIff(s: string, c: char)
    ensures Contains(s, [c]) <==> c in s
    decreases |s|
  {
    if |s| > 0 {
      ContainsCharIff(s[1..], c);
      assert s == [s[0]] + s[1..];
    }
  }

  /** Text without the first character of a needle does not contain it. */
  lemma {:induction false} MissingFirstChar(s: string, needle: string)
    requires |needle| > 0 && needle[0] !in s
    ensures !Contains(s, needle)
    decreases |s|
  {
    if |s| > 0 {
      assert s[0] != needle[0];
      assert needle[0] !in s[1..] by {
        forall k | 0 <= k < |s[1..]| ensures s[1..][k] != needle[0] {
          assert s[1..][k] == s[k + 1];
        }
      }
      MissingFirstChar(s[1..], needle);
    }
  }

  /** Text shorter than a needle does not contain it. */
  lemma {:induction false} ShorterThanNeedle(s: string, needle: string)
    requires |s| < |needle|
    ensures !Contains(s, needle)
    decreases |s|
  {
    if |s| > 0 {
      ShorterThanNeedle(s[1..], needle);
    }
  }

  /** PHP `str_replace($needle, $rep, $s)` for one search string: occurrences
      are replaced left to right without overlap; an empty needle changes
      nothing. */
  function ReplaceAll(s: string, needle: string, rep: string): string
    decreases |s|
  {
    if |needle| == 0 || |s| < |needle| then s
    else if s[..|needle|] == needle then rep + ReplaceAll(s[|needle|..], needle, rep)
    else [s[0]] + ReplaceAll(s[1..], needle, rep)
  }

  /** Replacing a text that is exactly the needle gives the replacement. */
  lemma ReplaceWhole(needle: string, rep: string)
    requires |needle| > 0
    ensures ReplaceAll(needle, needle, rep) == rep
  {
    assert needle[..|needle|] == needle;
    assert needle[|needle|..] == "";
    assert ReplaceAll("", needle, rep) == "";
    assert rep + "" == rep;
  }

  /** Character-wise substitution, the meaning of a one-character `str_replace`. */
  function MapChar(s: string, a: char, b: char): (r: string)
    ensures |r| == |s|
    ensures forall i :: 0 <= i < |s| ==> r[i] == (if s[i] == a then b else s[i])
  {
    seq(|s|, i requires 0 <= i < |s| => if s[i] == a then b else s[i])
  }

  lemma {:induction false} ReplaceCharIsMapChar(s: string, a: char, b: char)
    ensures ReplaceAll(s, [a], [b]) == MapChar(s, a, b)
    decreases |s|
  {
    if |s| > 0 {
      ReplaceCharIsMapChar(s[1..], a, b);
      assert s[..1] == [s[0]];
    }
  }

  lemma {:induction false} ReplaceAbsent(s: string, needle: string, rep: string)
    requires !Contains(s, needle)
    ensures ReplaceAll(s, needle, rep) == s
    decreases |s|
  {
    if |needle| > 0 && |s| >= |needle| {
      ReplaceAbsent(s[1..], needle, rep);
      assert s == [s[0]] + s[1..];
    }
  }

  /** A one-character `str_replace` leaves no occurrence of the searched
      character behind, provided the replacement is a different character. */
  lemma ReplaceCharRemoves(s: string, a: char, b: char)
    requires a != b
    ensures a !in ReplaceAll(s, [a], [b])
  {
    ReplaceCharIsMapChar(s, a, b);
  }

  // ---------------------------------------------------------------- implode / explode

  /** PHP `implode($sep, $parts)`. */
  function Join(parts: seq<string>, sep: string): string {
    if |parts| == 0 then ""
    else if |parts| == 1 then parts[0]
    else parts[0] + sep + Join(parts[1..], sep)
  }

  function IndexOf(s: string, c: char): (i: nat)
    requires c in s
    ensures i < |s| && s[i] == c && c !in s[..i]
  {
    if s[0] == c then 0 else 1 + IndexOf(s[1..], c)
  }

  /** The first occurrence is the only index with the character and none before it. */
  lemma {:induction false} IndexOfUnique(s: string, c: char, j: nat)
    requires j < |s| && s[j] == c && c !in s[..j]
    ensures IndexOf(s, c) == j
    decreases j
  {
    if j > 0 {
      assert s[0] == s[..j][0];
      assert s[1..][..j - 1] == s[..j][1..];
      IndexOfUnique(s[1..], c, j - 1);
    }
  }

  /** PHP `explode($c, $s)` for a one-character delimiter. */
  function Split(s: string, c: char): (r: seq<string>)
    ensures |r| > 0
    decreases |s|
  {
    if c !in s then [s] else var i := IndexOf(s, c); [s[..i]] + Split(s[i + 1..], c)
  }

  /** Splitting on a delimiter undoes joining with it, when no part contains
      the delimiter and there is at least one part. */
  lemma {:induction false} SplitJoin(parts: seq<string>, c: char)
    requires |parts| > 0
    requires forall k :: 0 <= k < |parts| ==> c !in parts[k]
    ensures Split(Join(parts, [c]), c) == parts
    decreases |parts|
  {
    if |parts| > 1 {
      var s := Join(parts, [c]);
      var tail := Join(parts[1..], [c]);
      assert s == parts[0] + [c] + tail;
      assert s[|parts[0]|] == c;
      assert s[..|parts[0]|] == parts[0];
      IndexOfUnique(s, c, |parts[0]|);
      assert s[|parts[0]| + 1..] == tail;
      SplitJoin(parts[1..], c);
    }
  }

  // ---------------------------------------------------------------- paths

  function StripTrailingSlashes(p: string): (r: string)
    ensures |r| <= |p| && r == p[..|r|]
    ensures |r| == 0 || r[|r| - 1] != '/'
  {
    if |p| > 0 && p[|p| - 1] == '/' then StripTrailingSlashes(p[..|p| - 1]) else p
  }

  function LastIndexOf(s: string, c: char): (i: nat)
    requires c in s
    ensures i < |s| && s[i] == c && c !in s[i + 1..]
  {
    if s[|s| - 1] == c then |s| - 1
    else
      assert c in s[..|s| - 1] by { assert s == s[..|s| - 1] + [s[|s| - 1]]; }
      LastIndexOf(s[..|s| - 1], c)
  }

  /** PHP `basename($p)` for '/'-separated paths: the last component, ignoring
      trailing slashes. */
  function Basename(p: string): (r: string)
    ensures '/' !in r
  {
    var q := StripTrailingSlashes(p);
    if '/' in q then q[LastIndexOf(q, '/') + 1..] else q
  }

  /** PHP `dirname($p)` for '/'-separated paths: everything before the last
      component, "/" when that is the root, "." when there is no slash. */
  function Dirname(p: string): string {
    var q := StripTrailingSlashes(p);
    if q == "" then (if p == "" then "" else "/")
    else if '/' !in q then "."
    else
      var head := StripTrailingSlashes(q[..LastIndexOf(q, '/')]);
      if head == "" then "/" else head
  }

  // ---------------------------------------------------------------- comparison

  /** `a` sorts no later than `b`, character by character and a prefix
      first. On `Y-m-d` dates this is the calendar order. */
  predicate LexLeq(a: string, b: string)
    decreases |a|
  {
    |a| == 0 || (|b| > 0 && (a[0] < b[0] || (a[0] == b[0] && LexLeq(a[1..], b[1..]))))
  }

  lemma {:induction false} LexLeqTotal(a: string, b: string)
    ensures LexLeq(a, b) || LexLeq(b, a)
    decreases |a|
  {
    if |a| > 0 && |b| > 0 && a[0] == b[0] {
      LexLeqTotal(a[1..], b[1..]);
    }
  }

  lemma {:induction false} LexLeqReflexive(a: string)
    ensures LexLeq(a, a)
    decreases |a|
  {
    if |a| > 0 {
      LexLeqReflexive(a[1..]);
    }
  }

  lemma {:induction false} LexLeqTrans(a: string, b: string, c: string)
    requires LexLeq(a, b) && LexLeq(b, c)
    ensures LexLeq(a, c)
    decreases |a|
  {
    if |a| > 0 && a[0] == b[0] && b[0] == c[0] {
      LexLeqTrans(a[1..], b[1..], c[1..]);
    }
  }

  lemma {:induction false} LexLeqAntisymmetric(a: string, b: string)
    requires LexLeq(a, b) && LexLeq(b, a)
    ensures a == b
    decreases |a|
  {
    if |a| > 0 {
      LexLeqAntisymmetric(a[1..], b[1..]);
      assert a == [a[0]] + a[1..] && b == [b[0]] + b[1..];
    }
  }

  // ---------------------------------------------------------------- misc

  /** PHP truthiness of a string: "" and "0" are false. */
  predicate Falsy(s: string) {
    s == "" || s == "0"
  }

  function LowerAscii(c: char): char {
    if 'A' <= c <= 'Z' then ((c as int) + 32) as char else c
  }

  /** ASCII case-insensitive equality, the meaning of MySQL's `LIKE` without
      wildcards under a case-insensitive collation. */
  predicate EqualsIgnoreCase(a: string, b: string) {
    |a| == |b| && forall i :: 0 <= i < |a| ==> LowerAscii(a[i]) == LowerAscii(b[i])
  }
}

=== FILE: url.dfy ===
/** PHP's `urlencode`, which the plugin applies to the success URL of a Stripe
    checkout session, and the form decoding a server applies to read it back. */
module UrlCode {
  import opened Text

  /** Characters `urlencode` passes through unchanged. */
  predicate Unreserved(c: char) {
    ('a' <= c <= 'z') || ('A' <= c <= 'Z') || ('0' <= c <= '9') || c == '-' || c == '_' || c == '.'
  }

  predicate IsHex(c: char) {
    ('0' <= c <= '9') || ('A' <= c <= 'F')
  }

  /** Characters that can appear in the output of `urlencode`. */
  predicate UrlSafe(c: char) {
    Unreserved(c) || c == '+' || c == '%'
  }

  function HexDigit(n: nat): (c: char)
    requires n < 16
    ensures IsHex(c)
  {
    if n < 10 then ('0' as int + n) as char else ('A' as int + n - 10) as char
  }

  function HexValue(c: char): (n: nat)
    requires IsHex(c)
    ensures n < 16
  {
    if c <= '9' then c as int - '0' as int else c as int - 'A' as int + 10
  }

  lemma HexRoundTrip(n: nat)
    requires n < 16
    ensures HexValue(HexDigit(n)) == n
  {
  }

  /** The UTF-8 bytes of a character, the form in which PHP strings hold it. */
  function Utf8(c: char): (r: seq<nat>)
    ensures 1 <= |r| <= 4
    ensures forall i :: 0 <= i < |r| ==> r[i] < 256
    ensures c as int < 128 ==> r == [c as int]
  {
    var n := c as int;
    if n < 0x80 then [n]
    else if n < 0x800 then [0xC0 + n / 64, 0x80 + n % 64]
    else if n < 0x10000 then [0xE0 + n / 4096, 0x80 + (n / 64) % 64, 0x80 + n % 64]
    else [0xF0 + n / 262144, 0x80 + (n / 4096) % 64, 0x80 + (n / 64) % 64, 0x80 + n % 64]
  }

  /** `%XY` for every byte, with upper-case hexadecimal digits. */
  function PercentBytes(bs: seq<nat>): (r: string)
    requires forall i :: 0 <= i < |bs| ==> bs[i] < 256
    ensures |r| == 3 * |bs|
    ensures forall i :: 0 <= i < |r| ==> r[i] == '%' || IsHex(r[i])
  {
    if |bs| == 0 then ""
    else ['%', HexDigit(bs[0] / 16), HexDigit(bs[0] % 16)] + PercentBytes(bs[1..])
  }

  /** The encoding of one character: itself when unreserved, '+' for a space,
      `%XY` for each of its bytes otherwise. */
  function EncodeChar(c: char): (r: string)
    ensures |r| > 0
    ensures forall i :: 0 <= i < |r| ==> UrlSafe(r[i])
    ensures Unreserved(c) ==> r == [c]
    ensures c == ' ' ==> r == "+"
  {
    if Unreserved(c) then [c]
    else if c == ' ' then "+"
    else
      var r := PercentBytes(Utf8(c));
      assert forall i :: 0 <= i < |r| ==> r[i] == '%' || IsHex(r[i]);
      r
  }

  /** PHP `urlencode($s)`. */
  function UrlEncode(s: string): (r: string)
    ensures |r| >= |s|
    ensures forall i :: 0 <= i < |r| ==> UrlSafe(r[i])
  {
    if |s| == 0 then ""
    else
      var head := EncodeChar(s[0]);
      var tail := UrlEncode(s[1..]);
      assert forall i :: |head| <= i < |head + tail| ==> (head + tail)[i] == tail[i - |head|];
      head + tail
  }

  /** Form decoding (`application/x-www-form-urlencoded`): '+' is a space and
      `%XY` the byte XY; anything else stands for itself. Bytes are read as
      characters one by one, so only ASCII text is recovered exactly. */
  function UrlDecode(s: string): string
    decreases |s|
  {
    if |s| == 0 then ""
    else if s[0] == '+' then " " + UrlDecode(s[1..])
    else if s[0] == '%' && |s| >= 3 && IsHex(s[1]) && IsHex(s[2]) then
      [(16 * HexValue(s[1]) + HexValue(s[2])) as char] + UrlDecode(s[3..])
    else [s[0]] + UrlDecode(s[1..])
  }

  predicate Ascii(s: string) {
    forall i :: 0 <= i < |s| ==> s[i] as int < 128
  }

  /** Decoding reads one encoded ASCII character off the front. */
  lemma DecodeOneChar(c: char, t: string)
    requires c as int < 128
    ensures UrlDecode(EncodeChar(c) + t) == [c] + UrlDecode(t)
  {
    var e := EncodeChar(c);
    if Unreserved(c) {
      assert (e + t)[1..] == t;
    } else if c == ' ' {
      assert (e + t)[1..] == t;
    } else {
      var n := c as int;
      assert e == ['%', HexDigit(n / 16), HexDigit(n % 16)];
      HexRoundTrip(n / 16);
      HexRoundTrip(n % 16);
      assert (e + t)[3..] == t;
    }
  }

  /** Round trip: decoding the `urlencode` of ASCII text gives it back. */
  lemma {:induction false} UrlRoundTrip(s: string)
    requires Ascii(s)
    ensures UrlDecode(UrlEncode(s)) == s
    decreases |s|
  {
    if |s| > 0 {
      assert Ascii(s[1..]) by {
        forall i | 0 <= i < |s[1..]| ensures s[1..][i] as int < 128 {
          assert s[1..][i] == s[i + 1];
        }
      }
      UrlRoundTrip(s[1..]);
      DecodeOneChar(s[0], UrlEncode(s[1..]));
      assert s == [s[0]] + s[1..];
    }
  }
}
